=== FILE: README.md ===
# AUTO_Hekili: spell recognition and key dispatch

AUTO_Hekili watches the on-screen Hekili spell box. For every captured frame
it decides which spell icon is shown and presses the key bound to that spell.
This project models the decision logic of its two front ends. It also models
the text processing that builds their configuration.

- `oldversion.py` is the graphical front end. Its `CaptureThread` tries a
  template match over the "problem" spells first, at three scales. It then
  falls back to a nearest-neighbour search over perceptual hashes, with an
  asymmetric threshold. The window (`AutoHekiliGUI`) holds the spell box, the
  spell configuration and one keybinding input per spell. A
  `SpellTestThread` reports how one spell would be recognised.
- `auto_hekili_console.py` is the console front end. Its `capture_and_compare`
  uses exact problem-spell names, one template scale and a flat hash
  threshold of 15. The console also:
  - reads class/spec names from SimC file names;
  - reads spell names from SimC action lines;
  - groups class/spec names for its menus;
  - builds the spell map from icon file names;
  - edits keybindings from typed answers.

Every image primitive is an oracle carried by a frame value:
- the Hamming distance between perceptual hashes is a `nat` per spell;
- a template correlation is a `real` per spell and scale;
- a scale whose template does not fit, and an unreadable template, are
  readings of their own.

The loops of both front ends take one `Tick` per iteration. A tick says
whether the toggle key is held and gives the captured frame, or says that the
capture raised. What a loop does to the outside world is an event trace:
status changes, previews, debug saves, recognitions and key-token dispatches.
A key token becomes a trace of `Down`/`Press`/`Up` key events.

Modules:

| module | file | models |
|---|---|---|
| `Matching` | matching.dfy | problem-spell predicates, template pass, hash scan, per-frame classifiers of both front ends |
| `CaptureLoop` | capture_loop.dfy | `CaptureThread` (graphical worker) and `capture_and_compare` (console loop) |
| `KeyDispatch` | key_dispatch.dfy | `press_key_combination` |
| `Keybindings` | keybindings.dfy | merging saved bindings, the bindings to save, which typed keys are kept |
| `Editor` | editor.dfy | the console's `configure_keybindings` |
| `Icons` | icons.dfy | `get_spells_for_class_spec` (identical in both front ends) |
| `Gui` | gui.dfy | `AutoHekiliGUI` state and `SpellTestThread.run` |
| `SimC` | simc.dfy | `get_all_classes_specs`, `get_spells_from_class_spec`, class/spec grouping and menus |
| `Text`, `Dicts`, `Sorting`, `Seqs`, `Wrappers` | | Python strings, insertion-ordered dicts, `sorted`, `Option`/`Result` |

Python semantics the model keeps:
- A Python dict is `Dicts.Dict`: an insertion order plus a map. Assigning to
  an existing key keeps its position, and `pop` removes it from the order.
- `str.lower` lowercases ASCII letters only (see "## Left out").
- `str.strip` removes Python's whitespace characters.
- `split`, `join`, `replace`, `startswith`, `endswith`, `in` and `sorted` are
  modelled on strings as Python defines them.

## Model

| member | source | states |
|---|---|---|
| `Matching.ProblemSpellMembership` | oldversion.py:67-69 | a spell is a problem spell exactly when its lowercased name contains `storm_elemental` or `ascendance` |
| `Matching.ConsoleProblemIsProblem` | auto_hekili_console.py:331 | every spell the console singles out by exact lowercased name is a problem spell of the graphical front end too |
| `Matching.ScoreIsMaximum` | oldversion.py:129-135 | the template score is at least 0 and at least every correlation of a fitting scale, and is either 0 or one of those correlations |
| `Matching.NoFittingScale` | oldversion.py:132-138 | when no scale fits, the score is 0 and below the 0.7 bar |
| `Matching.BestCorrelation` | oldversion.py:129-135 | the scale loop's `max_val_overall` is the score over the readings |
| `Matching.TemplateWinnerIsFirst` | oldversion.py:122-153 | the template pass reports nothing exactly when no problem spell's template scores 0.7; otherwise it reports the first such spell, in order, with its score |
| `Matching.TemplatePass` | oldversion.py:121-153 | the loop over the problem spells, left at the first hit, computes the template winner |
| `Matching.ArgMinIsFirstNearest` | oldversion.py:159-171 | the hash scan finds nothing exactly when no spell is eligible; otherwise the first eligible spell at the least eligible distance, so ties keep the earlier spell |
| `Matching.CloserLastIsNearest` | oldversion.py:166-171 | a last spell strictly closer than the nearest so far becomes the nearest |
| `Matching.OnlyLastIsNearest` | oldversion.py:166-171 | a first eligible spell, coming last, is the nearest |
| `Matching.KeepNearest` | oldversion.py:166-171 | a last spell that is ineligible or no closer leaves the nearest unchanged |
| `Matching.FindNearest` | oldversion.py:159-171 | the `best_match`/`min_diff` loop computes the arg-min scan |
| `Matching.TemplatePreempts` | oldversion.py:155-156 | a found template decides the verdict whatever the hash distances and the threshold |
| `Matching.TemplateWinnerDependsOnTemplatesOnly` | oldversion.py:120-153 | the template pass depends on the template readings alone |
| `Matching.ThresholdMonotone` | oldversion.py:173-177 | raising the user threshold never loses a match and never changes which spell matches |
| `Matching.ExactHashMatches` | oldversion.py:173-177 | a hashed spell at distance 0 gives a hash match at distance 0 for every threshold of at least 1 |
| `Matching.StricterBoundDoesNotHide` | oldversion.py:162-177 | a problem spell at 13 does not hide an ordinary spell at 14 under threshold 15, in either order |
| `Matching.ConsoleTemplateLoop` | auto_hekili_console.py:373-399 | the console template loop raises exactly when the template pass fails; otherwise it yields the pass's winner |
| `Matching.ConsoleHashIsPlainArgMin` | auto_hekili_console.py:404-415 | the console hash scan finds nothing only for no hashed spells; otherwise the first spell at the least distance |
| `Matching.MatchedSpellIsListed` | oldversion.py:184 | a spell the graphical classifier reports is a problem spell or a hashed spell |
| `Matching.ConsoleMatchedSpellIsListed` | auto_hekili_console.py:421 | a spell the console classifier reports is a problem spell or a hashed spell |
| `Matching.ConsoleTemplatePassListed` | auto_hekili_console.py:374-399 | the console template winner is one of the problem spells |
| `CaptureLoop.NextBookkeeping` | oldversion.py:96-196 | the toggle flips `active`; the count rises by one exactly on a working iteration; previews every 10th and debug saves every 200th working count; failure exactly when active and the capture raises |
| `CaptureLoop.ReactEvents` | oldversion.py:140-187 | a reaction emits at most one announcement, of a new spell only, and dispatches the key exactly on a match whose spell has a non-empty key |
| `CaptureLoop.NextRecognition` | oldversion.py:140-187 | the last spell changes and is announced exactly when a working iteration matches a different spell; the key is dispatched on every matched frame with a bound key |
| `CaptureLoop.RunDispatchesBoundKeys` | oldversion.py:147-186 | every token a run dispatches is the non-empty key of a configured spell |
| `CaptureLoop.RunActiveParity` | oldversion.py:96-102 | after a run, `active` is the start value flipped once per toggle press |
| `CaptureLoop.NextActive` | oldversion.py:98-99 | one iteration leaves `active` flipped exactly when the toggle is pressed |
| `CaptureLoop.RunCountBounds` | oldversion.py:189 | the count never goes down and rises by at most one per iteration |
| `CaptureLoop.PausedRunIsIdle` | oldversion.py:195-196 | paused with no toggle press, a run changes nothing and emits nothing |
| `CaptureLoop.BusyRunCounts` | oldversion.py:104-190 | active, untouched and capturing, the count rises by one per iteration |
| `CaptureLoop.SaveReferences` | oldversion.py:72-78 | the reference-icon loop raises exactly when some listed problem spell's icon exists but does not open |
| `CaptureLoop.NewCaptureThread` | oldversion.py:54-88 | constructing the worker raises exactly when a problem spell's reference icon cannot be saved; otherwise the worker is ready, with the problem spells the problem predicate selects and the spells whose icon loads |
| `CaptureLoop.CaptureThread.constructor` | oldversion.py:67-88 | when no reference save raises: the problem spells are the configured spells the problem predicate selects; the hashed spells are those whose icon loads, in configuration order |
| `CaptureLoop.ConsoleReferenceFailureIsGuiFailure` | auto_hekili_console.py:330-340 | a reference save that raises in the console raises in the graphical worker too, as the console's problem spells are among the graphical ones |
| `CaptureLoop.CaptureThread.Step` | oldversion.py:96-196 | one pass of the loop body updates `active`, the count and the last spell, and emits events as the step function says |
| `CaptureLoop.CaptureThread.ClassifyFrame` | oldversion.py:120-177 | the loop body's template pass then hash pass compute the graphical classifier |
| `CaptureLoop.CaptureThread.Run` | oldversion.py:90-198 | `run` emits the trace of its ticks from count 0 and no last spell, and ends with `running` false |
| `CaptureLoop.Respond` | oldversion.py:140-187 | announcing, remembering and dispatching a verdict follow the reaction function |
| `CaptureLoop.HashableSpells` | oldversion.py:81-88 | the spells whose icon loads, in configuration order |
| `CaptureLoop.ConsoleNextBookkeeping` | auto_hekili_console.py:354-432 | the console count rises exactly on an active capture whose template pass does not raise; debug saves every 100th count; the last spell changes only on a match with a different spell |
| `CaptureLoop.ConsoleRunCountBounds` | auto_hekili_console.py:426 | the console count never goes down and rises by at most one per iteration |
| `CaptureLoop.ConsoleClassifyFrame` | auto_hekili_console.py:372-424 | the console loop body's classification computes the console classifier |
| `CaptureLoop.ConsoleStep` | auto_hekili_console.py:355-432 | one pass of the console loop body follows the console step function |
| `CaptureLoop.CaptureAndCompare` | auto_hekili_console.py:320-432 | raises before its loop, with no event, exactly when an exact-name problem spell's reference icon exists but does not open; otherwise the events are the trace from active, count 0, no last spell, with exact-name problem spells and the spells whose icon loads |
| `KeyDispatch.KeyEventsShape` | oldversion.py:205-232 | a token without `+` is pressed as it is; any other token gives nothing or a modifier held around one press; only alt, ctrl and shift are held, and each is released later |
| `KeyDispatch.Combination` | oldversion.py:212-229 | the trace is empty or a hold, a press and the release of the same key; only modifiers are held, and each hold is released later (the values per modifier are in `KeyDispatch.ModifierToken` and `KeyDispatch.NonModifierToken`) |
| `KeyDispatch.FieldOfJoined` | oldversion.py:208-210 | the field read from `a+b` is the field of `a` |
| `KeyDispatch.KeyEventsOfCombination` | oldversion.py:207-229 | the token `m+k` dispatches the lowercased, stripped fields of `m` and `k` |
| `KeyDispatch.ExtraFieldsIgnored` | oldversion.py:208-210 | anything after a second `+` is dropped |
| `KeyDispatch.ModifierToken` | oldversion.py:207-229 | a token with a modifier field holds it around the key field |
| `KeyDispatch.NonModifierToken` | oldversion.py:212-229 | a token whose modifier field is not alt, ctrl or shift dispatches nothing |
| `KeyDispatch.ModifierPlusWord` | auto_hekili_console.py:290-314 | `alt+k`, `ctrl+k` and `shift+k` for a lower-case word `k` hold the modifier around a press of `k` |
| `Keybindings.Merge` | oldversion.py:765-768 | applying saved bindings keeps the order and the spells; names not configured are ignored |
| `Keybindings.ApplyKeybindings` | auto_hekili_console.py:535-537 | the merge loop over the saved bindings computes the merge |
| `Keybindings.KeybindingsOf` | auto_hekili_console.py:619 | the saved bindings are exactly the spells with a non-empty key, with that key |
| `Keybindings.MergeOwnKeybindings` | auto_hekili_console.py:550 | applying a configuration's own bindings gives it back |
| `Keybindings.ReloadKeepsKeybindings` | auto_hekili_console.py:529-550 | merging non-empty saved bindings into a fresh configuration and extracting again gives back the saved bindings of the spells it holds |
| `Keybindings.MergeIdempotent` | oldversion.py:765-768 | applying the same bindings twice is applying them once |
| `Keybindings.Kept` | oldversion.py:797-804 | an input is stored exactly when it is non-empty after stripping and not `skip` in any case; the stored value is the stripped text |
| `Keybindings.KeptAreKeys` | oldversion.py:799-802 | every stored binding is non-empty, stripped and not `skip` |
| `Editor.ReadAnswerUsable` | auto_hekili_console.py:276-284 | a binding read from one answer is stripped and non-empty |
| `Editor.ReadAnswersUsable` | auto_hekili_console.py:276-284 | every binding read from the typed lines is stripped and non-empty |
| `Editor.Answered` | auto_hekili_console.py:276-284 | a skip removes the spell; a binding sets its key and keeps its icon and position; no other spell changes |
| `Editor.PendingNext` | auto_hekili_console.py:272 | settling the first spell leaves the rest of the sorted names pending |
| `Editor.ConfigureNeedsAnswers` | auto_hekili_console.py:272-286 | fewer answers than spells always run out |
| `Editor.ConfigureOutcome` | auto_hekili_console.py:265-288 | every spell asked about is removed or bound to a stripped, non-empty key beside its own icon; no spell is added and the others are unchanged |
| `Editor.AnsweredRebinds` | auto_hekili_console.py:281-283 | a spell that survives a usable answer is rebound |
| `Editor.EditedStep` | auto_hekili_console.py:272-284 | one spell handled, then the rest edited, is an edit of all the names |
| `Editor.BlanksIgnored` | auto_hekili_console.py:285-286 | blank answers are asked again and change nothing |
| `Editor.ConfigureAnswer` | auto_hekili_console.py:273-284 | a non-blank answer settles the first spell |
| `Editor.PromptOutcome` | auto_hekili_console.py:273-286 | running out of lines ends the editor; otherwise the first non-blank line settles the spell |
| `Editor.Prompt` | auto_hekili_console.py:273-286 | one prompt reads lines until one is not blank, skipping only blank ones |
| `Editor.ConfigureKeybindings` | auto_hekili_console.py:265-288 | the editor over the sorted names and the typed lines computes the editing relation's function |
| `Editor.EditorResult` | auto_hekili_console.py:265-288 | with fewer lines than spells it runs out; otherwise every kept spell asked about holds a stripped, non-empty key beside its own icon, and no spell is added |
| `Icons.LastDot` | auto_hekili_console.py:257 | the index found holds the last `.`; none means there is no `.` |
| `Icons.Stem` | auto_hekili_console.py:257 | the stem is a prefix of the file name |
| `Icons.StemDropsExtension` | auto_hekili_console.py:257 | the stem of `base + ext` is `base` for a single extension |
| `Icons.IconMap` | auto_hekili_console.py:249-263 | the spell map built from a listing is a well-formed dict |
| `Icons.IconMapKeys` | auto_hekili_console.py:255-258 | the map holds one spell per stem of a `.jpg`, `.jpeg` or `.png` file and nothing else |
| `Icons.IconMapEntries` | auto_hekili_console.py:258-261 | each spell's icon is the last image file with its stem, and its key is empty |
| `Icons.GetSpellsForClassSpec` | oldversion.py:740-754 | a missing directory gives the empty map; otherwise the loop computes the icon map of the listing |
| `Gui.Selection` | auto_hekili_console.py:171-176 | the selected region has non-negative width and height |
| `Gui.SelectionIsUndirected` | oldversion.py:679-684 | the region does not depend on the direction of the drag on either axis |
| `Gui.SelectionSpansDrag` | auto_hekili_console.py:171-176 | both corners of the drag lie on the region's border and its far corner is one of them |
| `Gui.SaveLocation` | oldversion.py:727 | the stored location has two numbers |
| `Gui.LoadBoxAsWrittenRaises` | oldversion.py:826-827 | a three-number location passes the length guard and then raises on unpacking |
| `Gui.LoadBox` | oldversion.py:826-829 | a box is read back exactly when at least two numbers are stored |
| `Gui.LoadBoxAgrees` | oldversion.py:826-829 | the code as written raises exactly on more than two numbers and otherwise agrees with the corrected reading |
| `Gui.LoadSavedBox` | oldversion.py:826-829 | a saved box reads back with its corner and the default 50-pixel side, and the code as written reads it without raising |
| `Gui.FirstMatching` | oldversion.py:253-256 | a spell found is listed and its lowercased name contains the lowercased query |
| `Gui.FirstMatchingIsFirst` | oldversion.py:252-256 | the lookup finds nothing exactly when no name matches, and otherwise finds the first match |
| `Gui.EmptyQueryPicksFirst` | oldversion.py:254 | an empty query picks the first spell |
| `Gui.FindSpell` | oldversion.py:251-256 | the lookup loop computes the first matching spell |
| `Gui.ScaleResults` | oldversion.py:298-311 | one result per reading: a scale that does not fit is skipped, a correlation of at least 0.7 is a match |
| `Gui.TestTemplateAgreesWithScore` | oldversion.py:298-311 | among the test's results at the three scales the automation also tries (1.0, 0.95, 0.9), one reports a match exactly when the automation finds the template |
| `Gui.TestMatchesBeyondAutomation` | oldversion.py:298 | the test's fourth scale (0.85) can report a match the automation never makes: readings of 0.5 at the automation's scales and 0.8 at 0.85 match in the test only |
| `Gui.SpellTestOutcome` | oldversion.py:251-311 | the test reports on the first matching spell; a missing icon, then a capture that raises (oldversion.py:273), then an icon that does not open (oldversion.py:283) end it with no hash or template result; otherwise it gives the hash verdict of the plain user threshold |
| `Gui.TestedSpellIsHashed` | oldversion.py:283 | a spell the test gets a hash result for is among the automation's hashed spells (oldversion.py:81-88), and a spell whose icon does not open is not |
| `Gui.TestIsLenientForProblemSpells` | oldversion.py:290 | at distance 13 under threshold 15 the test reports a hash match for a problem spell that the automation does not match |
| `Gui.RunSpellTest` | oldversion.py:247-311 | the test worker computes the test report, including the two exceptions that end it |
| `Gui.WithSaved` | oldversion.py:765-768 | applying saved bindings, if any, keeps the order and the spells |
| `Gui.InputsFor` | oldversion.py:770-789 | one input per spell, in sorted order, showing the spell's key |
| `Gui.SaveAfterReset` | oldversion.py:795-813 | saving right after a reset stores no bindings and every spell keeps its key |
| `Gui.SaveAfterPopulate` | oldversion.py:756-808 | saving inputs just populated stores exactly the bound keys and leaves the configuration unchanged, when every bound key is a storable one |
| `Gui.KeptUpToNext` | oldversion.py:798-802 | one more input adds a kept binding last, stripped |
| `Gui.KeptUpToAll` | oldversion.py:798-804 | after every input the collected bindings are the kept ones |
| `Gui.MergeNext` | oldversion.py:801 | merging one more binding sets that spell's key |
| `Gui.RowsBuilt` | oldversion.py:771-789 | the rows built are a prefix of the names: none of their thumbnails raises, and the next one's does |
| `Gui.RaisesBeforeLastRow` | oldversion.py:771-783 | population raises exactly when it stops before the last spell in sorted order |
| `Gui.RowsAreComprehension` | oldversion.py:771-789 | building the rows one at a time gives the dict over the same names |
| `Gui.PopulatedInputs` | oldversion.py:762-789 | the inputs left by population are well formed and each shows the key of a configured spell |
| `Gui.PopulatedInputsComplete` | oldversion.py:771-789 | population leaves one input per spell exactly when no thumbnail raises |
| `Gui.SaveAfterFailedPopulate` | oldversion.py:777-804 | after population raised, saving loses the binding of every spell from the first whose thumbnail raises on, in sorted order |
| `Gui.FillInputs` | oldversion.py:771-789 | the input-filling loop builds the rows up to the first spell whose thumbnail raises, and raises exactly when it stops early |
| `Gui.SortedInputs` | oldversion.py:771-789 | filling over the sorted spells gives the populated inputs, and raises exactly when population raises |
| `Gui.ClearInputs` | oldversion.py:810-813 | the reset loop empties every input |
| `Gui.NewWindow` | oldversion.py:315-334 | opening the window raises exactly when a saved class is present and a thumbnail raises; otherwise the box, spells and one input per spell come from the saved configuration, or there is no box, spell or input without a saved class |
| `Gui.CollectKept` | oldversion.py:797-802 | the save loop collects the kept inputs and sets them as the spells' keys |
| `Gui.AutoHekiliGui.constructor` | oldversion.py:315-331 | before the saved configuration is loaded: the slider starts at 15, automation is off, and there is no box, no spell and no input attribute yet |
| `Gui.AutoHekiliGui.LoadExistingConfig` | oldversion.py:817-836 | without a saved class nothing changes; otherwise the box is read back with the corrected `Gui.LoadBox` (see "## Findings", so a location of more than two numbers does not raise here), the spells are the class's icons with the saved bindings, the inputs are those population leaves, and it raises exactly when population raises |
| `Gui.AutoHekiliGui.SelectRegion` | oldversion.py:709-710 | a completed drag replaces the region; a window closed without one leaves it |
| `Gui.AutoHekiliGui.SetThreshold` | oldversion.py:494-497 | moving the slider, within its range of 5 to 25, sets the threshold to the value moved to |
| `Gui.AutoHekiliGui.ApplySetup` | oldversion.py:714-732 | refused without a region or a class/spec and then nothing changes; otherwise stores both, loads the icons and fills the inputs, and fails exactly when population raises |
| `Gui.AutoHekiliGui.StoreSetup` | oldversion.py:725-732 | past the checks: the class/spec and the region's corner are stored, the spells are the class's icons with the saved bindings, the inputs are those population leaves, and it raises exactly when population raises |
| `Gui.AutoHekiliGui.PopulateKeybindings` | oldversion.py:756-789 | the saved bindings are applied; the inputs are the rows built in sorted order up to the first thumbnail that raises, and it raises exactly when one does |
| `Gui.AutoHekiliGui.SaveKeybindings` | oldversion.py:795-804 | before the inputs are first populated (attribute created at oldversion.py:762) it raises and nothing changes; otherwise the kept inputs are stored, stripped, both as keys and as the saved bindings, and other spells keep their key |
| `Gui.AutoHekiliGui.SetInput` | oldversion.py:787-789 | typing into one spell's input field changes that input only |
| `Gui.AutoHekiliGui.ResetKeybindings` | oldversion.py:810-813 | before the inputs are first populated it raises and nothing changes; otherwise every input is emptied, and the spells and the configuration keep their keys |
| `Gui.AutoHekiliGui.HasKeybindings` | oldversion.py:903-907 | the scan finds a key exactly when some spell has a non-empty key |
| `Gui.AutoHekiliGui.ToggleAutomation` | oldversion.py:894-946 | a running worker is stopped; otherwise it reports a missing region, spells or bound key, and with all three present it fails exactly when a problem spell's reference icon cannot be saved (oldversion.py:929) and starts otherwise |
| `Gui.AutoHekiliGui.TestSpellRecognition` | oldversion.py:873-892 | refused exactly without a region or spells; otherwise reports what the test worker reports |
| `SimC.BaseName` | auto_hekili_console.py:47-66 | a class/spec read from a file name is non-empty |
| `SimC.ClassSpecOf` | auto_hekili_console.py:46-66 | only `.simc` files give a class/spec, and it is non-empty |
| `SimC.NinetyFile` | auto_hekili_console.py:50-51 | `90_<name>.simc` gives `name` |
| `SimC.TwwFile` | auto_hekili_console.py:54-66 | `TWW1_<class>_<spec><variant>.simc` gives `class_spec`, and `Hunter_BeastMastery` for Hunter and Beast |
| `SimC.TwwFields` | auto_hekili_console.py:55-59 | the first two `_` fields of a TWW1 name are its class and spec |
| `SimC.ClassSpecsMembers` | auto_hekili_console.py:43-69 | a name is collected exactly when some existing file of the listing gives it |
| `SimC.ListOf` | auto_hekili_console.py:71 | listing a set gives each member once |
| `SimC.GatherClassSpecs` | auto_hekili_console.py:45-69 | the listing loop collects the class/spec set |
| `SimC.GetAllClassesSpecs` | auto_hekili_console.py:40-73 | the result is sorted and duplicate-free and holds exactly the names some `.simc` file gives |
| `SimC.SlashAfterActions` | auto_hekili_console.py:122-123 | a line of the `=/` scheme contains `=/` |
| `SimC.ExtractSpellShape` | auto_hekili_console.py:116-134 | a line gives nothing exactly when it lacks `actions` or `=`; in the `=/` scheme the spell is made of `a`-`z` and `_` |
| `SimC.SlashActionSpell` | auto_hekili_console.py:122-125 | a line `...actions...=/spell...` gives the spell run after its first `=/` |
| `SimC.PlainActionSpell` | auto_hekili_console.py:131-134 | a line outside the `=/` scheme gives the stripped text between its first `=` and the next `,` |
| `SimC.CollectDistinct` | auto_hekili_console.py:127-128 | the spells collected are distinct |
| `SimC.CollectSound` | auto_hekili_console.py:127 | every spell collected is admissible and was extracted from some line |
| `SimC.CollectComplete` | auto_hekili_console.py:127-137 | every admissible extracted spell is collected |
| `SimC.SpellsFromLines` | auto_hekili_console.py:114-140 | the line loop and the sort compute the collected spells, sorted |
| `SimC.SpellsOfLines` | auto_hekili_console.py:114-140 | the spells are sorted, distinct, never `auto_attack` or a directive, and exactly the admissible spells extracted from the lines |
| `SimC.NinetyName` | auto_hekili_console.py:108 | the fallback file name is a `.simc` name outside the TWW1 scheme |
| `SimC.TwwPrefix` | auto_hekili_console.py:99 | the preferred prefix starts with `TWW1_` |
| `SimC.SpellFileChoice` | auto_hekili_console.py:96-111 | a class/spec without `_` raises when some `.simc` file exists; a chosen file exists and is `.simc`; the first TWW1 file with the prefix is preferred over the `90_` file; with neither, no file |
| `SimC.ScanListing` | auto_hekili_console.py:97-100 | the scan collects the TWW1 candidates in listing order |
| `SimC.FindSpellFile` | auto_hekili_console.py:96-111 | the file choice of the source |
| `SimC.GetSpellsFromClassSpec` | auto_hekili_console.py:83-140 | the result is the spells of the chosen file; when it does not raise they are sorted, distinct and admissible |
| `SimC.ClassAndSpec` | auto_hekili_console.py:205-208 | joining the class and the spec with `_` gives the class/spec back, and the class has no `_` |
| `SimC.GroupedMembers` | auto_hekili_console.py:202-211 | each grouped (class, spec) comes from a listed name, and every listed name with `_` is grouped |
| `SimC.GroupByClass` | auto_hekili_console.py:203-211 | the grouping loop computes the grouping |
| `SimC.FirstValid` | auto_hekili_console.py:219-228 | the chosen answer is the first number in range, and every earlier answer was not a number or out of range |
| `SimC.AskChoice` | auto_hekili_console.py:219-228 | the menu loop stops at the first valid answer |
| `SimC.FirstValidAt` | auto_hekili_console.py:219-228 | a valid answer after invalid ones is the one chosen |
| `SimC.FirstValidNone` | auto_hekili_console.py:219-228 | with no valid answer there is no choice |
| `SimC.ChosenIsAvailable` | auto_hekili_console.py:198-247 | the class/spec selected is one of the names offered |
| `SimC.Choose` | auto_hekili_console.py:215-228 | the class menu picks from the sorted class list |
| `SimC.ChooseSpec` | auto_hekili_console.py:232-245 | the spec menu picks from the class's specs |
| `SimC.SelectClassAndSpec` | auto_hekili_console.py:198-247 | the selection follows the menus, and a selected class/spec is one of the names offered |
| `Sorting.Sort` | auto_hekili_console.py:71-72 | the result is sorted, a permutation of the input, and distinct when the input is |

## Left out

- Image primitives: `imagehash.phash`, `cv2.matchTemplate`, `cv2.resize` and colour conversion. They are oracles carried by the frame.
- Screen capture, keyboard polling and key injection. Each becomes a tick input or an emitted event.
- Threads, signals, stop events, `time.sleep`, the debounce and the back-off. A run ends after its last tick.
- Logging, `print`, status texts, preview scaling and the debug PNG files. Previews and debug saves appear as events only. The reference-icon saves appear only through whether they raise.
- One oracle, `iconLoads`, says whether an icon file opens and decodes. It stands for every decode of the same file: the reference save, the hash, the thumbnail resize and the test worker's read. A file that opens for one and not another is not modelled.
- What Qt does when an exception escapes a slot or `__init__` (it may print and go on, or abort the application) is not modelled. The model reports the exception as an outcome and keeps the state the source has reached at that point.
- JSON configuration I/O, `os.listdir`, `isfile`, `exists` and file reading. These are given as parameters: a listing, an `isFile` predicate and the lines of a file. The listing order is taken as given.
- `os.path.join` is modelled as joining with `/` for relative file names. An empty directory adds nothing.
- `int()` parsing of typed menu answers. An answer is given as a number, or as none where `int()` raises `ValueError`.
- Lines read from a SimC file keep their newline, as in the source. A trailing newline falls to `strip` in the plain scheme and is not a spell character in the `=/` scheme.
- A two-word class in a TWW1 file name, such as `Death_Knight`, yields its first two fields (`Death_Knight`). This is what `SimC.TwwFile` states for any class and spec fields.
- `get_spells_from_class_spec` is never called by the console's `main`. It is modelled on its own.
- The console's `test_spell_recognition` and `main` menus are not part of this model. Only the merge loop and the binding comprehensions of `main` are.
- The class drop-down and the tab switches of the window are left out. They only change widgets. The keybinding inputs' text is window state (`keybindInputs`), changed by `SetInput` and `ResetKeybindings`.
- `Gui.AutoHekiliGui.SelectRegion`: the mouse callback and the `cv2` window loop are left out. A completed drag is given by its two corners.
- `Gui.AutoHekiliGui.ToggleAutomation`: the capture thread itself is `automationRunning`. Its loop is `CaptureLoop.CaptureThread.Run`.
- `Gui.RunSpellTest`: the scales tried are the readings the frame gives, so the fourth scale (0.85) is a reading like the others.
- `Editor.ConfigureKeybindings`: the in-place `pop` and key assignment are stated through `Editor.Answered`. The dict is a value, not shared with the caller.
- `KeyDispatch.KeyEvents` is a function that computes the trace. Its properties are stated in `KeyDispatch.KeyEventsShape`.
- `CaptureLoop.CaptureThread` and `Gui.AutoHekiliGui.ToggleAutomation`: in the source the worker shares the window's `spell_info` dict and its inner entries (oldversion.py:57, 68, 930-933). It reads each key live when dispatching (oldversion.py:147, 184), and `save_keybindings` writes into the same entries (oldversion.py:801), so a key saved while automation runs is pressed from the next frame on. The model gives the worker the configuration as a value fixed when it is constructed. This sharing and the live update are not captured.
- `Text.Lower` lowercases ASCII letters only, where Python's `str.lower` lowercases all of Unicode. The members that lowercase inherit this:
  - `KeyDispatch.KeyEvents`: `ctrl+É` presses `É`, where the source presses `é`.
  - `Keybindings.Kept` and `Text.SaysSkip`: an input such as `S\u212AIP` (Kelvin sign) lowercases to `skip` in Python, so the source drops it, but the model keeps it as a binding. The same holds for `Editor.ReadAnswer`.
  - `Matching.IsProblemSpell`, `Matching.IsConsoleProblemSpell` and `Gui.NameMatches` compare ASCII-lowercased names.
- Exceptions after a frame is classified are not modelled, for example a failing key injection. A failed capture, a console template larger than the frame, and the test worker's failed capture and unreadable icon are modelled. So are a reference icon that exists but does not open (oldversion.py:76-77, auto_hekili_console.py:338-339) and a thumbnail that exists but does not open (oldversion.py:777-779).

## Findings

| source | as written | input that shows it | evidently intended | confidence | as-written member | corrected member |
|---|---|---|---|---|---|---|
| oldversion.py:826-827 | the guard accepts a stored location of two or more numbers, then unpacks it into exactly two names | location `[10, 20, 30]` passes the guard and the unpacking raises `ValueError` | read the first two numbers of any location of at least two | not executed | `Gui.LoadBoxAsWrittenRaises` | `Gui.LoadBox` |

=== FILE: capture_loop.dfy ===
/** The automation loop of both front ends. Each iteration reads the toggle
    key, and when automation is active it captures the screen region,
    classifies the frame and presses the bound key. Screen capture, the
    image primitives and the keyboard are inputs (a `Tick` per iteration).
    What the loop does to the outside world is an event trace. */
module CaptureLoop {
  import opened Wrappers
  import opened Seqs
  import opened Dicts
  import opened Matching
  import opened Icons

  /** One iteration's inputs: whether the toggle key is held, and the
      captured frame, or `None` when the capture raised. */
  datatype Tick<F> = Tick(togglePressed: bool, capture: Option<F>)

  datatype Event =
    | StatusChanged(active: bool)           // "Automation activated/paused"
    | PreviewShown(count: nat)              // a frame sent to the preview
    | DebugSaved(count: nat)                // a frame saved for debugging
    | Recognized(spell: string, via: Strategy)  // a newly recognised spell announced
    | Keys(token: string)                   // the bound key token dispatched
    | IterationFailed                       // an exception ended the iteration

  /** `active`, `capture_count` and `last_spell`. */
  datatype LoopState = LoopState(active: bool, count: nat, last: Option<string>)

  /** What the graphical loop is configured with: the spell configuration, the
      problem spells and the spells whose icon hashed, in configuration
      order, and the user threshold. */
  datatype LoopConfig = LoopConfig(info: Dict<SpellInfo>, problems: seq<string>, hashed: seq<string>, threshold: int)

  predicate Listed(info: Dict<SpellInfo>, names: seq<string>) {
    forall n :: n in names ==> n in info.entries
  }

  predicate Configured(cfg: LoopConfig) {
    Listed(cfg.info, cfg.problems) && Listed(cfg.info, cfg.hashed)
  }

  /** The toggle key flips `active`. */
  function Toggled(s: LoopState, pressed: bool): bool {
    if pressed then !s.active else s.active
  }

  function StatusEvents(pressed: bool, active: bool): seq<Event> {
    if pressed then [StatusChanged(active)] else []
  }

  /** What a verdict does: a match is announced when it differs from the last
      spell announced and becomes the last spell; its key, when bound, is
      dispatched on every matched frame. */
  function React(info: Dict<SpellInfo>, last: Option<string>, v: Verdict): (Option<string>, seq<Event>)
    requires v.Match? ==> v.spell in info.entries
  {
    match v
    case NoMatch => (last, [])
    case Match(n, via) =>
      var announce := if last != Some(n) then [Recognized(n, via)] else [];
      var key := info.entries[n].key;
      (Some(n), announce + (if key != "" then [Keys(key)] else []))
  }

  /** The graphical loop's preview every 10 frames and debug save every 200. */
  function GuiSnapshots(count: nat): seq<Event> {
    (if count % 10 == 0 then [PreviewShown(count)] else []) +
    (if count % 200 == 0 then [DebugSaved(count)] else [])
  }

  /** The console loop's debug save every 100 frames. */
  function ConsoleSnapshots(count: nat): seq<Event> {
    if count % 100 == 0 then [DebugSaved(count)] else []
  }

  /** One iteration of the graphical loop. */
  function Next(cfg: LoopConfig, s: LoopState, t: Tick<Frame>): (LoopState, seq<Event>)
    requires Configured(cfg)
  {
    var active := Toggled(s, t.togglePressed);
    var status := StatusEvents(t.togglePressed, active);
    if !active then (LoopState(false, s.count, s.last), status)
    else if t.capture.None? then (LoopState(true, s.count, s.last), status + [IterationFailed])
    else
      var v := Classify(cfg.problems, cfg.hashed, t.capture.value, cfg.threshold);
      MatchedSpellIsListed(cfg.problems, cfg.hashed, t.capture.value, cfg.threshold);
      var r := React(cfg.info, s.last, v);
      (LoopState(true, s.count + 1, r.0), status + GuiSnapshots(s.count) + r.1)
  }

  /** The graphical loop over a run of iterations. */
  function Trace(cfg: LoopConfig, s: LoopState, ticks: seq<Tick<Frame>>): (LoopState, seq<Event>)
    requires Configured(cfg)
  {
    if |ticks| == 0 then (s, [])
    else
      var r := Trace(cfg, s, ticks[..|ticks| - 1]);
      var n := Next(cfg, r.0, ticks[|ticks| - 1]);
      (n.0, r.1 + n.1)
  }

  /** `Next` unfolded on a working iteration, for the lemmas below. */
  lemma NextWorks(cfg: LoopConfig, s: LoopState, t: Tick<Frame>)
    requires Configured(cfg) && Toggled(s, t.togglePressed) && t.capture.Some?
    ensures var v := Classify(cfg.problems, cfg.hashed, t.capture.value, cfg.threshold);
      && (v.Match? ==> v.spell in cfg.info.entries)
      && Next(cfg, s, t) == (LoopState(true, s.count + 1, React(cfg.info, s.last, v).0),
           StatusEvents(t.togglePressed, true) + GuiSnapshots(s.count) + React(cfg.info, s.last, v).1)
  {
    MatchedSpellIsListed(cfg.problems, cfg.hashed, t.capture.value, cfg.threshold);
  }

  /** An iteration does the capture work when automation is active after the
      toggle and the capture succeeds. */
  predicate Works(s: LoopState, t: Tick) {
    Toggled(s, t.togglePressed) && t.capture.Some?
  }

  /** Bookkeeping of one graphical iteration: the toggle flips `active`, the
      count goes up by one exactly when the iteration works, the preview and
      the debug save fire on every 10th and 200th working iteration, and
      an iteration fails exactly when it is active and the capture raises. */
  lemma NextBookkeeping(cfg: LoopConfig, s: LoopState, t: Tick<Frame>)
    requires Configured(cfg)
    ensures Next(cfg, s, t).0.active == Toggled(s, t.togglePressed)
    ensures Next(cfg, s, t).0.count == if Works(s, t) then s.count + 1 else s.count
    ensures forall c :: PreviewShown(c) in Next(cfg, s, t).1 <==> Works(s, t) && c == s.count && s.count % 10 == 0
    ensures forall c :: DebugSaved(c) in Next(cfg, s, t).1 <==> Works(s, t) && c == s.count && s.count % 200 == 0
    ensures IterationFailed in Next(cfg, s, t).1 <==> Toggled(s, t.togglePressed) && t.capture.None?
    ensures forall b :: StatusChanged(b) in Next(cfg, s, t).1 <==> t.togglePressed && b == Toggled(s, t.togglePressed)
  {
    if Works(s, t) {
      var v := Classify(cfg.problems, cfg.hashed, t.capture.value, cfg.threshold);
      NextWorks(cfg, s, t);
      ReactEvents(cfg.info, s.last, v);
    }
  }

  /** The events of a reaction are one announcement at most, then one key
      dispatch at most. */
  lemma ReactEvents(info: Dict<SpellInfo>, last: Option<string>, v: Verdict)
    requires v.Match? ==> v.spell in info.entries
    ensures forall e :: e in React(info, last, v).1 ==> e.Recognized? || e.Keys?
    ensures forall e :: e in React(info, last, v).1 && e.Recognized? ==> v.Match? && e == Recognized(v.spell, v.via) && last != Some(v.spell)
    ensures v.Match? && last != Some(v.spell) ==> Recognized(v.spell, v.via) in React(info, last, v).1
    ensures forall tr :: Keys(tr) in React(info, last, v).1 <==>
      v.Match? && info.entries[v.spell].key != "" && tr == info.entries[v.spell].key
  {
  }

  /** Recognition of one graphical iteration: the last spell changes, and a
      spell is announced, exactly when a working iteration matches a spell
      other than the last one; the key is dispatched on every matched frame
      whose spell has a key, whether or not the spell changed, and never
      otherwise. */
  lemma NextRecognition(cfg: LoopConfig, s: LoopState, t: Tick<Frame>)
    requires Configured(cfg)
    ensures var v := if t.capture.Some? then Classify(cfg.problems, cfg.hashed, t.capture.value, cfg.threshold) else NoMatch;
      && (Next(cfg, s, t).0.last != s.last <==> Works(s, t) && v.Match? && s.last != Some(v.spell))
      && (Next(cfg, s, t).0.last != s.last ==> Next(cfg, s, t).0.last == Some(v.spell))
      && (Works(s, t) && v.Match? ==> Next(cfg, s, t).0.last == Some(v.spell))
      && (forall n, via :: Recognized(n, via) in Next(cfg, s, t).1 <==>
            Works(s, t) && v == Match(n, via) && s.last != Some(n))
      && (forall tr :: Keys(tr) in Next(cfg, s, t).1 <==>
            Works(s, t) && v.Match? && v.spell in cfg.info.entries &&
            cfg.info.entries[v.spell].key != "" && tr == cfg.info.entries[v.spell].key)
  {
    if Works(s, t) {
      var v := Classify(cfg.problems, cfg.hashed, t.capture.value, cfg.threshold);
      MatchedSpellIsListed(cfg.problems, cfg.hashed, t.capture.value, cfg.threshold);
      ReactEvents(cfg.info, s.last, v);
    }
  }

  /** Every key token a run dispatches is the non-empty key of a configured
      spell; so each dispatch is one press, or a modifier held around one
      press and released (`KeyDispatch.KeyEventsShape`). */
  lemma {:induction false} RunDispatchesBoundKeys(cfg: LoopConfig, s: LoopState, ticks: seq<Tick<Frame>>)
    requires Configured(cfg)
    ensures forall tok :: Keys(tok) in Trace(cfg, s, ticks).1 ==>
      tok != "" && exists n :: n in cfg.info.entries && cfg.info.entries[n].key == tok
  {
    if |ticks| > 0 {
      var r := Trace(cfg, s, ticks[..|ticks| - 1]);
      RunDispatchesBoundKeys(cfg, s, ticks[..|ticks| - 1]);
      NextRecognition(cfg, r.0, ticks[|ticks| - 1]);
    }
  }

  /** Number of toggle presses in a run. */
  function Toggles<F>(ticks: seq<Tick<F>>): nat {
    if |ticks| == 0 then 0
    else Toggles(ticks[..|ticks| - 1]) + (if ticks[|ticks| - 1].togglePressed then 1 else 0)
  }

  /** After a run, automation is active exactly when it started active and
      the toggle was pressed an even number of times, or started paused and
      it was pressed an odd number of times. */
  lemma {:induction false} RunActiveParity(cfg: LoopConfig, s: LoopState, ticks: seq<Tick<Frame>>)
    requires Configured(cfg)
    ensures Trace(cfg, s, ticks).0.active == (s.active == (Toggles(ticks) % 2 == 0))
  {
    if |ticks| > 0 {
      var r := Trace(cfg, s, ticks[..|ticks| - 1]);
      var t := ticks[|ticks| - 1];
      RunActiveParity(cfg, s, ticks[..|ticks| - 1]);
      NextActive(cfg, r.0, t);
      assert Trace(cfg, s, ticks).0.active == Toggled(r.0, t.togglePressed);
      var n := Toggles(ticks[..|ticks| - 1]);
      if t.togglePressed {
        assert Toggles(ticks) == n + 1;
        assert ((n + 1) % 2 == 0) == (n % 2 != 0);
      } else {
        assert Toggles(ticks) == n;
      }
    }
  }

  lemma NextActive(cfg: LoopConfig, s: LoopState, t: Tick<Frame>)
    requires Configured(cfg)
    ensures Next(cfg, s, t).0.active == Toggled(s, t.togglePressed)
  {
  }

  /** The count never goes down, and goes up by at most one per iteration. */
  lemma {:induction false} RunCountBounds(cfg: LoopConfig, s: LoopState, ticks: seq<Tick<Frame>>)
    requires Configured(cfg)
    ensures s.count <= Trace(cfg, s, ticks).0.count <= s.count + |ticks|
  {
    if |ticks| > 0 {
      var r := Trace(cfg, s, ticks[..|ticks| - 1]);
      RunCountBounds(cfg, s, ticks[..|ticks| - 1]);
      NextBookkeeping(cfg, r.0, ticks[|ticks| - 1]);
    }
  }

  /** While paused and untouched, the loop does nothing at all. */
  lemma {:induction false} PausedRunIsIdle(cfg: LoopConfig, s: LoopState, ticks: seq<Tick<Frame>>)
    requires Configured(cfg) && !s.active
    requires forall k :: 0 <= k < |ticks| ==> !ticks[k].togglePressed
    ensures Trace(cfg, s, ticks) == (s, [])
  {
    if |ticks| > 0 {
      var p := ticks[..|ticks| - 1];
      assert forall k :: 0 <= k < |p| ==> p[k] == ticks[k];
      PausedRunIsIdle(cfg, s, p);
      var t := ticks[|ticks| - 1];
      assert !t.togglePressed;
      assert Next(cfg, s, t) == (s, []);
      assert Trace(cfg, s, ticks) == (Next(cfg, s, t).0, [] + Next(cfg, s, t).1);
      assert Trace(cfg, s, ticks).0 == s;
      assert Trace(cfg, s, ticks).1 == [];
    } else {
      assert Trace(cfg, s, ticks) == (s, []);
    }
  }

  /** Active, untouched, with every capture succeeding, the count goes up by
      one per iteration. */
  lemma {:induction false} BusyRunCounts(cfg: LoopConfig, s: LoopState, ticks: seq<Tick<Frame>>)
    requires Configured(cfg) && s.active
    requires forall k :: 0 <= k < |ticks| ==> !ticks[k].togglePressed && ticks[k].capture.Some?
    ensures Trace(cfg, s, ticks).0.active
    ensures Trace(cfg, s, ticks).0.count == s.count + |ticks|
  {
    if |ticks| > 0 {
      BusyRunCounts(cfg, s, ticks[..|ticks| - 1]);
    }
  }

  // -----------------------------------------------------------------------
  // Reference copies of the problem spells' icons

  /** Some listed problem spell has an icon that exists but does not open:
      saving its reference copy for debugging raises before any frame is
      captured. */
  predicate ReferenceSaveFails(info: Dict<SpellInfo>, problems: seq<string>,
                               iconExists: string -> bool, iconLoads: string -> bool) {
    exists k :: 0 <= k < |problems| && problems[k] in info.entries &&
      Unopenable(info.entries[problems[k]].iconPath, iconExists, iconLoads)
  }

  /** The loop over the problem spells that opens each existing icon and
      saves a reference copy of it; it raises at the first icon that exists
      but does not open. */
  method SaveReferences(info: Dict<SpellInfo>, problems: seq<string>,
                        iconExists: string -> bool, iconLoads: string -> bool)
    returns (raised: bool)
    requires Listed(info, problems)
    ensures raised <==> ReferenceSaveFails(info, problems, iconExists, iconLoads)
  {
    var i := 0;
    while i < |problems|
      invariant 0 <= i <= |problems|
      invariant forall k :: 0 <= k < i ==> !Unopenable(info.entries[problems[k]].iconPath, iconExists, iconLoads)
    {
      var path := info.entries[problems[i]].iconPath;
      if iconExists(path) && !iconLoads(path) {
        return true;
      }
      i := i + 1;
    }
    return false;
  }

  /** The console treats fewer spells as problem spells than the graphical
      front end, so an icon that stops the console's worker from starting
      also stops the graphical one's. */
  lemma ConsoleReferenceFailureIsGuiFailure(info: Dict<SpellInfo>, iconExists: string -> bool, iconLoads: string -> bool)
    requires ReferenceSaveFails(info, Filter(info.order, IsConsoleProblemSpell), iconExists, iconLoads)
    ensures ReferenceSaveFails(info, Filter(info.order, IsProblemSpell), iconExists, iconLoads)
  {
    var console := Filter(info.order, IsConsoleProblemSpell);
    var k :| 0 <= k < |console| && console[k] in info.entries &&
      Unopenable(info.entries[console[k]].iconPath, iconExists, iconLoads);
    var n := console[k];
    assert n in console;
    ConsoleProblemIsProblem(n);
    var gui := Filter(info.order, IsProblemSpell);
    assert n in gui;
    var j :| 0 <= j < |gui| && gui[j] == n;
  }

  /** `CaptureThread(box, spell_info, threshold)`: `None` when `__init__`
      raises while saving a reference copy, so that no thread exists; otherwise
      a new worker. */
  method NewCaptureThread(spellInfo: Dict<SpellInfo>, threshold: int,
                          iconExists: string -> bool, iconLoads: string -> bool)
    returns (t: Option<CaptureThread>)
    requires spellInfo.Valid()
    ensures t.None? <==> ReferenceSaveFails(spellInfo, Filter(spellInfo.order, IsProblemSpell), iconExists, iconLoads)
    ensures t.Some? ==>
      && fresh(t.value) && t.value.Valid()
      && t.value.spellInfo == spellInfo && t.value.threshold == threshold
      && t.value.problemSpells == Filter(spellInfo.order, IsProblemSpell)
      && t.value.hashedSpells == Filter(spellInfo.order, n => n in spellInfo.entries && iconLoads(spellInfo.entries[n].iconPath))
      && t.value.active && !t.value.running && !t.value.stopRequested
  {
    var raised := SaveReferences(spellInfo, Filter(spellInfo.order, IsProblemSpell), iconExists, iconLoads);
    if raised {
      return None;
    }
    var thread := new CaptureThread(spellInfo, threshold, iconExists, iconLoads);
    t := Some(thread);
  }

  /** `CaptureThread`: the graphical front end's worker. */
  class CaptureThread {
    const spellInfo: Dict<SpellInfo>
    const threshold: int
    /** The keys of `problem_spell_info`. */
    const problemSpells: seq<string>
    /** The keys of `spell_hashes`: the spells whose icon loaded. */
    const hashedSpells: seq<string>
    var active: bool
    var running: bool
    var stopRequested: bool

    ghost predicate Valid() {
      spellInfo.Valid() && Configured(Config())
    }

    function Config(): LoopConfig {
      LoopConfig(spellInfo, problemSpells, hashedSpells, threshold)
    }

    /** `__init__` when it returns: it filters the problem spells out of
        the configuration, saves a reference copy of each of their icons
        (none of which may exist without opening, or `__init__` raises; see
        `NewCaptureThread`) and hashes every icon that loads; `iconLoads`
        says, per icon file, whether it exists and can be hashed. */
    constructor(spellInfo: Dict<SpellInfo>, threshold: int, iconExists: string -> bool, iconLoads: string -> bool)
      requires spellInfo.Valid()
      requires !ReferenceSaveFails(spellInfo, Filter(spellInfo.order, IsProblemSpell), iconExists, iconLoads)
      ensures Valid()
      ensures this.spellInfo == spellInfo && this.threshold == threshold
      ensures problemSpells == Filter(spellInfo.order, IsProblemSpell)
      ensures hashedSpells == Filter(spellInfo.order, n => n in spellInfo.entries && iconLoads(spellInfo.entries[n].iconPath))
      ensures active && !running && !stopRequested
    {
      this.spellInfo := spellInfo;
      this.threshold := threshold;
      problemSpells := Filter(spellInfo.order, IsProblemSpell);
      var hashed := HashableSpells(spellInfo, iconLoads);
      hashedSpells := hashed;
      active := true;
      running := false;
      stopRequested := false;
    }

    /** One pass of the `while` body of `run`. */
    method Step(count: nat, last: Option<string>, t: Tick<Frame>)
      returns (count': nat, last': Option<string>, events: seq<Event>)
      requires Valid()
      modifies this`active
      ensures (LoopState(active, count', last'), events) == Next(Config(), LoopState(old(active), count, last), t)
    {
      var status: seq<Event> := [];
      if t.togglePressed {
        active := !active;
        status := [StatusChanged(active)];
      }
      assert status == StatusEvents(t.togglePressed, active);
      count', last', events := count, last, status;
      if active {
        if t.capture.None? {
          events := status + [IterationFailed];
        } else {
          var frame := t.capture.value;
          var snapshots: seq<Event> := [];
          if count % 10 == 0 {
            snapshots := [PreviewShown(count)];
          }
          if count % 200 == 0 {
            snapshots := snapshots + [DebugSaved(count)];
          }
          assert snapshots == GuiSnapshots(count);
          var verdict := ClassifyFrame(frame);
          MatchedSpellIsListed(problemSpells, hashedSpells, frame, threshold);
          var reaction;
          last', reaction := Respond(spellInfo, last, verdict);
          events := status + snapshots + reaction;
          count' := count + 1;
          NextWorks(Config(), LoopState(old(active), count, last), t);
        }
      }
    }

    /** The classification part of the loop body: the template pass over the
        problem spells, then the hash pass when no template is found. */
    method ClassifyFrame(frame: Frame) returns (verdict: Verdict)
      ensures verdict == Classify(problemSpells, hashedSpells, frame, threshold)
    {
      var winner := TemplatePass(problemSpells, frame);
      if winner.Some? {
        verdict := Match(winner.value.name, Template(winner.value.score));
      } else {
        var nearest := FindNearest(hashedSpells, frame.distance, GuiEligible);
        verdict := GuiHashVerdict(nearest, threshold);
      }
    }

    /** `run`: iterates until a stop is requested, which happens after the
        last of `ticks`. */
    method Run(ticks: seq<Tick<Frame>>) returns (events: seq<Event>)
      requires Valid()
      modifies this`active, this`running
      ensures var r := Trace(Config(), LoopState(old(active), 0, None), ticks);
        active == r.0.active && events == r.1
      ensures !running
    {
      running := true;
      ghost var start := LoopState(active, 0, None);
      var count: nat, last: Option<string> := 0, None;
      events := [];
      var i := 0;
      while i < |ticks|
        invariant 0 <= i <= |ticks|
        invariant (LoopState(active, count, last), events) == Trace(Config(), start, ticks[..i])
      {
        assert ticks[..i + 1][..i] == ticks[..i];
        var more;
        count, last, more := Step(count, last, ticks[i]);
        events := events + more;
        i := i + 1;
      }
      assert ticks[..i] == ticks;
      running := false;
    }
  }

  /** The reaction part of the loop body: announce a new spell, remember it,
      and dispatch its key. */
  method Respond(info: Dict<SpellInfo>, last: Option<string>, verdict: Verdict)
    returns (last': Option<string>, events: seq<Event>)
    requires verdict.Match? ==> verdict.spell in info.entries
    ensures (last', events) == React(info, last, verdict)
  {
    last', events := last, [];
    if verdict.Match? {
      if last != Some(verdict.spell) {
        events := [Recognized(verdict.spell, verdict.via)];
        last' := Some(verdict.spell);
      }
      var key := info.entries[verdict.spell].key;
      if key != "" {
        events := events + [Keys(key)];
      }
      assert events == (if last != Some(verdict.spell) then [Recognized(verdict.spell, verdict.via)] else []) +
        (if key != "" then [Keys(key)] else []);
    }
  }

  /** The spells whose icon loads, in configuration order. */
  method HashableSpells(spellInfo: Dict<SpellInfo>, iconLoads: string -> bool) returns (hashed: seq<string>)
    requires spellInfo.Valid()
    ensures hashed == Filter(spellInfo.order, n => n in spellInfo.entries && iconLoads(spellInfo.entries[n].iconPath))
  {
    ghost var p := n => n in spellInfo.entries && iconLoads(spellInfo.entries[n].iconPath);
    hashed := [];
    var i := 0;
    while i < |spellInfo.order|
      invariant 0 <= i <= |spellInfo.order|
      invariant hashed == Filter(spellInfo.order[..i], p)
    {
      var name := spellInfo.order[i];
      TakeOneMore(spellInfo.order, i);
      FilterAppend(spellInfo.order[..i], name, p);
      if iconLoads(spellInfo.entries[name].iconPath) {
        hashed := hashed + [name];
      }
      i := i + 1;
    }
    assert spellInfo.order[..i] == spellInfo.order;
  }

  // -----------------------------------------------------------------------
  // Console front end

  /** One iteration of the console loop. A template too large for the frame
      raises after the debug save; the iteration then fails and the count
      stays. */
  function ConsoleNext(info: Dict<SpellInfo>, problems: seq<string>, hashed: seq<string>, s: LoopState, t: Tick<ConsoleFrame>): (LoopState, seq<Event>)
    requires Listed(info, problems) && Listed(info, hashed)
  {
    var active := Toggled(s, t.togglePressed);
    var status := StatusEvents(t.togglePressed, active);
    if !active then (LoopState(false, s.count, s.last), status)
    else if t.capture.None? then (LoopState(true, s.count, s.last), status + [IterationFailed])
    else
      var saved := ConsoleSnapshots(s.count);
      match ConsoleClassify(problems, hashed, t.capture.value)
      case Raised => (LoopState(true, s.count, s.last), status + saved + [IterationFailed])
      case Classified(v) =>
        ConsoleMatchedSpellIsListed(problems, hashed, t.capture.value);
        var r := React(info, s.last, v);
        (LoopState(true, s.count + 1, r.0), status + saved + r.1)
  }

  function ConsoleTrace(info: Dict<SpellInfo>, problems: seq<string>, hashed: seq<string>, s: LoopState, ticks: seq<Tick<ConsoleFrame>>): (LoopState, seq<Event>)
    requires Listed(info, problems) && Listed(info, hashed)
  {
    if |ticks| == 0 then (s, [])
    else
      var r := ConsoleTrace(info, problems, hashed, s, ticks[..|ticks| - 1]);
      var n := ConsoleNext(info, problems, hashed, r.0, ticks[|ticks| - 1]);
      (n.0, r.1 + n.1)
  }

  /** Bookkeeping of one console iteration: the count goes up by one exactly
      when the iteration is active, the capture succeeds and the template
      pass does not raise; the debug save fires on every 100th active
      capture, even one that then fails; the last spell changes only on a
      match with a different spell. */
  lemma ConsoleNextBookkeeping(info: Dict<SpellInfo>, problems: seq<string>, hashed: seq<string>, s: LoopState, t: Tick<ConsoleFrame>)
    requires Listed(info, problems) && Listed(info, hashed)
    ensures var r := ConsoleNext(info, problems, hashed, s, t);
      var ok := Works(s, t) && ConsoleClassify(problems, hashed, t.capture.value).Classified?;
      && r.0.active == Toggled(s, t.togglePressed)
      && r.0.count == (if ok then s.count + 1 else s.count)
      && (forall c :: DebugSaved(c) in r.1 <==> Works(s, t) && c == s.count && s.count % 100 == 0)
      && (IterationFailed in r.1 <==> Toggled(s, t.togglePressed) && !ok)
      && (r.0.last != s.last <==>
            ok && ConsoleClassify(problems, hashed, t.capture.value).verdict.Match? &&
            s.last != Some(ConsoleClassify(problems, hashed, t.capture.value).verdict.spell))
  {
    if Works(s, t) && ConsoleClassify(problems, hashed, t.capture.value).Classified? {
      var v := ConsoleClassify(problems, hashed, t.capture.value).verdict;
      ConsoleMatchedSpellIsListed(problems, hashed, t.capture.value);
      ReactEvents(info, s.last, v);
    }
  }

  /** The console loop's count never goes down and goes up by at most one per
      iteration. */
  lemma {:induction false} ConsoleRunCountBounds(info: Dict<SpellInfo>, problems: seq<string>, hashed: seq<string>, s: LoopState, ticks: seq<Tick<ConsoleFrame>>)
    requires Listed(info, problems) && Listed(info, hashed)
    ensures s.count <= ConsoleTrace(info, problems, hashed, s, ticks).0.count <= s.count + |ticks|
  {
    if |ticks| > 0 {
      var r := ConsoleTrace(info, problems, hashed, s, ticks[..|ticks| - 1]);
      ConsoleRunCountBounds(info, problems, hashed, s, ticks[..|ticks| - 1]);
      ConsoleNextBookkeeping(info, problems, hashed, r.0, ticks[|ticks| - 1]);
    }
  }

  /** The classification part of the console loop body. */
  method ConsoleClassifyFrame(problems: seq<string>, hashed: seq<string>, frame: ConsoleFrame)
    returns (outcome: ConsoleVerdict)
    ensures outcome == ConsoleClassify(problems, hashed, frame)
  {
    var raised, winner := ConsoleTemplateLoop(problems, frame);
    if raised {
      outcome := Raised;
    } else if winner.Some? {
      outcome := Classified(Match(winner.value.name, Template(winner.value.score)));
    } else {
      var nearest := FindNearest(hashed, frame.distance, AnyDistance);
      outcome := Classified(ConsoleHashVerdict(nearest));
    }
  }

  /** One pass of the console loop body; `active`, the count and the last
      spell are the function's locals. */
  method ConsoleStep(info: Dict<SpellInfo>, problems: seq<string>, hashed: seq<string>,
                     active: bool, count: nat, last: Option<string>, t: Tick<ConsoleFrame>)
    returns (active': bool, count': nat, last': Option<string>, events: seq<Event>)
    requires Listed(info, problems) && Listed(info, hashed)
    ensures (LoopState(active', count', last'), events) == ConsoleNext(info, problems, hashed, LoopState(active, count, last), t)
  {
    active', count', last' := active, count, last;
    events := [];
    if t.togglePressed {
      active' := !active;
      events := [StatusChanged(active')];
    }
    if active' {
      if t.capture.None? {
        events := events + [IterationFailed];
      } else {
        var frame := t.capture.value;
        if count % 100 == 0 {
          events := events + [DebugSaved(count)];
        }
        var outcome := ConsoleClassifyFrame(problems, hashed, frame);
        if outcome.Raised? {
          events := events + [IterationFailed];
          assert events == StatusEvents(t.togglePressed, active') + ConsoleSnapshots(count) + [IterationFailed];
        } else {
          ConsoleMatchedSpellIsListed(problems, hashed, frame);
          var reaction;
          last', reaction := Respond(info, last, outcome.verdict);
          events := events + reaction;
          assert events == StatusEvents(t.togglePressed, active') + ConsoleSnapshots(count) + reaction;
          count' := count + 1;
        }
      }
    }
  }

  /** `capture_and_compare`: builds the problem spells (exact lower-case
      names), saves a reference copy of their icons, builds the hashed
      spells, then iterates until the stop event is set, which happens after
      the last of `ticks`. A reference save that raises ends the worker
      before its loop, with nothing captured. */
  method CaptureAndCompare(info: Dict<SpellInfo>, iconExists: string -> bool, iconLoads: string -> bool,
                           ticks: seq<Tick<ConsoleFrame>>)
    returns (events: seq<Event>, raised: bool)
    requires info.Valid()
    ensures raised <==> ReferenceSaveFails(info, Filter(info.order, IsConsoleProblemSpell), iconExists, iconLoads)
    ensures raised ==> events == []
    ensures var problems := Filter(info.order, IsConsoleProblemSpell);
      var hashed := Filter(info.order, n => n in info.entries && iconLoads(info.entries[n].iconPath));
      !raised ==> events == ConsoleTrace(info, problems, hashed, LoopState(true, 0, None), ticks).1
  {
    var problems := Filter(info.order, IsConsoleProblemSpell);
    events := [];
    raised := SaveReferences(info, problems, iconExists, iconLoads);
    if raised {
      return;
    }
    var hashed := HashableSpells(info, iconLoads);
    var active, count: nat, last: Option<string> := true, 0, None;
    var i := 0;
    while i < |ticks|
      invariant 0 <= i <= |ticks|
      invariant (LoopState(active, count, last), events) == ConsoleTrace(info, problems, hashed, LoopState(true, 0, None), ticks[..i])
    {
      assert ticks[..i + 1][..i] == ticks[..i];
      var more;
      active, count, last, more := ConsoleStep(info, problems, hashed, active, count, last, ticks[i]);
      events := events + more;
      i := i + 1;
    }
    assert ticks[..i] == ticks;
  }
}

=== FILE: dicts.dfy ===
/** Python's insertion-ordered `dict` with string keys: a sequence of keys in
    insertion order beside a map from key to value. */
module Dicts {

  datatype Dict<V> = Dict(order: seq<string>, entries: map<string, V>) {

    /** Keys listed once each, and exactly the keys of the map. */
    ghost predicate Valid() {
      && (forall i, j :: 0 <= i < j < |order| ==> order[i] != order[j])
      && (forall k :: k in entries <==> k in order)
    }

    /** `d[k] = v`: a new key goes last, an existing key keeps its place. */
    function Put(k: string, v: V): (d: Dict<V>)
      requires Valid()
      ensures d.Valid()
      ensures d.entries == entries[k := v]
      ensures k in entries ==> d.order == order
      ensures k !in entries ==> d.order == order + [k]
    {
      if k in entries then Dict(order, entries[k := v]) else Dict(order + [k], entries[k := v])
    }

    /** `d.pop(k)` for a key that is present; the other keys keep their order. */
    function Pop(k: string): (d: Dict<V>)
      requires Valid() && k in entries
      ensures d.Valid()
      ensures d.entries == entries - {k}
    {
      Dict(Without(order, k), entries - {k})
    }
  }

  function Empty<V>(): (d: Dict<V>)
    ensures d.Valid() && d.entries == map[] && d.order == []
  {
    Dict([], map[])
  }

  /** `s` with every occurrence of `k` removed, the rest in order. */
  function Without(s: seq<string>, k: string): (r: seq<string>)
    ensures forall x :: x in r <==> x in s && x != k
    ensures (forall i, j :: 0 <= i < j < |s| ==> s[i] != s[j]) ==>
              (forall i, j :: 0 <= i < j < |r| ==> r[i] != r[j])
  {
    if |s| == 0 then []
    else if s[0] == k then Without(s[1..], k)
    else
      var rest := Without(s[1..], k);
      assert s[0] !in s[1..] ==> s[0] !in rest;
      [s[0]] + rest
  }

  /** The keys of `s` that satisfy `p`, in their order in `s` (the keys of a
      dict comprehension with a condition). */
  function Filter(s: seq<string>, p: string -> bool): (r: seq<string>)
    ensures |r| <= |s|
    ensures forall x :: x in r <==> x in s && p(x)
    ensures (forall i, j :: 0 <= i < j < |s| ==> s[i] != s[j]) ==>
              (forall i, j :: 0 <= i < j < |r| ==> r[i] != r[j])
  {
    if |s| == 0 then []
    else
      var rest := Filter(s[1..], p);
      assert s[0] !in s[1..] ==> s[0] !in rest;
      if p(s[0]) then [s[0]] + rest else rest
  }

  /** The dict comprehension `{n: f(n) for n in keys if p(n)}`, its keys in
      their order in `keys`. */
  function Comprehension<V>(keys: seq<string>, p: string -> bool, f: string -> V): (d: Dict<V>)
    ensures d.order == Filter(keys, p)
    ensures forall n :: n in d.entries <==> n in keys && p(n)
    ensures (forall i, j :: 0 <= i < j < |keys| ==> keys[i] != keys[j]) ==> d.Valid()
  {
    Dict(Filter(keys, p), map n | n in keys && p(n) :: f(n))
  }

  /** A comprehension over one more key adds that key last when it passes
      the condition. */
  lemma ComprehensionStep<V>(keys: seq<string>, x: string, p: string -> bool, f: string -> V)
    ensures Comprehension(keys + [x], p, f) ==
      if p(x) then Dict(Comprehension(keys, p, f).order + [x], Comprehension(keys, p, f).entries[x := f(x)])
      else Comprehension(keys, p, f)
  {
    FilterAppend(keys, x, p);
  }

  /** Two maps with the same keys and the same value at each key are equal. */
  lemma SameMap<V>(a: map<string, V>, b: map<string, V>)
    requires forall n :: n in a <==> n in b
    requires forall n :: n in a ==> a[n] == b[n]
    ensures a == b
  {
  }

  /** The first key kept is the first key of `s` that satisfies `p`. */
  lemma {:induction false} FilterFirst(s: seq<string>, p: string -> bool)
    requires |Filter(s, p)| > 0
    ensures exists j :: 0 <= j < |s| && Filter(s, p)[0] == s[j] && p(s[j]) &&
                        forall k :: 0 <= k < j ==> !p(s[k])
  {
    if !p(s[0]) {
      FilterFirst(s[1..], p);
      var j :| 0 <= j < |s| - 1 && Filter(s[1..], p)[0] == s[1..][j] && p(s[1..][j]) &&
        forall k :: 0 <= k < j ==> !p(s[1..][k]);
      assert forall k :: 1 <= k < j + 1 ==> s[k] == s[1..][k - 1];
    }
  }

  /** Filtering with a condition every element meets keeps everything. */
  lemma {:induction false} FilterAll(s: seq<string>, p: string -> bool)
    requires forall x :: x in s ==> p(x)
    ensures Filter(s, p) == s
  {
    if |s| > 0 {
      FilterAll(s[1..], p);
    }
  }

  /** Filtering keeps the order: filtering a longer list extends the filtered
      shorter one. */
  lemma {:induction false} FilterAppend(s: seq<string>, x: string, p: string -> bool)
    ensures Filter(s + [x], p) == Filter(s, p) + (if p(x) then [x] else [])
  {
    if |s| > 0 {
      assert (s + [x])[1..] == s[1..] + [x];
      FilterAppend(s[1..], x, p);
    }
  }
}

=== FILE: editor.dfy ===
/** `configure_keybindings`, the console's interactive editor: for each spell
    in name order it reads lines until one skips the spell or binds a key. */
module Editor {
  import opened Wrappers
  import opened Text
  import opened Dicts
  import opened Sorting
  import opened Matching


  /** What one answer to the prompt means. */
  datatype Answer = Skip | Bind(key: string) | Blank

  /** An answer that lowercases to `skip`, without stripping, skips the
      spell; otherwise a non-blank answer binds its stripped text. */
  function ReadAnswer(input: string): Answer {
    if SaysSkip(input) then Skip
    else if Strip(input) != "" then Bind(Strip(input))
    else Blank
  }

  /** A binding read from the prompt is stripped and non-empty. */
  lemma ReadAnswerUsable(input: string)
    ensures Usable(ReadAnswer(input))
  {
    StripIdempotent(input);
  }

  /** A binding the prompt can produce: stripped and non-empty. */
  predicate Usable(a: Answer) {
    a.Bind? ==> a.key != "" && Strip(a.key) == a.key
  }

  /** The meaning of each line typed at the prompt. */
  function ReadAnswers(inputs: seq<string>): (r: seq<Answer>)
    ensures |r| == |inputs|
  {
    seq(|inputs|, i requires 0 <= i < |inputs| => ReadAnswer(inputs[i]))
  }

  /** Every binding typed at the prompt is stripped and non-empty. */
  lemma ReadAnswersUsable(inputs: seq<string>)
    ensures forall i :: 0 <= i < |inputs| ==> Usable(ReadAnswers(inputs)[i])
  {
    forall i | 0 <= i < |inputs| ensures Usable(ReadAnswers(inputs)[i]) {
      ReadAnswerUsable(inputs[i]);
    }
  }

  /** The configuration after the answer `a` for the spell `n`: a skip pops
      the spell, a binding sets its key in place. */
  function Answered(spells: Dict<SpellInfo>, n: string, a: Answer): (r: Dict<SpellInfo>)
    requires spells.Valid() && n in spells.entries && !a.Blank?
    ensures r.Valid()
    ensures forall m :: m in r.entries ==> m in spells.entries
    ensures forall m :: m in spells.entries && m != n ==> m in r.entries && r.entries[m] == spells.entries[m]
    ensures a.Skip? <==> n !in r.entries
    ensures a.Bind? ==> r.entries[n] == SpellInfo(spells.entries[n].iconPath, a.key) && r.order == spells.order
  {
    if a.Skip? then spells.Pop(n)
    else spells.Put(n, SpellInfo(spells.entries[n].iconPath, a.key))
  }

  /** The editor may still ask about `names`: distinct spells of `spells`. */
  ghost predicate Pending(spells: Dict<SpellInfo>, names: seq<string>) {
    spells.Valid() && Distinct(names) && forall n :: n in names ==> n in spells.entries
  }

  /** Settling the first pending spell leaves the rest pending. */
  lemma PendingNext(spells: Dict<SpellInfo>, names: seq<string>, a: Answer)
    requires Pending(spells, names) && |names| > 0 && !a.Blank?
    ensures names[0] in spells.entries && Pending(Answered(spells, names[0], a), names[1..])
  {
    assert names[0] !in names[1..];
  }

  /** `configure_keybindings` on the answers `inputs`, for the spells `names`
      in turn: a skip removes the spell, a binding sets its key, a blank
      answer asks again. `None` when the answers run out (the prompt
      raises). */
  function Configure(spells: Dict<SpellInfo>, names: seq<string>, inputs: seq<Answer>): Option<Dict<SpellInfo>>
    requires Pending(spells, names)
    decreases |inputs|
  {
    if |names| == 0 then Some(spells)
    else if |inputs| == 0 then None
    else if inputs[0].Blank? then Configure(spells, names, inputs[1..])
    else
      PendingNext(spells, names, inputs[0]);
      Configure(Answered(spells, names[0], inputs[0]), names[1..], inputs[1..])
  }

  /** The spell `n` of `d` is `s`'s, with a stripped, non-empty key. */
  ghost predicate Rebound(s: Dict<SpellInfo>, d: Dict<SpellInfo>, n: string) {
    n in s.entries && n in d.entries &&
    d.entries[n].iconPath == s.entries[n].iconPath &&
    d.entries[n].key != "" && Strip(d.entries[n].key) == d.entries[n].key
  }

  /** Fewer answers than spells always run out. */
  lemma {:induction false} ConfigureNeedsAnswers(spells: Dict<SpellInfo>, names: seq<string>, inputs: seq<Answer>)
    requires Pending(spells, names)
    ensures |inputs| < |names| ==> Configure(spells, names, inputs).None?
    decreases |inputs|
  {
    if |names| > 0 && |inputs| > 0 {
      assert names[0] !in names[1..];
      if inputs[0].Blank? {
        ConfigureNeedsAnswers(spells, names, inputs[1..]);
      } else {
        ConfigureNeedsAnswers(Answered(spells, names[0], inputs[0]), names[1..], inputs[1..]);
      }
    }
  }

  /** The outcome relation of the editor: `d` comes from `s` by removing or
      rebinding the spells `names`, and leaves every other spell alone. */
  ghost predicate Edited(s: Dict<SpellInfo>, names: seq<string>, d: Dict<SpellInfo>) {
    && d.Valid()
    && (forall n :: n in d.entries ==> n in s.entries)
    && (forall n :: n in names && n in d.entries ==> Rebound(s, d, n))
    && (forall n :: n in s.entries && n !in names ==> n in d.entries && d.entries[n] == s.entries[n])
  }

  /** After editing, each spell asked about is either removed or bound to a
      stripped, non-empty key with its icon unchanged; no spell is added and
      the spells not asked about are unchanged. */
  lemma {:induction false} ConfigureOutcome(spells: Dict<SpellInfo>, names: seq<string>, inputs: seq<Answer>)
    requires Pending(spells, names)
    requires forall t :: 0 <= t < |inputs| ==> Usable(inputs[t])
    ensures Configure(spells, names, inputs).Some? ==> Edited(spells, names, Configure(spells, names, inputs).value)
    decreases |inputs|
  {
    if |names| > 0 && |inputs| > 0 {
      assert names[0] !in names[1..];
      assert forall t :: 0 <= t < |inputs[1..]| ==> Usable(inputs[1..][t]);
      if inputs[0].Blank? {
        ConfigureOutcome(spells, names, inputs[1..]);
      } else {
        var next := Answered(spells, names[0], inputs[0]);
        ConfigureOutcome(next, names[1..], inputs[1..]);
        AnsweredRebinds(spells, names[0], inputs[0]);
        EditedStep(spells, names, next, Configure(spells, names, inputs));
      }
    }
  }

  /** A spell that survives a usable answer is rebound. */
  lemma AnsweredRebinds(spells: Dict<SpellInfo>, n: string, a: Answer)
    requires spells.Valid() && n in spells.entries && !a.Blank? && Usable(a)
    ensures n in Answered(spells, n, a).entries ==> Rebound(spells, Answered(spells, n, a), n)
  {
  }

  /** One spell handled: editing the rest of the names from `next` is an
      edit of all the names from `s`. */
  lemma EditedStep(s: Dict<SpellInfo>, names: seq<string>, next: Dict<SpellInfo>, r: Option<Dict<SpellInfo>>)
    requires s.Valid() && |names| > 0 && names[0] !in names[1..] && names[0] in s.entries
    requires next.Valid()
    requires forall n :: n in next.entries ==> n in s.entries
    requires names[0] in next.entries ==> Rebound(s, next, names[0])
    requires forall n :: n in s.entries && n != names[0] ==> n in next.entries && next.entries[n] == s.entries[n]
    requires r.Some? ==> Edited(next, names[1..], r.value)
    ensures r.Some? ==> Edited(s, names, r.value)
  {
    if r.Some? {
      var d := r.value;
      forall n | n in names && n in d.entries ensures Rebound(s, d, n) {
        if n == names[0] {
          assert n !in names[1..];
        } else {
          assert n in names[1..];
        }
      }
    }
  }

  /** Blank answers are asked again and change nothing. */
  lemma {:induction false} BlanksIgnored(spells: Dict<SpellInfo>, names: seq<string>, inputs: seq<Answer>, k: nat)
    requires Pending(spells, names) && |names| > 0
    requires k <= |inputs| && forall t :: 0 <= t < k ==> inputs[t].Blank?
    ensures Configure(spells, names, inputs) == Configure(spells, names, inputs[k..])
    decreases k
  {
    if k > 0 {
      assert inputs[1..][k - 1..] == inputs[k..];
      BlanksIgnored(spells, names, inputs[1..], k - 1);
    }
  }

  /** A non-blank answer settles the first spell. */
  lemma ConfigureAnswer(d: Dict<SpellInfo>, names: seq<string>, inputs: seq<Answer>)
    requires Pending(d, names) && |names| > 0
    requires |inputs| > 0 && !inputs[0].Blank?
    ensures names[0] !in names[1..]
    ensures Configure(d, names, inputs) == Configure(Answered(d, names[0], inputs[0]), names[1..], inputs[1..])
  {
    assert names[0] !in names[1..];
  }

  /** What one prompt decides: running out of lines ends the editor with
      `None`, and the first non-blank line at `k - 1` settles the first
      spell. */
  lemma PromptOutcome(d: Dict<SpellInfo>, names: seq<string>, answers: seq<Answer>, j: nat, k: nat, found: bool)
    requires Pending(d, names) && |names| > 0
    requires j <= k <= |answers|
    requires forall t :: j <= t < k - (if found then 1 else 0) ==> answers[t].Blank?
    requires !found ==> k == |answers|
    requires found ==> j < k && !answers[k - 1].Blank?
    ensures !found ==> Configure(d, names, answers[j..]) == None
    ensures found ==> (names[0] !in names[1..] &&
      Configure(d, names, answers[j..]) == Configure(Answered(d, names[0], answers[k - 1]), names[1..], answers[k..]))
  {
    var rest := answers[j..];
    if found {
      var tail := answers[k - 1..];
      BlanksIgnored(d, names, rest, k - 1 - j);
      assert rest[k - 1 - j..] == tail;
      assert tail[0] == answers[k - 1] && tail[1..] == answers[k..];
      ConfigureAnswer(d, names, tail);
    } else {
      BlanksIgnored(d, names, rest, k - j);
      assert rest[k - j..] == [];
    }
  }

  /** One prompt of the editor: reads lines from `j` on until one is not
      blank; `None` when the lines run out first. */
  method Prompt(inputs: seq<string>, j: nat, ghost answers: seq<Answer>) returns (answer: Option<Answer>, next: nat)
    requires j <= |inputs| && answers == ReadAnswers(inputs)
    ensures j <= next <= |inputs|
    ensures forall t :: j <= t < next - (if answer.Some? then 1 else 0) ==> answers[t].Blank?
    ensures answer.None? ==> next == |inputs|
    ensures answer.Some? ==> j < next && answer.value == answers[next - 1] && !answer.value.Blank?
  {
    next := j;
    while next < |inputs|
      invariant j <= next <= |inputs|
      invariant forall t :: j <= t < next ==> answers[t].Blank?
    {
      var a := ReadAnswer(inputs[next]);
      next := next + 1;
      if !a.Blank? {
        return Some(a), next;
      }
    }
    return None, next;
  }

  /** The editor as the source writes it: the sorted spell names in turn, each
      prompting until it gets a usable answer. */
  method ConfigureKeybindings(spells: Dict<SpellInfo>, inputs: seq<string>) returns (result: Option<Dict<SpellInfo>>)
    requires spells.Valid()
    ensures result == Configure(spells, Sort(spells.order), ReadAnswers(inputs))
  {
    var names := Sort(spells.order);
    ghost var answers := ReadAnswers(inputs);
    var d := spells;
    var i, j := 0, 0;
    while i < |names|
      invariant 0 <= i <= |names| && 0 <= j <= |inputs|
      invariant Pending(d, names[i..])
      invariant Configure(spells, names, answers) == Configure(d, names[i..], answers[j..])
    {
      var answer, k := Prompt(inputs, j, answers);
      if answer.None? {
        assert Configure(d, names[i..], answers[j..]) == None by {
          PromptOutcome(d, names[i..], answers, j, k, false);
        }
        return None;
      }
      assert Configure(d, names[i..], answers[j..])
        == Configure(Answered(d, names[i], answer.value), names[i + 1..], answers[k..]) by {
        assert names[i..][1..] == names[i + 1..];
        PromptOutcome(d, names[i..], answers, j, k, true);
        PendingNext(d, names[i..], answer.value);
      }
      j := k;
      PendingNext(d, names[i..], answer.value);
      d := Answered(d, names[i], answer.value);
      i := i + 1;
    }
    return Some(d);
  }

  /** The editor's promise: with fewer lines than spells it runs out;
      otherwise every spell it keeps was asked about and bound to a stripped,
      non-empty key beside its own icon, and no spell is added. */
  lemma EditorResult(spells: Dict<SpellInfo>, inputs: seq<string>)
    requires spells.Valid()
    ensures |inputs| < |spells.order| ==> Configure(spells, Sort(spells.order), ReadAnswers(inputs)).None?
    ensures Configure(spells, Sort(spells.order), ReadAnswers(inputs)).Some? ==>
      var d := Configure(spells, Sort(spells.order), ReadAnswers(inputs)).value;
      d.Valid() && (forall n :: n in d.entries ==> Rebound(spells, d, n))
  {
    var names := Sort(spells.order);
    assert |names| == |spells.order| by {
      assert |multiset(names)| == |multiset(spells.order)|;
    }
    ConfigureNeedsAnswers(spells, names, ReadAnswers(inputs));
    ReadAnswersUsable(inputs);
    ConfigureOutcome(spells, names, ReadAnswers(inputs));
  }
}

=== FILE: gui.dfy ===
/** The graphical front end's window (`AutoHekiliGUI`) and its recognition
    test worker (`SpellTestThread`). The window holds the spell box on
    screen, the spell configuration, one keybinding input per spell and the
    saved configuration. It checks its state before automation or a test
    starts. */
module Gui {
  import opened Wrappers
  import opened Seqs
  import opened Text
  import opened Dicts
  import opened Sorting
  import opened Matching
  import opened Icons
  import opened Keybindings
  import CaptureLoop

  // -----------------------------------------------------------------------
  // The screen region

  /** `(left, top, width, height)` of the spell box on screen. */
  datatype Box = Box(left: int, top: int, width: int, height: int)

  /** A mouse drag: where the button went down and where the pointer last
      moved before it came up. */
  datatype Drag = Drag(x0: int, y0: int, x1: int, y1: int)

  function Min(a: int, b: int): int { if a <= b then a else b }

  function Abs(a: int): int { if a < 0 then -a else a }

  /** The region a drag selects, the same in both front ends. */
  function Selection(d: Drag): (b: Box)
    ensures b.width >= 0 && b.height >= 0
  {
    Box(Min(d.x0, d.x1), Min(d.y0, d.y1), Abs(d.x1 - d.x0), Abs(d.y1 - d.y0))
  }

  /** The region does not depend on the direction of the drag, on either
      axis. */
  lemma SelectionIsUndirected(d: Drag)
    ensures Selection(d) == Selection(Drag(d.x1, d.y1, d.x0, d.y0))
    ensures Selection(d) == Selection(Drag(d.x1, d.y0, d.x0, d.y1))
  {
  }

  /** The region is the box spanned by the two corners of the drag: both
      corners lie on its border, and its far corner is one of them. */
  lemma SelectionSpansDrag(d: Drag)
    ensures var b := Selection(d);
      && b.left <= d.x0 <= b.left + b.width && b.left <= d.x1 <= b.left + b.width
      && b.top <= d.y0 <= b.top + b.height && b.top <= d.y1 <= b.top + b.height
      && (b.left == d.x0 || b.left == d.x1) && (b.left + b.width == d.x0 || b.left + b.width == d.x1)
      && (b.top == d.y0 || b.top == d.y1) && (b.top + b.height == d.y0 || b.top + b.height == d.y1)
  {
  }

  /** The side of the box assumed when it is read back from the
      configuration, which keeps only its corner. */
  const SavedSide: int := 50

  /** `config["location"]` as written when a setup is applied. */
  function SaveLocation(b: Box): (loc: seq<int>)
    ensures |loc| == 2
  {
    [b.left, b.top]
  }

  /** `load_existing_config` as written: a location of at least two numbers
      passes the guard, but unpacking it into exactly two names raises for
      any longer list. `Err` is that exception. */
  function LoadBoxAsWritten(loc: seq<int>): Result<Option<Box>, ()> {
    if |loc| >= 2 then
      if |loc| == 2 then Ok(Some(Box(loc[0], loc[1], SavedSide, SavedSide))) else Err(())
    else Ok(None)
  }

  /** A three-number location passes the length guard and then raises. */
  lemma LoadBoxAsWrittenRaises()
    ensures |[10, 20, 30]| >= 2 && LoadBoxAsWritten([10, 20, 30]).Err?
  {
  }

  /** The box read back from a stored location: its first two numbers and
      the default side, or nothing when fewer than two numbers are stored. */
  function LoadBox(loc: seq<int>): (r: Option<Box>)
    ensures r.Some? <==> |loc| >= 2
  {
    if |loc| >= 2 then Some(Box(loc[0], loc[1], SavedSide, SavedSide)) else None
  }

  /** The corrected reading agrees with the code as written wherever the
      latter does not raise, and the latter raises exactly on locations of
      more than two numbers. */
  lemma LoadBoxAgrees(loc: seq<int>)
    ensures LoadBoxAsWritten(loc).Err? <==> |loc| > 2
    ensures LoadBoxAsWritten(loc).Ok? ==> LoadBoxAsWritten(loc).value == LoadBox(loc)
  {
  }

  /** Saving a box and reading it back keeps its corner and replaces its
      size by the default; the code as written reads the location it saves
      itself without raising. */
  lemma LoadSavedBox(b: Box)
    ensures LoadBox(SaveLocation(b)) == Some(Box(b.left, b.top, SavedSide, SavedSide))
    ensures LoadBoxAsWritten(SaveLocation(b)) == Ok(LoadBox(SaveLocation(b)))
  {
  }

  // -----------------------------------------------------------------------
  // Finding the spell to test

  /** The lowercased query occurs in the lowercased spell name. */
  predicate NameMatches(query: string, name: string) {
    IsSubstring(Lower(query), Lower(name))
  }

  /** The first name, in order, that the query matches. */
  function FirstMatching(names: seq<string>, query: string): (r: Option<string>)
    ensures r.Some? ==> r.value in names && NameMatches(query, r.value)
  {
    if |names| == 0 then None
    else if NameMatches(query, names[0]) then Some(names[0])
    else FirstMatching(names[1..], query)
  }

  /** The search finds nothing exactly when no name matches, and otherwise
      finds the first match. */
  lemma {:induction false} FirstMatchingIsFirst(names: seq<string>, query: string)
    ensures FirstMatching(names, query).None? <==>
      forall k :: 0 <= k < |names| ==> !NameMatches(query, names[k])
    ensures FirstMatching(names, query).Some? ==>
      exists k :: 0 <= k < |names| && names[k] == FirstMatching(names, query).value
        && forall j :: 0 <= j < k ==> !NameMatches(query, names[j])
  {
    if |names| > 0 && !NameMatches(query, names[0]) {
      var tail := names[1..];
      FirstMatchingIsFirst(tail, query);
      if FirstMatching(tail, query).Some? {
        var k :| 0 <= k < |tail| && tail[k] == FirstMatching(tail, query).value
          && forall j :: 0 <= j < k ==> !NameMatches(query, tail[j]);
        forall j | 0 < j < k + 1 ensures !NameMatches(query, names[j]) {
          assert names[j] == tail[j - 1];
        }
        assert names[k + 1] == tail[k];
      } else {
        forall k | 0 < k < |names| ensures !NameMatches(query, names[k]) {
          assert names[k] == tail[k - 1];
        }
      }
    }
  }

  /** An empty query is in every name, so it picks the first spell. */
  lemma EmptyQueryPicksFirst(names: seq<string>)
    requires |names| > 0
    ensures FirstMatching(names, "") == Some(names[0])
  {
    assert OccursAt(Lower(""), Lower(names[0]), 0);
  }

  /** The lookup loop of the test worker, left at the first match. */
  method FindSpell(spellInfo: Dict<SpellInfo>, query: string) returns (found: Option<string>)
    ensures found == FirstMatching(spellInfo.order, query)
  {
    found := None;
    var i := 0;
    while i < |spellInfo.order|
      invariant 0 <= i <= |spellInfo.order|
      invariant FirstMatching(spellInfo.order, query) == FirstMatching(spellInfo.order[i..], query)
    {
      if NameMatches(query, spellInfo.order[i]) {
        found := Some(spellInfo.order[i]);
        return;
      }
      assert spellInfo.order[i..][1..] == spellInfo.order[i + 1..];
      i := i + 1;
    }
  }

  // -----------------------------------------------------------------------
  // The recognition test

  /** What the test reports for one template scale. */
  datatype ScaleResult = SkippedTooLarge | Confidence(value: real, matched: bool)

  /** What the test worker reports. */
  datatype TestReport =
    | NotFound                  // no spell name contains the query
    | IconMissing(spell: string)
    | CaptureRaised(spell: string)   // the screen capture raised: the worker ends before the preview
    | IconUnreadable(spell: string)  // the icon exists but does not open: the worker ends after the preview
    | Tested(spell: string, distance: nat, hashMatch: bool, templates: seq<ScaleResult>)

  /** The scales the test tries, one more than the automation. */
  const TestScales: seq<real> := [1.0, 0.95, 0.9, 0.85]

  function ScaleResultOf(r: ScaleReading): ScaleResult {
    match r
    case TooLarge => SkippedTooLarge
    case Correlation(v) => Confidence(v, v >= TemplateBar)
  }

  /** One result per reading, in order: a scale that does not fit is
      skipped, and a correlation of at least 0.7 is a match. */
  function ScaleResults(readings: seq<ScaleReading>): (r: seq<ScaleResult>)
    ensures |r| == |readings|
    ensures forall i :: 0 <= i < |r| ==>
      (r[i].SkippedTooLarge? <==> readings[i].TooLarge?) &&
      (r[i].Confidence? ==> r[i].value == readings[i].value && (r[i].matched <==> r[i].value >= TemplateBar))
  {
    if |readings| == 0 then []
    else
      var p := readings[..|readings| - 1];
      var r := ScaleResults(p);
      assert forall i :: 0 <= i < |p| ==> readings[i] == p[i];
      r + [ScaleResultOf(readings[|readings| - 1])]
  }

  /** The automation's scales are the first scales of the test. */
  lemma AutomationScalesComeFirst()
    ensures |Scales| < |TestScales| && TestScales[..|Scales|] == Scales
  {
  }

  /** Among the test's results at the scales the automation also tries, one
      reports a match exactly when the automation finds the template. */
  lemma TestTemplateAgreesWithScore(frame: Frame, name: string)
    requires frame.template(name).Readings?
    ensures var r := ScaleResults(ReadingsAt(frame.template(name).at, TestScales));
      (exists i :: 0 <= i < |Scales| && r[i].Confidence? && r[i].matched) <==> TemplateWins(frame, name)
  {
    var at := frame.template(name).at;
    var r := ScaleResults(ReadingsAt(at, TestScales));
    var a := ReadingsAt(at, Scales);
    AutomationScalesComeFirst();
    assert forall i :: 0 <= i < |Scales| ==> ReadingsAt(at, TestScales)[i] == a[i];
    ScoreIsMaximum(a);
    if Score(a) >= TemplateBar {
      var i :| 0 <= i < |a| && a[i] == Correlation(Score(a));
      assert r[i].Confidence? && r[i].matched;
    }
  }

  /** The test's extra scale can report a match the automation never makes:
      a template reading 0.5 at the automation's three scales and 0.8 at 0.85
      is a match for the test and not for the automation. */
  lemma TestMatchesBeyondAutomation(frame: Frame, name: string)
    requires frame.template(name).Readings?
    requires forall k :: 0 <= k < |Scales| ==> frame.template(name).at(Scales[k]) == Correlation(0.5)
    requires frame.template(name).at(0.85) == Correlation(0.8)
    ensures ScaleResults(ReadingsAt(frame.template(name).at, TestScales))[3] == Confidence(0.8, true)
    ensures !TemplateWins(frame, name)
  {
    var a := ReadingsAt(frame.template(name).at, Scales);
    ScoreIsMaximum(a);
    assert TestScales[3] == 0.85;
  }

  /** `SpellTestThread.run`: look the spell up, check that its icon exists,
      capture the region, open the icon, compare hashes under the user
      threshold, and try the template at each scale. `iconExists` answers
      `os.path.exists`, `iconLoads` says whether the icon file opens as an
      image, and `capture` is the captured region's frame, or `None` when
      the capture raised. The worker catches no exception: a capture or an
      icon that raises ends it without a hash or template result. */
  function SpellTest(spellInfo: Dict<SpellInfo>, query: string, threshold: int,
                     iconExists: string -> bool, iconLoads: string -> bool,
                     capture: Option<Frame>): TestReport
    requires spellInfo.Valid()
  {
    match FirstMatching(spellInfo.order, query)
    case None => NotFound
    case Some(n) =>
      var path := spellInfo.entries[n].iconPath;
      if !iconExists(path) then IconMissing(n)
      else if capture.None? then CaptureRaised(n)
      else if !iconLoads(path) then IconUnreadable(n)
      else
        var frame := capture.value;
        var templates := match frame.template(n)
          case Unreadable => []
          case Readings(at) => ScaleResults(ReadingsAt(at, TestScales));
        Tested(n, frame.distance(n), frame.distance(n) < threshold, templates)
  }

  /** The test reports on the first spell the query matches. A missing icon,
      a capture that raises and an icon that does not open end it in that
      order; otherwise it gives the hash verdict of the plain user
      threshold. */
  lemma SpellTestOutcome(spellInfo: Dict<SpellInfo>, query: string, threshold: int,
                         iconExists: string -> bool, iconLoads: string -> bool, capture: Option<Frame>)
    requires spellInfo.Valid()
    ensures var r := SpellTest(spellInfo, query, threshold, iconExists, iconLoads, capture);
      && (r.NotFound? <==> forall k :: 0 <= k < |spellInfo.order| ==> !NameMatches(query, spellInfo.order[k]))
      && (!r.NotFound? ==> Some(r.spell) == FirstMatching(spellInfo.order, query) && r.spell in spellInfo.entries)
      && (r.IconMissing? <==> !r.NotFound? && !iconExists(spellInfo.entries[r.spell].iconPath))
      && (r.CaptureRaised? <==> !r.NotFound? && iconExists(spellInfo.entries[r.spell].iconPath) && capture.None?)
      && (r.IconUnreadable? <==>
            !r.NotFound? && iconExists(spellInfo.entries[r.spell].iconPath) &&
            capture.Some? && !iconLoads(spellInfo.entries[r.spell].iconPath))
      && (r.Tested? <==>
            !r.NotFound? && iconExists(spellInfo.entries[r.spell].iconPath) &&
            capture.Some? && iconLoads(spellInfo.entries[r.spell].iconPath))
      && (r.Tested? ==> r.distance == capture.value.distance(r.spell) && (r.hashMatch <==> r.distance < threshold))
      && (r.Tested? && capture.value.template(r.spell).Unreadable? ==> r.templates == [])
  {
    FirstMatchingIsFirst(spellInfo.order, query);
  }

  /** The test and the automation agree on icons that do not open: a spell
      the test gets a hash result for is among the automation worker's
      hashed spells (`CaptureLoop.CaptureThread`), and a spell whose icon
      does not open is not. */
  lemma TestedSpellIsHashed(spellInfo: Dict<SpellInfo>, query: string, threshold: int,
                            iconExists: string -> bool, iconLoads: string -> bool, capture: Option<Frame>)
    requires spellInfo.Valid()
    ensures var r := SpellTest(spellInfo, query, threshold, iconExists, iconLoads, capture);
      var hashed := Filter(spellInfo.order, n => n in spellInfo.entries && iconLoads(spellInfo.entries[n].iconPath));
      && (r.Tested? ==> r.spell in hashed)
      && (r.IconUnreadable? ==> r.spell !in hashed)
  {
  }

  /** The test is more lenient than the automation for problem spells: at
      distance 13 under a threshold of 15 the test reports a hash match,
      while the automation's hash pass reports nothing. */
  lemma TestIsLenientForProblemSpells(spellInfo: Dict<SpellInfo>, name: string,
                                      iconExists: string -> bool, iconLoads: string -> bool, frame: Frame)
    requires spellInfo.Valid() && |spellInfo.order| > 0 && spellInfo.order[0] == name
    requires IsProblemSpell(name) && iconExists(spellInfo.entries[name].iconPath)
    requires iconLoads(spellInfo.entries[name].iconPath)
    requires frame.distance(name) == 13
    ensures SpellTest(spellInfo, "", 15, iconExists, iconLoads, Some(frame)).Tested?
    ensures SpellTest(spellInfo, "", 15, iconExists, iconLoads, Some(frame)).hashMatch
    ensures GuiHashVerdict(Some(Nearest(name, 13)), 15) == NoMatch
  {
    EmptyQueryPicksFirst(spellInfo.order);
  }

  /** The test worker written as the source has it. */
  method RunSpellTest(spellInfo: Dict<SpellInfo>, query: string, threshold: int,
                      iconExists: string -> bool, iconLoads: string -> bool,
                      capture: Option<Frame>) returns (report: TestReport)
    requires spellInfo.Valid()
    ensures report == SpellTest(spellInfo, query, threshold, iconExists, iconLoads, capture)
  {
    var found := FindSpell(spellInfo, query);
    if found.None? {
      return NotFound;
    }
    var name := found.value;
    if !iconExists(spellInfo.entries[name].iconPath) {
      return IconMissing(name);
    }
    if capture.None? {
      return CaptureRaised(name);
    }
    var frame := capture.value;
    if !iconLoads(spellInfo.entries[name].iconPath) {
      return IconUnreadable(name);
    }
    var distance := frame.distance(name);
    var templates: seq<ScaleResult> := [];
    var reading := frame.template(name);
    if reading.Readings? {
      var scales := ReadingsAt(reading.at, TestScales);
      var i := 0;
      while i < |scales|
        invariant 0 <= i <= |scales|
        invariant templates == ScaleResults(scales[..i])
      {
        TakeOneMore(scales, i);
        templates := templates + [ScaleResultOf(scales[i])];
        i := i + 1;
      }
      assert scales[..i] == scales;
    }
    report := Tested(name, distance, distance < threshold, templates);
  }

  // -----------------------------------------------------------------------
  // The window

  /** The parts of the JSON configuration the window reads and writes. An
      absent or empty class is `""`. */
  datatype Config = Config(cls: string, location: Option<seq<int>>, keybindings: Option<Dict<string>>)

  /** Where the spell icons of every class/spec live. */
  const ImgDir: string := "img"

  /** The spell configuration read from a class/spec directory listing
      (`None` when the directory does not exist). */
  function IconsOf(listing: Option<seq<string>>, dir: string): (d: Dict<SpellInfo>)
    ensures d.Valid()
  {
    match listing
    case None => Empty()
    case Some(files) => IconMap(dir, files)
  }

  /** The spell configuration with the saved bindings, if any, applied. */
  function WithSaved(info: Dict<SpellInfo>, saved: Option<Dict<string>>): (r: Dict<SpellInfo>)
    ensures r.order == info.order && forall n :: n in r.entries <==> n in info.entries
    ensures info.Valid() ==> r.Valid()
  {
    match saved
    case None => info
    case Some(kb) => Merge(info, kb.entries)
  }

  /** One input field per spell, in sorted order, showing the spell's key. */
  function InputsFor(info: Dict<SpellInfo>): (r: Dict<string>)
    requires info.Valid()
    ensures r.Valid()
    ensures r.order == Sort(info.order)
    ensures forall n :: n in r.entries <==> n in info.entries
    ensures forall n :: n in r.entries ==> r.entries[n] == info.entries[n].key
  {
    var names := Sort(info.order);
    assert forall x :: x in names ==> HasSpell(info)(x);
    FilterAll(names, HasSpell(info));
    assert Distinct(info.order);
    Comprehension(names, HasSpell(info), KeyOf(info))
  }

  function HasSpell(info: Dict<SpellInfo>): string -> bool {
    n => n in info.entries
  }

  /** The key shown in the input of spell `n`. */
  function KeyOf(info: Dict<SpellInfo>): string -> string {
    n => if n in info.entries then info.entries[n].key else ""
  }

  /** Spell `n`'s thumbnail icon exists but does not open, so that building
      its input row raises. */
  predicate ThumbnailRaises(info: Dict<SpellInfo>, iconExists: string -> bool, iconLoads: string -> bool, n: string) {
    n in info.entries && Unopenable(info.entries[n].iconPath, iconExists, iconLoads)
  }

  /** How many of `names` get an input row before one's thumbnail raises:
      the index of the first whose thumbnail raises, or all of them. */
  function RowsBuilt(info: Dict<SpellInfo>, iconExists: string -> bool, iconLoads: string -> bool,
                     names: seq<string>): (k: nat)
    ensures k <= |names|
    ensures forall j :: 0 <= j < k ==> !ThumbnailRaises(info, iconExists, iconLoads, names[j])
    ensures k < |names| ==> ThumbnailRaises(info, iconExists, iconLoads, names[k])
  {
    if |names| == 0 then 0
    else if ThumbnailRaises(info, iconExists, iconLoads, names[0]) then 0
    else
      var k := RowsBuilt(info, iconExists, iconLoads, names[1..]);
      assert forall j :: 1 <= j < k + 1 ==> names[j] == names[1..][j - 1];
      k + 1
  }

  /** `populate_keybindings` raises: some spell's thumbnail icon exists but
      does not open. */
  ghost predicate PopulateRaises(info: Dict<SpellInfo>, iconExists: string -> bool, iconLoads: string -> bool) {
    exists n :: ThumbnailRaises(info, iconExists, iconLoads, n)
  }

  /** Population raises exactly when it stops before the last spell in
      sorted order. */
  lemma RaisesBeforeLastRow(info: Dict<SpellInfo>, iconExists: string -> bool, iconLoads: string -> bool)
    requires info.Valid()
    ensures var names := Sort(info.order);
      PopulateRaises(info, iconExists, iconLoads) <==> RowsBuilt(info, iconExists, iconLoads, names) < |names|
  {
    var names := Sort(info.order);
    var k := RowsBuilt(info, iconExists, iconLoads, names);
    if k < |names| {
      assert ThumbnailRaises(info, iconExists, iconLoads, names[k]);
    }
    if PopulateRaises(info, iconExists, iconLoads) {
      var n :| ThumbnailRaises(info, iconExists, iconLoads, n);
      assert n in info.order;
      var j :| 0 <= j < |names| && names[j] == n;
      assert !(forall i :: 0 <= i < |names| ==> !ThumbnailRaises(info, iconExists, iconLoads, names[i]));
    }
  }

  /** The inputs built for `names`, one after the other, each showing its
      spell's key. */
  function Rows(info: Dict<SpellInfo>, names: seq<string>): (r: Dict<string>)
    requires forall n :: n in names ==> n in info.entries
    ensures r.order == names
    ensures forall n :: n in r.entries <==> n in names
    ensures forall n :: n in r.entries ==> r.entries[n] == info.entries[n].key
  {
    if |names| == 0 then Empty()
    else
      var last := names[|names| - 1];
      var r := Rows(info, names[..|names| - 1]);
      assert names == names[..|names| - 1] + [last];
      Dict(r.order + [last], r.entries[last := info.entries[last].key])
  }

  /** Building the inputs one by one gives the dict comprehension over the
      same names. */
  lemma {:induction false} RowsAreComprehension(info: Dict<SpellInfo>, names: seq<string>)
    requires forall n :: n in names ==> n in info.entries
    ensures Rows(info, names) == Comprehension(names, HasSpell(info), KeyOf(info))
  {
    if |names| > 0 {
      var last := names[|names| - 1];
      var init := names[..|names| - 1];
      assert names == init + [last];
      RowsAreComprehension(info, init);
      ComprehensionStep(init, last, HasSpell(info), KeyOf(info));
    }
  }

  /** The inputs `populate_keybindings` leaves: one per spell in sorted
      order, showing its key, up to the first spell whose thumbnail
      raises. */
  function PopulatedInputs(info: Dict<SpellInfo>, iconExists: string -> bool, iconLoads: string -> bool): (r: Dict<string>)
    requires info.Valid()
    ensures r.Valid()
    ensures forall n :: n in r.entries ==> n in info.entries && r.entries[n] == info.entries[n].key
  {
    var names := Sort(info.order);
    var k := RowsBuilt(info, iconExists, iconLoads, names);
    assert Distinct(info.order);
    assert Distinct(names);
    var built := names[..k];
    assert forall i, j :: 0 <= i < j < |built| ==> built[i] != built[j] by {
      assert forall i :: 0 <= i < |built| ==> built[i] == names[i];
    }
    assert forall n :: n in built ==> n in info.entries;
    Rows(info, built)
  }

  /** The inputs are complete, one per spell as `InputsFor` lists them,
      exactly when no thumbnail raises. */
  lemma PopulatedInputsComplete(info: Dict<SpellInfo>, iconExists: string -> bool, iconLoads: string -> bool)
    requires info.Valid()
    ensures PopulatedInputs(info, iconExists, iconLoads) == InputsFor(info) <==> !PopulateRaises(info, iconExists, iconLoads)
  {
    var names := Sort(info.order);
    var k := RowsBuilt(info, iconExists, iconLoads, names);
    RaisesBeforeLastRow(info, iconExists, iconLoads);
    if k < |names| {
      assert Distinct(info.order);
      var n := names[k];
      assert n in info.order;
      assert n !in names[..k];
      assert n !in PopulatedInputs(info, iconExists, iconLoads).entries;
      assert n in InputsFor(info).entries;
    } else {
      assert names[..k] == names;
      RowsAreComprehension(info, names);
    }
  }

  /** Saving after a population that raised stores no binding for the spell
      whose thumbnail raised nor for any spell sorted after it: their saved
      bindings are lost. */
  lemma SaveAfterFailedPopulate(info: Dict<SpellInfo>, iconExists: string -> bool, iconLoads: string -> bool)
    requires info.Valid() && PopulateRaises(info, iconExists, iconLoads)
    ensures var names := Sort(info.order);
      var k := RowsBuilt(info, iconExists, iconLoads, names);
      forall j :: k <= j < |names| ==> names[j] !in Kept(PopulatedInputs(info, iconExists, iconLoads)).entries
  {
    var names := Sort(info.order);
    var k := RowsBuilt(info, iconExists, iconLoads, names);
    RaisesBeforeLastRow(info, iconExists, iconLoads);
    assert Distinct(info.order);
    forall j | k <= j < |names|
      ensures names[j] !in PopulatedInputs(info, iconExists, iconLoads).entries
    {
      assert names[j] !in names[..k];
    }
  }

  /** A spell has a key bound. */
  ghost predicate AnyBound(info: Dict<SpellInfo>) {
    exists n :: n in info.entries && info.entries[n].key != ""
  }

  /** The inputs with every text emptied, as `reset_keybindings` leaves
      them. */
  function Cleared(inputs: Dict<string>): (r: Dict<string>)
    requires inputs.Valid()
    ensures r.Valid()
    ensures r.order == inputs.order
    ensures forall n :: n in r.entries <==> n in inputs.entries
    ensures forall n :: n in r.entries ==> r.entries[n] == ""
  {
    Dict(inputs.order, map n | n in inputs.entries :: "")
  }

  /** The loop of `reset_keybindings`: every input's text set to empty, one
      input at a time. */
  method ClearInputs(inputs: Dict<string>) returns (cleared: Dict<string>)
    requires inputs.Valid()
    ensures cleared == Cleared(inputs)
  {
    cleared := inputs;
    var i := 0;
    while i < |inputs.order|
      invariant 0 <= i <= |inputs.order|
      invariant cleared.Valid() && cleared.order == inputs.order
      invariant forall k :: k in cleared.entries <==> k in inputs.entries
      invariant forall j :: 0 <= j < i ==> cleared.entries[inputs.order[j]] == ""
    {
      cleared := cleared.Put(inputs.order[i], "");
      i := i + 1;
    }
    assert cleared.entries == Cleared(inputs).entries;
  }

  /** Saving right after a reset stores no bindings at all, and every spell
      keeps the key it had. */
  lemma SaveAfterReset(inputs: Dict<string>, info: Dict<SpellInfo>)
    requires inputs.Valid()
    ensures Kept(Cleared(inputs)).entries == map[]
    ensures Merge(info, Kept(Cleared(inputs)).entries) == info
  {
  }

  /** Saving the inputs just populated from a configuration stores exactly
      its bound keys, provided every bound key is a stored one (stripped and
      not `skip`), and leaves the configuration as it was. */
  lemma SaveAfterPopulate(info: Dict<SpellInfo>)
    requires info.Valid()
    requires forall n :: n in info.entries && info.entries[n].key != "" ==>
      Strip(info.entries[n].key) == info.entries[n].key && !SaysSkip(info.entries[n].key)
    ensures Kept(InputsFor(info)).entries == KeybindingsOf(info).entries
    ensures Merge(info, Kept(InputsFor(info)).entries) == info
  {
    var inputs := InputsFor(info);
    forall n | n in info.entries
      ensures Keeps(inputs.entries[n]) <==> info.entries[n].key != ""
    {
      var k := info.entries[n].key;
      assert inputs.entries[n] == k;
      if k == "" {
        assert Strip(k) == "";
      }
    }
    var kept, bound := Kept(inputs).entries, KeybindingsOf(info).entries;
    assert forall n :: n in kept <==> n in bound;
    forall n | n in kept ensures kept[n] == bound[n] {
      assert kept[n] == Strip(inputs.entries[n]);
    }
    SameMap(kept, bound);
    MergeOwnKeybindings(info);
  }

  /** The bindings `save_keybindings` has collected from the first `i`
      inputs. */
  ghost function KeptUpTo(inputs: Dict<string>, i: nat): Dict<string>
    requires i <= |inputs.order|
  {
    Comprehension(inputs.order[..i], KeptInput(inputs), StoredInput(inputs))
  }

  /** One more input: a kept one is added last, stripped. */
  lemma KeptUpToNext(inputs: Dict<string>, i: nat)
    requires i < |inputs.order|
    ensures var n := inputs.order[i];
      KeptUpTo(inputs, i + 1) ==
        if KeptInput(inputs)(n)
        then Dict(KeptUpTo(inputs, i).order + [n], KeptUpTo(inputs, i).entries[n := StoredInput(inputs)(n)])
        else KeptUpTo(inputs, i)
  {
    TakeOneMore(inputs.order, i);
    ComprehensionStep(inputs.order[..i], inputs.order[i], KeptInput(inputs), StoredInput(inputs));
  }

  /** After every input, the collected bindings are the kept ones. */
  lemma KeptUpToAll(inputs: Dict<string>)
    requires inputs.Valid()
    ensures KeptUpTo(inputs, |inputs.order|) == Kept(inputs)
  {
    assert inputs.order[..|inputs.order|] == inputs.order;
  }

  /** Merging one more binding sets that spell's key. */
  lemma MergeNext(info: Dict<SpellInfo>, saved: map<string, string>, n: string, v: string)
    requires n in info.entries
    ensures Merge(info, saved[n := v]) ==
      Dict(Merge(info, saved).order, Merge(info, saved).entries[n := Merge(info, saved).entries[n].(key := v)])
  {
  }

  /** The input-filling loop of `populate_keybindings` over the spells in
      sorted order: one input per spell, each after the spell's thumbnail;
      the loop raises at a thumbnail icon that exists but does not open. */
  method FillInputs(info: Dict<SpellInfo>, names: seq<string>, iconExists: string -> bool, iconLoads: string -> bool)
    returns (inputs: Dict<string>, raised: bool)
    requires forall n :: n in names ==> n in info.entries
    ensures var k := RowsBuilt(info, iconExists, iconLoads, names);
      inputs == Rows(info, names[..k]) && (raised <==> k < |names|)
  {
    inputs := Empty();
    raised := false;
    var i := 0;
    while i < |names|
      invariant 0 <= i <= |names|
      invariant inputs == Rows(info, names[..i])
      invariant RowsBuiltAtLeast(info, iconExists, iconLoads, names, i)
    {
      var name := names[i];
      if Unopenable(info.entries[name].iconPath, iconExists, iconLoads) {
        raised := true;
        break;
      }
      RowsBuiltNext(info, iconExists, iconLoads, names, i);
      assert names[..i + 1][..i] == names[..i];
      inputs := Dict(inputs.order + [name], inputs.entries[name := info.entries[name].key]);
      i := i + 1;
    }
    FirstRaisingRow(info, iconExists, iconLoads, names, i);
  }




  /** None of the first `i` names has a thumbnail that raises. */
  ghost predicate RowsBuiltAtLeast(info: Dict<SpellInfo>, iconExists: string -> bool, iconLoads: string -> bool,
                                   names: seq<string>, i: nat) {
    i <= |names| && forall j :: 0 <= j < i ==> !ThumbnailRaises(info, iconExists, iconLoads, names[j])
  }

  /** A name whose thumbnail does not raise extends the rows built. */
  lemma RowsBuiltNext(info: Dict<SpellInfo>, iconExists: string -> bool, iconLoads: string -> bool,
                      names: seq<string>, i: nat)
    requires RowsBuiltAtLeast(info, iconExists, iconLoads, names, i) && i < |names|
    requires names[i] in info.entries && !Unopenable(info.entries[names[i]].iconPath, iconExists, iconLoads)
    ensures RowsBuiltAtLeast(info, iconExists, iconLoads, names, i + 1)
  {
  }

  /** The inputs of `populate_keybindings`, built over the spells in sorted
      order. */
  method SortedInputs(info: Dict<SpellInfo>, iconExists: string -> bool, iconLoads: string -> bool)
    returns (inputs: Dict<string>, raised: bool)
    requires info.Valid()
    ensures inputs == PopulatedInputs(info, iconExists, iconLoads)
    ensures raised <==> PopulateRaises(info, iconExists, iconLoads)
  {
    var names := Sort(info.order);
    assert forall n :: n in names ==> n in info.entries;
    inputs, raised := FillInputs(info, names, iconExists, iconLoads);
    RaisesBeforeLastRow(info, iconExists, iconLoads);
  }

  /** Rows are built up to the first spell whose thumbnail raises. */
  lemma FirstRaisingRow(info: Dict<SpellInfo>, iconExists: string -> bool, iconLoads: string -> bool,
                        names: seq<string>, i: nat)
    requires RowsBuiltAtLeast(info, iconExists, iconLoads, names, i)
    requires i < |names| ==> ThumbnailRaises(info, iconExists, iconLoads, names[i])
    ensures RowsBuilt(info, iconExists, iconLoads, names) == i
  {
  }

  /** The loop of `save_keybindings`: the kept inputs, stripped, both
      collected and set as the spells' keys. */
  method CollectKept(inputs: Dict<string>, info0: Dict<SpellInfo>) returns (kept: Dict<string>, info: Dict<SpellInfo>)
    requires inputs.Valid() && forall n :: n in inputs.entries ==> n in info0.entries
    ensures kept == Kept(inputs)
    ensures info == Merge(info0, kept.entries)
  {
    kept := Empty();
    info := info0;
    var i := 0;
    while i < |inputs.order|
      invariant 0 <= i <= |inputs.order|
      invariant kept == KeptUpTo(inputs, i)
      invariant info == Merge(info0, kept.entries)
    {
      var name := inputs.order[i];
      KeptUpToNext(inputs, i);
      var value := Strip(inputs.entries[name]);
      SaysSkipIsLowerSkip(value);
      if value != "" && Lower(value) != "skip" {
        MergeNext(info0, kept.entries, name, value);
        info := Dict(info.order, info.entries[name := info.entries[name].(key := value)]);
        kept := Dict(kept.order + [name], kept.entries[name := value]);
      }
      i := i + 1;
    }
    KeptUpToAll(inputs);
  }

  /** How `apply_setup` ends; `PopulateFailed` is an exception raised while
      the inputs are built. */
  datatype SetupOutcome = Applied | NoRegion | NoClassSpec | PopulateFailed

  /** How `toggle_automation` ends; `StartFailed` is an exception raised
      while the capture thread is built, before it starts. */
  datatype ToggleOutcome = Started | Stopped | NotConfigured | NoKeybindings | StartFailed

  /** `AutoHekiliGUI()`: the window of `__init__`, then
      `load_existing_config`; `None` when that raises, so that no window
      exists. `listing` is the icon directory of the saved class/spec. */
  method NewWindow(config: Config, listing: Option<seq<string>>, iconExists: string -> bool, iconLoads: string -> bool)
    returns (w: Option<AutoHekiliGui>)
    requires config.keybindings.Some? ==> config.keybindings.value.Valid()
    ensures var info := WithSaved(IconsOf(listing, PathJoin(ImgDir, config.cls)), config.keybindings);
      w.None? <==> config.cls != "" && PopulateRaises(info, iconExists, iconLoads)
    ensures w.Some? ==>
      && fresh(w.value) && w.value.Valid()
      && w.value.config == config && w.value.threshold == 15 && !w.value.automationRunning
      && (config.cls == "" ==> w.value.boxPosition.None? && w.value.spellInfo == Empty() && w.value.keybindInputs.None?)
      && (config.cls != "" ==>
        && w.value.boxPosition == (if config.location.Some? then LoadBox(config.location.value) else None)
        && w.value.spellInfo == WithSaved(IconsOf(listing, PathJoin(ImgDir, config.cls)), config.keybindings)
        && w.value.keybindInputs == Some(InputsFor(w.value.spellInfo)))
  {
    var window := new AutoHekiliGui(config);
    var raised := window.LoadExistingConfig(listing, iconExists, iconLoads);
    if config.cls != "" {
      ghost var info := WithSaved(IconsOf(listing, PathJoin(ImgDir, config.cls)), config.keybindings);
      assert window.spellInfo == info;
      assert raised <==> PopulateRaises(info, iconExists, iconLoads);
      PopulatedInputsComplete(info, iconExists, iconLoads);
    }
    if raised {
      return None;
    }
    w := Some(window);
  }

  class AutoHekiliGui {
    var config: Config
    var boxPosition: Option<Box>
    var spellInfo: Dict<SpellInfo>
    /** The text of the keybinding input field of each spell; `None` until
        the inputs are first populated, when the window has no such
        attribute yet. */
    var keybindInputs: Option<Dict<string>>
    /** The hash threshold slider. */
    var threshold: int
    /** A capture thread exists and is running. */
    var automationRunning: bool

    ghost predicate Valid()
      reads this
    {
      && spellInfo.Valid()
      && (keybindInputs.Some? ==> keybindInputs.value.Valid())
      && (keybindInputs.Some? ==> forall n :: n in keybindInputs.value.entries ==> n in spellInfo.entries)
      && (config.keybindings.Some? ==> config.keybindings.value.Valid())
      && 5 <= threshold <= 25
    }

    /** `__init__` up to `load_existing_config` (see `NewWindow`): the
        configuration read, no region, no spells, no inputs yet, no capture
        thread and the slider at 15. */
    constructor(config: Config)
      requires config.keybindings.Some? ==> config.keybindings.value.Valid()
      ensures Valid()
      ensures this.config == config && threshold == 15 && !automationRunning
      ensures boxPosition.None? && spellInfo == Empty() && keybindInputs.None?
    {
      this.config := config;
      boxPosition := None;
      spellInfo := Empty();
      keybindInputs := None;
      threshold := 15;
      automationRunning := false;
    }

    /** `load_existing_config`, with the corrected reading of the stored
        location. It raises when `populate_keybindings` does, leaving the
        spells loaded and the inputs built so far. */
    method LoadExistingConfig(listing: Option<seq<string>>, iconExists: string -> bool, iconLoads: string -> bool)
      returns (raised: bool)
      requires Valid()
      modifies this`boxPosition, this`spellInfo, this`keybindInputs
      ensures Valid()
      ensures config.cls == "" ==> unchanged(this) && !raised
      ensures config.cls != "" ==>
        && boxPosition == (if config.location.Some? && |config.location.value| >= 2
                           then LoadBox(config.location.value) else old(boxPosition))
        && spellInfo == WithSaved(IconsOf(listing, PathJoin(ImgDir, config.cls)), config.keybindings)
        && keybindInputs == Some(PopulatedInputs(spellInfo, iconExists, iconLoads))
        && (raised <==> PopulateRaises(spellInfo, iconExists, iconLoads))
    {
      raised := false;
      if config.cls != "" {
        if config.location.Some? && |config.location.value| >= 2 {
          boxPosition := LoadBox(config.location.value);
        }
        spellInfo := GetSpellsForClassSpec(PathJoin(ImgDir, config.cls), listing);
        raised := PopulateKeybindings(iconExists, iconLoads);
      }
    }

    /** `select_region`: a completed drag replaces the region; `None` is a
        window closed without one. */
    method SelectRegion(drag: Option<Drag>)
      modifies this`boxPosition
      ensures boxPosition == if drag.Some? then Some(Selection(drag.value)) else old(boxPosition)
    {
      if drag.Some? {
        boxPosition := Some(Selection(drag.value));
      }
    }

    /** The threshold slider moved to `value`, within its range. */
    method SetThreshold(value: int)
      requires 5 <= value <= 25
      modifies this`threshold
      ensures threshold == value
    {
      threshold := value;
    }

    /** `apply_setup`: needs a region and a class/spec; then stores them,
        loads that class/spec's icons and fills the inputs. A thumbnail that
        raises ends it after the configuration is stored and the spells are
        loaded, with the inputs built so far. */
    method ApplySetup(classSpec: string, listing: Option<seq<string>>, iconExists: string -> bool, iconLoads: string -> bool)
      returns (outcome: SetupOutcome)
      requires Valid()
      modifies this`config, this`spellInfo, this`keybindInputs
      ensures Valid()
      ensures outcome == NoRegion <==> boxPosition.None?
      ensures outcome == NoClassSpec <==> boxPosition.Some? && classSpec == ""
      ensures outcome in {NoRegion, NoClassSpec} ==> unchanged(this)
      ensures outcome in {Applied, PopulateFailed} ==>
        && config == old(config).(cls := classSpec, location := Some(SaveLocation(boxPosition.value)))
        && spellInfo == WithSaved(IconsOf(listing, PathJoin(ImgDir, classSpec)), config.keybindings)
        && keybindInputs == Some(PopulatedInputs(spellInfo, iconExists, iconLoads))
        && (outcome == PopulateFailed <==> PopulateRaises(spellInfo, iconExists, iconLoads))
    {
      if boxPosition.None? {
        return NoRegion;
      }
      if classSpec == "" {
        return NoClassSpec;
      }
      var raised := StoreSetup(classSpec, listing, iconExists, iconLoads);
      outcome := if raised then PopulateFailed else Applied;
    }

    /** The part of `apply_setup` past its checks. */
    method StoreSetup(classSpec: string, listing: Option<seq<string>>, iconExists: string -> bool, iconLoads: string -> bool)
      returns (raised: bool)
      requires Valid() && boxPosition.Some?
      modifies this`config, this`spellInfo, this`keybindInputs
      ensures Valid()
      ensures config == old(config).(cls := classSpec, location := Some(SaveLocation(boxPosition.value)))
      ensures spellInfo == WithSaved(IconsOf(listing, PathJoin(ImgDir, classSpec)), config.keybindings)
      ensures keybindInputs == Some(PopulatedInputs(spellInfo, iconExists, iconLoads))
      ensures raised <==> PopulateRaises(spellInfo, iconExists, iconLoads)
    {
      config := config.(cls := classSpec, location := Some(SaveLocation(boxPosition.value)));
      spellInfo := GetSpellsForClassSpec(PathJoin(ImgDir, classSpec), listing);
      raised := PopulateKeybindings(iconExists, iconLoads);
    }

    /** `populate_keybindings`: applies the saved bindings, then lists one
        input per spell in sorted order, showing its key. A thumbnail icon
        that exists but does not open raises, with the bindings applied and
        only the inputs of the spells sorted before it built. */
    method PopulateKeybindings(iconExists: string -> bool, iconLoads: string -> bool) returns (raised: bool)
      requires spellInfo.Valid()
      requires config.keybindings.Some? ==> config.keybindings.value.Valid()
      modifies this`spellInfo, this`keybindInputs
      ensures spellInfo.Valid() && keybindInputs.Some? && keybindInputs.value.Valid()
      ensures forall n :: n in keybindInputs.value.entries ==> n in spellInfo.entries
      ensures spellInfo == WithSaved(old(spellInfo), config.keybindings)
      ensures keybindInputs == Some(PopulatedInputs(spellInfo, iconExists, iconLoads))
      ensures raised <==> PopulateRaises(spellInfo, iconExists, iconLoads)
    {
      var info := spellInfo;
      if config.keybindings.Some? {
        info := ApplyKeybindings(info, config.keybindings.value);
      }
      var inputs;
      inputs, raised := SortedInputs(info, iconExists, iconLoads);
      spellInfo, keybindInputs := info, Some(inputs);
    }

    /** `save_keybindings`: every kept input is stored, stripped, both as
        the spell's key and in the saved bindings; spells whose input is not
        kept keep their key. Before the inputs are first populated the
        window has no inputs, the method raises, and nothing is saved. */
    method SaveKeybindings() returns (saved: bool)
      requires Valid()
      modifies this`spellInfo, this`config
      ensures Valid()
      ensures saved <==> keybindInputs.Some?
      ensures !saved ==> unchanged(this)
      ensures saved ==>
        && config == old(config).(keybindings := Some(Kept(keybindInputs.value)))
        && spellInfo == Merge(old(spellInfo), Kept(keybindInputs.value).entries)
    {
      if keybindInputs.None? {
        return false;
      }
      var kept, info := CollectKept(keybindInputs.value, spellInfo);
      spellInfo := info;
      config := config.(keybindings := Some(kept));
      saved := true;
    }

    /** The user typing `text` into the input field of spell `n`; only that
        input changes. */
    method SetInput(n: string, text: string)
      requires Valid() && keybindInputs.Some? && n in keybindInputs.value.entries
      modifies this`keybindInputs
      ensures Valid()
      ensures keybindInputs.Some? && keybindInputs.value.order == old(keybindInputs).value.order
      ensures keybindInputs.value.entries == old(keybindInputs).value.entries[n := text]
    {
      keybindInputs := Some(keybindInputs.value.Put(n, text));
    }

    /** `reset_keybindings`: every input field emptied, one at a time; the
        spells and the configuration keep their keys until the next save.
        Before the inputs are first populated the attribute lookup raises
        and nothing changes. */
    method ResetKeybindings() returns (reset: bool)
      requires Valid()
      modifies this`keybindInputs
      ensures Valid()
      ensures reset <==> old(keybindInputs).Some?
      ensures reset ==> keybindInputs == Some(Cleared(old(keybindInputs).value))
      ensures !reset ==> unchanged(this)
    {
      if keybindInputs.None? {
        return false;
      }
      var cleared := ClearInputs(keybindInputs.value);
      keybindInputs := Some(cleared);
      reset := true;
    }

    /** The scan for a bound key in `toggle_automation`. */
    method HasKeybindings() returns (found: bool)
      requires spellInfo.Valid()
      ensures found <==> AnyBound(spellInfo)
    {
      var i := 0;
      while i < |spellInfo.order|
        invariant 0 <= i <= |spellInfo.order|
        invariant forall k :: 0 <= k < i ==> spellInfo.entries[spellInfo.order[k]].key == ""
      {
        if spellInfo.entries[spellInfo.order[i]].key != "" {
          return true;
        }
        i := i + 1;
      }
      return false;
    }

    /** `toggle_automation`: stops a running capture thread; otherwise
        builds and starts one when a region, spells and a bound key are all
        there. Building it raises when a problem spell's icon exists but does
        not open, and then nothing starts. */
    method ToggleAutomation(iconExists: string -> bool, iconLoads: string -> bool) returns (outcome: ToggleOutcome)
      requires Valid()
      modifies this`automationRunning
      ensures old(automationRunning) ==> outcome == Stopped
      ensures !old(automationRunning) ==>
        var ready := boxPosition.Some? && spellInfo.entries != map[] && AnyBound(spellInfo);
        var fails := CaptureLoop.ReferenceSaveFails(spellInfo, Filter(spellInfo.order, IsProblemSpell), iconExists, iconLoads);
        && (outcome == NotConfigured <==> boxPosition.None? || spellInfo.entries == map[])
        && (outcome == NoKeybindings <==> boxPosition.Some? && spellInfo.entries != map[] && !AnyBound(spellInfo))
        && (outcome == StartFailed <==> ready && fails)
        && (outcome == Started <==> ready && !fails)
      ensures automationRunning <==> outcome == Started
    {
      if automationRunning {
        automationRunning := false;
        return Stopped;
      }
      if boxPosition.None? || spellInfo.entries == map[] {
        return NotConfigured;
      }
      var bound := HasKeybindings();
      if !bound {
        return NoKeybindings;
      }
      var thread := CaptureLoop.NewCaptureThread(spellInfo, threshold, iconExists, iconLoads);
      if thread.None? {
        return StartFailed;
      }
      automationRunning := true;
      outcome := Started;
    }

    /** `test_spell_recognition`: refused without a region or spells;
        otherwise the test worker's report. */
    method TestSpellRecognition(query: string, iconExists: string -> bool, iconLoads: string -> bool,
                                capture: Option<Frame>)
      returns (report: Option<TestReport>)
      requires Valid()
      ensures report.None? <==> boxPosition.None? || spellInfo.entries == map[]
      ensures report.Some? ==> report.value == SpellTest(spellInfo, query, threshold, iconExists, iconLoads, capture)
    {
      if boxPosition.None? || spellInfo.entries == map[] {
        return None;
      }
      var r := RunSpellTest(spellInfo, query, threshold, iconExists, iconLoads, capture);
      report := Some(r);
    }
  }
}

=== FILE: icons.dfy ===
/** `get_spells_for_class_spec`, the same in both front ends: the icon files
    of a class/spec directory become the spell configuration, one spell per
    file stem, with no key bound yet. */
module Icons {
  import opened Wrappers
  import opened Text
  import opened Dicts
  import opened Matching

  /** The image extensions accepted, compared case-sensitively. */
  predicate IsImageFile(f: string) {
    EndsWith(f, ".jpg") || EndsWith(f, ".jpeg") || EndsWith(f, ".png")
  }

  /** Index of the last `.` in `s`. */
  function LastDot(s: string): (r: Option<nat>)
    ensures r.Some? ==> r.value < |s| && s[r.value] == '.' && '.' !in s[r.value + 1..]
    ensures r.None? ==> '.' !in s
  {
    if |s| == 0 then None
    else if s[|s| - 1] == '.' then Some(|s| - 1)
    else
      var r := LastDot(s[..|s| - 1]);
      assert s == s[..|s| - 1] + [s[|s| - 1]];
      r
  }

  /** `os.path.splitext(f)[0]` for a bare file name: everything before the
      last `.`, unless only dots precede that `.` (a name such as `.png` has
      no extension). */
  function Stem(f: string): (r: string)
    ensures |r| <= |f| && r == f[..|r|]
  {
    match LastDot(f)
    case None => f
    case Some(d) => if exists k :: 0 <= k < d && f[k] != '.' then f[..d] else f
  }

  /** The stem of `base + ext` is `base` when `ext` is a single extension
      and `base` has a character other than `.`: so `frost_strike.png` gives
      `frost_strike`, and `a.b.png` gives `a.b`. */
  lemma StemDropsExtension(base: string, ext: string)
    requires |ext| > 0 && ext[0] == '.' && '.' !in ext[1..]
    requires exists k :: 0 <= k < |base| && base[k] != '.'
    ensures Stem(base + ext) == base
  {
    var f := base + ext;
    assert f[|base|] == '.';
    assert f[|base| + 1..] == ext[1..];
    var d := LastDot(f).value;
    var k :| 0 <= k < |base| && base[k] != '.';
    assert f[k] != '.';
    assert f[..d] == base;
  }

  /** `os.path.join(dir, file)` for a relative file name: an empty
      directory adds nothing, and a separator is added unless `dir` ends
      with one. */
  function PathJoin(dir: string, file: string): string {
    if |dir| == 0 || dir[|dir| - 1] == '/' then dir + file else dir + "/" + file
  }

  /** An icon file that exists but does not open as an image: `Image.open`
      on it raises. `iconExists` answers `os.path.exists`, and `iconLoads`
      says whether the file opens and decodes as an image. */
  predicate Unopenable(path: string, iconExists: string -> bool, iconLoads: string -> bool) {
    iconExists(path) && !iconLoads(path)
  }

  /** The spell map built from a directory listing, in listing order. */
  function IconMap(dir: string, files: seq<string>): (d: Dict<SpellInfo>)
    ensures d.Valid()
  {
    if |files| == 0 then Empty()
    else
      var d := IconMap(dir, files[..|files| - 1]);
      var f := files[|files| - 1];
      if IsImageFile(f) then d.Put(Stem(f), SpellInfo(PathJoin(dir, f), "")) else d
  }

  /** The file at `i` is the last image file in `files` with stem `k`. */
  ghost predicate LastImageWithStem(files: seq<string>, k: string, i: int) {
    && 0 <= i < |files| && IsImageFile(files[i]) && Stem(files[i]) == k
    && forall j :: i < j < |files| && IsImageFile(files[j]) ==> Stem(files[j]) != k
  }

  /** Some image file in `files` has stem `k`. */
  ghost predicate HasImageWithStem(files: seq<string>, k: string) {
    exists i :: 0 <= i < |files| && IsImageFile(files[i]) && Stem(files[i]) == k
  }

  lemma ImageWithStemStep(files: seq<string>, k: string)
    requires |files| > 0
    ensures HasImageWithStem(files, k) <==>
      HasImageWithStem(files[..|files| - 1], k) || (IsImageFile(files[|files| - 1]) && Stem(files[|files| - 1]) == k)
  {
    if HasImageWithStem(files, k) {
      var i :| 0 <= i < |files| && IsImageFile(files[i]) && Stem(files[i]) == k;
      if i < |files| - 1 {
        ImageInPrefix(files, k, i);
      }
    }
    if HasImageWithStem(files[..|files| - 1], k) {
      ImageFromPrefix(files, k);
    }
  }

  lemma ImageInPrefix(files: seq<string>, k: string, i: int)
    requires 0 <= i < |files| - 1 && IsImageFile(files[i]) && Stem(files[i]) == k
    ensures HasImageWithStem(files[..|files| - 1], k)
  {
    assert files[..|files| - 1][i] == files[i];
  }

  lemma ImageFromPrefix(files: seq<string>, k: string)
    requires |files| > 0 && HasImageWithStem(files[..|files| - 1], k)
    ensures HasImageWithStem(files, k)
  {
    var p := files[..|files| - 1];
    var i :| 0 <= i < |p| && IsImageFile(p[i]) && Stem(p[i]) == k;
    assert files[i] == p[i];
  }

  /** The map holds one spell per stem of an image file and nothing else. */
  lemma {:induction false} IconMapKeys(dir: string, files: seq<string>)
    ensures forall k :: k in IconMap(dir, files).entries <==> HasImageWithStem(files, k)
  {
    if |files| > 0 {
      var p := files[..|files| - 1];
      IconMapKeys(dir, p);
      forall k ensures k in IconMap(dir, files).entries <==> HasImageWithStem(files, k) {
        ImageWithStemStep(files, k);
      }
    }
  }

  /** Each spell's icon is the last image file with its stem, and no key is
      bound. */
  lemma {:induction false} IconMapEntries(dir: string, files: seq<string>)
    ensures forall k :: k in IconMap(dir, files).entries ==>
      IconMap(dir, files).entries[k].key == "" &&
      exists i :: LastImageWithStem(files, k, i) && IconMap(dir, files).entries[k].iconPath == PathJoin(dir, files[i])
  {
    if |files| > 0 {
      var n := |files| - 1;
      var p := files[..n];
      var f := files[n];
      IconMapEntries(dir, p);
      var d := IconMap(dir, files);
      forall k | k in d.entries
        ensures d.entries[k].key == "" &&
          exists i :: LastImageWithStem(files, k, i) && d.entries[k].iconPath == PathJoin(dir, files[i])
      {
        if IsImageFile(f) && Stem(f) == k {
          assert LastImageWithStem(files, k, n);
        } else {
          assert k in IconMap(dir, p).entries && d.entries[k] == IconMap(dir, p).entries[k];
          var i :| LastImageWithStem(p, k, i) && IconMap(dir, p).entries[k].iconPath == PathJoin(dir, p[i]);
          LastImageExtends(files, k, i);
        }
      }
    }
  }

  lemma LastImageExtends(files: seq<string>, k: string, i: int)
    requires |files| > 0 && LastImageWithStem(files[..|files| - 1], k, i)
    requires !(IsImageFile(files[|files| - 1]) && Stem(files[|files| - 1]) == k)
    ensures LastImageWithStem(files, k, i)
  {
    assert forall j :: 0 <= j < |files| - 1 ==> files[j] == files[..|files| - 1][j];
  }

  /** `get_spells_for_class_spec`: `listing` is the directory's file names,
      or `None` when the directory does not exist. */
  method GetSpellsForClassSpec(dir: string, listing: Option<seq<string>>) returns (spells: Dict<SpellInfo>)
    ensures spells.Valid()
    ensures listing.None? ==> spells == Empty()
    ensures listing.Some? ==> spells == IconMap(dir, listing.value)
  {
    spells := Empty();
    if listing.Some? {
      var files := listing.value;
      var i := 0;
      while i < |files|
        invariant 0 <= i <= |files|
        invariant spells == IconMap(dir, files[..i])
      {
        assert files[..i + 1][..i] == files[..i];
        var f := files[i];
        if IsImageFile(f) {
          spells := spells.Put(Stem(f), SpellInfo(PathJoin(dir, f), ""));
        }
        i := i + 1;
      }
      assert files[..i] == files;
    }
  }
}

=== FILE: key_dispatch.dfy ===
/** `press_key_combination`: a key token from the keybinding configuration
    becomes an ordered trace of key-injection calls. Modifiers go through
    press/release calls, the key itself through a single press. */
module KeyDispatch {
  import opened Text

  datatype KeyEvent =
    | Down(key: string)   // a modifier is pressed and held
    | Press(key: string)  // a key is pressed and released
    | Up(key: string)     // a held modifier is released

  const Modifiers: set<string> := {"alt", "ctrl", "shift"}

  /** The trace of one key token. A token with `+` is lowercased and split on
      `+`; the stripped first field is the modifier and the stripped second
      field the key, further fields are ignored, and a modifier other than
      alt, ctrl or shift produces nothing. A token without `+` is pressed as
      it is. */
  function KeyEvents(token: string): seq<KeyEvent> {
    if '+' in token then
      var fields := Split(Lower(token), '+');
      Combination(Strip(fields[0]), Strip(fields[1]))
    else [Press(token)]
  }

  /** A token without `+` is one press; any other token gives nothing or a
      modifier held around one press; only alt, ctrl and shift are ever
      held, and every modifier held is released later in the same trace. */
  lemma KeyEventsShape(token: string)
    ensures var r := KeyEvents(token);
      && ('+' !in token ==> r == [Press(token)])
      && ('+' in token ==> r == [] || (|r| == 3 && r[0].Down? && r[1].Press? && r[2] == Up(r[0].key)))
      && (forall e :: e in r && !e.Press? ==> e.key in Modifiers)
      && (forall i :: 0 <= i < |r| && r[i].Down? ==> exists j :: i < j < |r| && r[j] == Up(r[i].key))
  {
    if '+' in token {
      var fields := Split(Lower(token), '+');
      assert '+' in Lower(token) by {
        var k :| 0 <= k < |token| && token[k] == '+';
        assert Lower(token)[k] == '+';
      }
      assert KeyEvents(token) == Combination(Strip(fields[0]), Strip(fields[1]));
    }
  }

  /** The trace for a modifier field and a key field. */
  function Combination(modifier: string, key: string): (r: seq<KeyEvent>)
    ensures r == [] || (|r| == 3 && r[0].Down? && r[1].Press? && r[2] == Up(r[0].key))
    ensures forall e :: e in r && !e.Press? ==> e.key in Modifiers
    ensures forall i :: 0 <= i < |r| && r[i].Down? ==> exists j :: i < j < |r| && r[j] == Up(r[i].key)
  {
    if modifier in Modifiers then
      var r := [Down(modifier), Press(key), Up(modifier)];
      assert r[2] == Up(r[0].key);
      r
    else []
  }

  /** A field of a token as the dispatcher reads it: lowercased, cut at the
      first `+`, stripped. */
  function Field(s: string): string {
    Strip(Split(Lower(s), '+')[0])
  }

  lemma LowerConcat(a: string, b: string)
    ensures Lower(a + b) == Lower(a) + Lower(b)
  {
  }

  /** Lowercasing adds no `+`. */
  lemma LowerKeepsNoPlus(s: string)
    requires '+' !in s
    ensures '+' !in Lower(s)
  {
    forall i | 0 <= i < |s| ensures Lower(s)[i] != '+' {
      assert s[i] != '+';
    }
  }

  /** The field of `a+b` is the field of `a`. */
  lemma FieldOfJoined(a: string, b: string)
    requires '+' !in a
    ensures Field(a + "+" + b) == Field(a)
  {
    LowerKeepsNoPlus(a);
    assert Lower(a + "+" + b) == Lower(a) + ['+'] + Lower(b) by {
      LowerConcat(a + "+", b);
      LowerConcat(a, "+");
      assert Lower("+") == "+";
    }
    SplitAfterFirst(Lower(a), '+', Lower(b));
  }

  /** A token `m+k`, with no `+` in `m`, yields the modifier field of `m`
      held around the key field of `k` when the modifier is alt, ctrl or
      shift, and nothing otherwise. */
  lemma {:induction false} KeyEventsOfCombination(m: string, k: string)
    requires '+' !in m
    ensures KeyEvents(m + "+" + k) == Combination(Field(m), Field(k))
  {
    var token := m + "+" + k;
    assert token[|m|] == '+';
    LowerKeepsNoPlus(m);
    assert Lower(token) == Lower(m) + ['+'] + Lower(k) by {
      LowerConcat(m + "+", k);
      LowerConcat(m, "+");
      assert Lower("+") == "+";
    }
    SplitAfterFirst(Lower(m), '+', Lower(k));
  }

  /** Only the first two fields count: whatever follows a second `+` is
      dropped, so `ctrl+shift+f` presses `shift` under ctrl. */
  lemma {:induction false} ExtraFieldsIgnored(m: string, k: string, rest: string)
    requires '+' !in m && '+' !in k
    ensures KeyEvents(m + "+" + k + "+" + rest) == KeyEvents(m + "+" + k)
  {
    assert m + "+" + k + "+" + rest == m + "+" + (k + "+" + rest);
    KeyEventsOfCombination(m, k + "+" + rest);
    KeyEventsOfCombination(m, k);
    FieldOfJoined(k, rest);
  }

  /** A token whose modifier and key fields are known. */
  lemma {:induction false} ModifierToken(m: string, k: string, mod: string, key: string)
    requires '+' !in m && mod in Modifiers && Field(m) == mod && Field(k) == key
    ensures KeyEvents(m + "+" + k) == [Down(mod), Press(key), Up(mod)]
  {
    KeyEventsOfCombination(m, k);
  }

  /** A token whose modifier field is not alt, ctrl or shift. */
  lemma {:induction false} NonModifierToken(m: string, k: string)
    requires '+' !in m && Field(m) !in Modifiers
    ensures KeyEvents(m + "+" + k) == []
  {
    KeyEventsOfCombination(m, k);
  }

  /** A lower-case word is its own field. */
  lemma PlainWord(w: string)
    requires |w| > 0 && forall i :: 0 <= i < |w| ==> 'a' <= w[i] <= 'z'
    ensures Field(w) == w
  {
    LowerOfLowerCase(w);
    StripUnchanged(w);
    assert '+' !in w;
  }

  /** `alt+k`, `ctrl+k` and `shift+k` for a lower-case word `k` hold the
      modifier around a press of `k`; `ctrl+f` is one instance. */
  lemma ModifierPlusWord(mod: string, k: string)
    requires mod in Modifiers
    requires |k| > 0 && forall i :: 0 <= i < |k| ==> 'a' <= k[i] <= 'z'
    ensures KeyEvents(mod + "+" + k) == [Down(mod), Press(k), Up(mod)]
  {
    PlainWord(mod);
    PlainWord(k);
    ModifierToken(mod, k, mod, k);
  }
}

=== FILE: keybindings.dfy ===
/** Keybindings: merging saved bindings into the spell configuration,
    extracting the bindings to save, the graphical front end's rule for which
    typed keys are kept, and the console's interactive editor. */
module Keybindings {
  import opened Wrappers
  import opened Seqs
  import opened Text
  import opened Dicts
  import opened Sorting
  import opened Matching

  // -----------------------------------------------------------------------
  // Merging saved bindings

  /** The spell configuration with the saved bindings applied: a spell with
      a saved binding takes it as its key, names the configuration does not
      hold are ignored, and nothing else changes. */
  function Merge(info: Dict<SpellInfo>, saved: map<string, string>): (r: Dict<SpellInfo>)
    ensures r.order == info.order
    ensures r.entries.Keys == info.entries.Keys
    ensures info.Valid() ==> r.Valid()
  {
    Dict(info.order, map n | n in info.entries ::
      if n in saved then SpellInfo(info.entries[n].iconPath, saved[n]) else info.entries[n])
  }

  /** The merge loop over the saved bindings. */
  method ApplyKeybindings(info: Dict<SpellInfo>, saved: Dict<string>) returns (r: Dict<SpellInfo>)
    requires info.Valid() && saved.Valid()
    ensures r == Merge(info, saved.entries)
  {
    r := info;
    var i := 0;
    while i < |saved.order|
      invariant 0 <= i <= |saved.order|
      invariant r.order == info.order && r.entries.Keys == info.entries.Keys
      invariant forall n :: n in info.entries ==>
        r.entries[n] == if n in saved.order[..i] then SpellInfo(info.entries[n].iconPath, saved.entries[n]) else info.entries[n]
    {
      var name := saved.order[i];
      TakeOneMore(saved.order, i);
      if name in r.entries {
        r := Dict(r.order, r.entries[name := SpellInfo(r.entries[name].iconPath, saved.entries[name])]);
      }
      i := i + 1;
    }
    assert saved.order[..i] == saved.order;
  }

  /** The bindings to save: every spell with a non-empty key, in
      configuration order. */
  function KeybindingsOf(info: Dict<SpellInfo>): (r: Dict<string>)
    requires info.Valid()
    ensures r.Valid()
    ensures forall n :: n in r.entries <==> n in info.entries && info.entries[n].key != ""
    ensures forall n :: n in r.entries ==> r.entries[n] == info.entries[n].key
  {
    var bound := n => n in info.entries && info.entries[n].key != "";
    Dict(Filter(info.order, bound), map n | n in info.entries && info.entries[n].key != "" :: info.entries[n].key)
  }

  /** Applying the bindings extracted from a configuration gives that
      configuration back. */
  lemma MergeOwnKeybindings(info: Dict<SpellInfo>)
    requires info.Valid()
    ensures Merge(info, KeybindingsOf(info).entries) == info
  {
    var r := Merge(info, KeybindingsOf(info).entries);
    assert r.entries == info.entries;
  }

  /** Saving and reloading round-trips: applying saved non-empty bindings to a
      freshly built configuration (no key bound) and extracting the bindings
      again gives back exactly the saved bindings of the spells it holds. */
  lemma ReloadKeepsKeybindings(built: Dict<SpellInfo>, saved: map<string, string>)
    requires built.Valid()
    requires forall n :: n in built.entries ==> built.entries[n].key == ""
    requires forall n :: n in saved ==> saved[n] != ""
    ensures KeybindingsOf(Merge(built, saved)).entries == map n | n in saved && n in built.entries :: saved[n]
  {
  }

  /** Applying the same bindings twice is applying them once. */
  lemma MergeIdempotent(info: Dict<SpellInfo>, saved: map<string, string>)
    ensures Merge(Merge(info, saved), saved) == Merge(info, saved)
  {
    assert Merge(Merge(info, saved), saved).entries == Merge(info, saved).entries;
  }

  // -----------------------------------------------------------------------
  // What the graphical front end keeps

  /** A typed key is kept when, stripped, it is non-empty and not `skip` in
      any letter case. */
  predicate Keeps(text: string) {
    Strip(text) != "" && !SaysSkip(Strip(text))
  }

  /** The bindings `save_keybindings` stores: each kept input, stripped, in
      input order. */
  function Kept(inputs: Dict<string>): (r: Dict<string>)
    requires inputs.Valid()
    ensures r.Valid()
    ensures forall n :: n in r.entries <==> n in inputs.entries && Keeps(inputs.entries[n])
    ensures forall n :: n in r.entries ==> r.entries[n] == Strip(inputs.entries[n])
  {
    Comprehension(inputs.order, KeptInput(inputs), StoredInput(inputs))
  }

  /** The input of spell `n` is kept. */
  function KeptInput(inputs: Dict<string>): string -> bool {
    n => n in inputs.entries && Keeps(inputs.entries[n])
  }

  /** The value stored for the input of spell `n`. */
  function StoredInput(inputs: Dict<string>): string -> string {
    n => if n in inputs.entries then Strip(inputs.entries[n]) else ""
  }

  /** Every stored binding is a real key: non-empty, already stripped, and not
      `skip`. */
  lemma KeptAreKeys(inputs: Dict<string>)
    requires inputs.Valid()
    ensures forall n :: n in Kept(inputs).entries ==>
      var k := Kept(inputs).entries[n];
      k != "" && Strip(k) == k && Lower(k) != "skip"
  {
    forall n | n in Kept(inputs).entries
      ensures Lower(Kept(inputs).entries[n]) != "skip"
    {
      SaysSkipIsLowerSkip(Kept(inputs).entries[n]);
    }
    forall n | n in Kept(inputs).entries
      ensures Strip(Kept(inputs).entries[n]) == Kept(inputs).entries[n]
    {
      StripIdempotent(inputs.entries[n]);
    }
  }
}

=== FILE: matching.dfy ===
/** The per-frame spell classifier of both front ends. A template pass over
    the "problem" spells comes first and pre-empts everything else. Otherwise
    a nearest-neighbour pass over the perceptual hashes decides. The image
    primitives are oracles carried by the frame: a Hamming distance per
    spell, and template correlations per spell and scale. */
module Matching {
  import opened Wrappers
  import opened Text

  /** Spells whose icons the hash pass confuses with others. */
  const ProblemSpells: seq<string> := ["storm_elemental", "ascendance"]
  /** Hash distance a problem spell must stay below. */
  const ProblemHashBound: nat := 12
  /** Correlation at which a template counts as found. */
  const TemplateBar: real := 0.7
  /** Template scales of the graphical front end, in the order tried. */
  const Scales: seq<real> := [1.0, 0.95, 0.9]
  /** The console front end's fixed hash threshold. */
  const ConsoleHashBound: nat := 15

  /** Graphical front end: some problem name, lowercased, occurs in the
      lowercased spell name. */
  predicate IsProblemSpell(name: string) {
    exists i :: 0 <= i < |ProblemSpells| && IsSubstring(Lower(ProblemSpells[i]), Lower(name))
  }

  /** Console front end: the lowercased spell name is a problem name. */
  predicate IsConsoleProblemSpell(name: string) {
    Lower(name) in ProblemSpells
  }

  lemma WordIsLower(w: string)
    requires forall i :: 0 <= i < |w| ==> 'a' <= w[i] <= 'z' || w[i] == '_'
    ensures Lower(w) == w
  {
    LowerOfLowerCase(w);
  }

  /** A spell is a problem spell exactly when its lowercased name contains
      "storm_elemental" or "ascendance". */
  lemma ProblemSpellMembership(name: string)
    ensures IsProblemSpell(name) <==>
      IsSubstring(ProblemSpells[0], Lower(name)) || IsSubstring(ProblemSpells[1], Lower(name))
  {
    WordIsLower(ProblemSpells[0]);
    WordIsLower(ProblemSpells[1]);
  }

  lemma SubstringOfItself(s: string)
    ensures IsSubstring(s, s)
  {
    assert OccursAt(s, s, 0);
  }

  /** Every spell the console singles out, the graphical front end singles
      out too. */
  lemma ConsoleProblemIsProblem(name: string)
    requires IsConsoleProblemSpell(name)
    ensures IsProblemSpell(name)
  {
    var i :| 0 <= i < |ProblemSpells| && ProblemSpells[i] == Lower(name);
    WordIsLower(ProblemSpells[0]);
    WordIsLower(ProblemSpells[1]);
    SubstringOfItself(Lower(name));
  }

  /** One entry of the spell configuration: the icon file and the key token
      (empty when no key is bound). */
  datatype SpellInfo = SpellInfo(iconPath: string, key: string)

  // ---------------------------------------------------------------------
  // Oracles

  /** The outcome of one scale of a template match. */
  datatype ScaleReading =
    | TooLarge                   // the resized template does not fit in the frame
    | Correlation(value: real)   // best normalised correlation over all positions

  /** The template of one problem spell against one frame. */
  datatype TemplateReading =
    | Unreadable                              // the icon file cannot be read
    | Readings(at: real -> ScaleReading)      // the reading at each scale

  /** What the image primitives say about one captured frame. */
  datatype Frame = Frame(distance: string -> nat, template: string -> TemplateReading)

  datatype Strategy = Template(confidence: real) | Hash(distance: nat)

  /** The classification of one frame. */
  datatype Verdict = NoMatch | Match(spell: string, via: Strategy)

  // ---------------------------------------------------------------------
  // Template pass

  /** One step of the scale loop: `max(best, value)` over the scales whose
      template fits. */
  function ScaleStep(best: real, r: ScaleReading): real {
    match r
    case TooLarge => best
    case Correlation(v) => if best >= v then best else v
  }

  /** The best correlation over the scales that fit, starting from 0. */
  function Score(r: seq<ScaleReading>): real {
    if |r| == 0 then 0.0 else ScaleStep(Score(r[..|r| - 1]), r[|r| - 1])
  }

  /** The score is at least 0, at least every correlation of a fitting scale,
      and is either 0 or one of those correlations. */
  lemma {:induction false} ScoreIsMaximum(r: seq<ScaleReading>)
    ensures Score(r) >= 0.0
    ensures forall i :: 0 <= i < |r| && r[i].Correlation? ==> Score(r) >= r[i].value
    ensures Score(r) == 0.0 || exists i :: 0 <= i < |r| && r[i] == Correlation(Score(r))
  {
    if |r| > 0 {
      var p := r[..|r| - 1];
      ScoreIsMaximum(p);
      assert forall i :: 0 <= i < |p| ==> r[i] == p[i];
      if Score(r) != 0.0 && Score(r) == Score(p) {
        var i :| 0 <= i < |p| && p[i] == Correlation(Score(p));
        assert r[i] == Correlation(Score(r));
      }
    }
  }

  /** If no scale fits, the score is 0 and the template cannot win. */
  lemma NoFittingScale(r: seq<ScaleReading>)
    requires forall i :: 0 <= i < |r| ==> r[i] == TooLarge
    ensures Score(r) == 0.0 && Score(r) < TemplateBar
  {
    ScoreIsMaximum(r);
  }

  /** `max_val_overall` of the scale loop. */
  method BestCorrelation(readings: seq<ScaleReading>) returns (best: real)
    ensures best == Score(readings)
  {
    best := 0.0;
    var i := 0;
    while i < |readings|
      invariant 0 <= i <= |readings|
      invariant best == Score(readings[..i])
    {
      assert readings[..i + 1][..i] == readings[..i];
      if readings[i].Correlation? && !(best >= readings[i].value) {
        best := readings[i].value;
      }
      i := i + 1;
    }
    assert readings[..i] == readings;
  }

  /** The readings of a template at `scales`, in order. */
  function ReadingsAt(at: real -> ScaleReading, scales: seq<real>): (r: seq<ScaleReading>)
    ensures |r| == |scales|
    ensures forall i :: 0 <= i < |scales| ==> r[i] == at(scales[i])
  {
    seq(|scales|, i requires 0 <= i < |scales| => at(scales[i]))
  }

  /** The score of a readable template over the automation's scales. */
  function TemplateScore(frame: Frame, name: string): real
    requires frame.template(name).Readings?
  {
    Score(ReadingsAt(frame.template(name).at, Scales))
  }

  /** A problem spell whose template is found in the frame. */
  predicate TemplateWins(frame: Frame, name: string) {
    frame.template(name).Readings? && TemplateScore(frame, name) >= TemplateBar
  }

  datatype Candidate = Candidate(name: string, score: real)

  /** The first problem spell, in order, whose template is found. */
  function TemplateWinner(problems: seq<string>, frame: Frame): Option<Candidate> {
    if |problems| == 0 then None
    else if TemplateWins(frame, problems[0]) then
      Some(Candidate(problems[0], TemplateScore(frame, problems[0])))
    else TemplateWinner(problems[1..], frame)
  }

  /** The template pass reports a winner exactly when some problem spell's
      template is found, and then it reports the first such spell with its
      score. */
  lemma {:induction false} TemplateWinnerIsFirst(problems: seq<string>, frame: Frame)
    ensures TemplateWinner(problems, frame).None? <==>
      forall k :: 0 <= k < |problems| ==> !TemplateWins(frame, problems[k])
    ensures TemplateWinner(problems, frame).Some? ==>
      exists k :: 0 <= k < |problems|
        && TemplateWins(frame, problems[k])
        && TemplateWinner(problems, frame).value ==
             Candidate(problems[k], TemplateScore(frame, problems[k]))
        && forall j :: 0 <= j < k ==> !TemplateWins(frame, problems[j])
  {
    if |problems| > 0 && !TemplateWins(frame, problems[0]) {
      var tail := problems[1..];
      TemplateWinnerIsFirst(tail, frame);
      assert forall k :: 0 < k < |problems| ==> problems[k] == tail[k - 1];
      if TemplateWinner(tail, frame).Some? {
        var k :| 0 <= k < |tail|
          && TemplateWins(frame, tail[k])
          && TemplateWinner(tail, frame).value == Candidate(tail[k], TemplateScore(frame, tail[k]))
          && forall j :: 0 <= j < k ==> !TemplateWins(frame, tail[j]);
        assert forall j :: 0 <= j < k + 1 ==> !TemplateWins(frame, problems[j]) by {
          forall j | 0 < j < k + 1 ensures !TemplateWins(frame, problems[j]) {
            assert problems[j] == tail[j - 1];
          }
        }
      } else {
        forall k | 0 <= k < |problems| ensures !TemplateWins(frame, problems[k]) {
          if k > 0 { assert problems[k] == tail[k - 1]; }
        }
      }
    }
  }

  /** The template loop over the problem spells, left at the first hit. */
  method TemplatePass(problems: seq<string>, frame: Frame) returns (winner: Option<Candidate>)
    ensures winner == TemplateWinner(problems, frame)
  {
    winner := None;
    var i := 0;
    while i < |problems|
      invariant 0 <= i <= |problems|
      invariant TemplateWinner(problems, frame) == TemplateWinner(problems[i..], frame)
    {
      var reading := frame.template(problems[i]);
      if reading.Readings? {
        var score := BestCorrelation(ReadingsAt(reading.at, Scales));
        if score >= TemplateBar {
          winner := Some(Candidate(problems[i], score));
          return;
        }
      }
      assert problems[i..][1..] == problems[i + 1..];
      i := i + 1;
    }
  }

  // ---------------------------------------------------------------------
  // Hash pass

  datatype Nearest = Nearest(name: string, distance: nat)

  /** One step of the `best_match`/`min_diff` scan: an eligible spell
      strictly closer than the best so far replaces it. */
  function ScanStep(best: Option<Nearest>, name: string, d: nat, eligible: (string, nat) -> bool): Option<Nearest> {
    if eligible(name, d) && (best.None? || d < best.value.distance) then Some(Nearest(name, d)) else best
  }

  /** The scan over `names` in order. */
  function ArgMin(names: seq<string>, dist: string -> nat, eligible: (string, nat) -> bool): Option<Nearest> {
    if |names| == 0 then None
    else
      var last := names[|names| - 1];
      ScanStep(ArgMin(names[..|names| - 1], dist, eligible), last, dist(last), eligible)
  }

  /** The graphical front end admits a problem spell only below 12; every
      other spell is always a candidate. */
  function GuiEligible(name: string, d: nat): bool {
    !IsProblemSpell(name) || d < ProblemHashBound
  }

  /** The console front end admits every spell. */
  function AnyDistance(name: string, d: nat): bool {
    true
  }

  /** Position `k` holds the first eligible spell at the least eligible
      distance. */
  ghost predicate IsFirstNearest(names: seq<string>, dist: string -> nat, eligible: (string, nat) -> bool, k: int) {
    && 0 <= k < |names|
    && eligible(names[k], dist(names[k]))
    && (forall j :: 0 <= j < |names| && eligible(names[j], dist(names[j])) ==> dist(names[k]) <= dist(names[j]))
    && (forall j :: 0 <= j < k && eligible(names[j], dist(names[j])) ==> dist(names[k]) < dist(names[j]))
  }

  /** The scan finds nothing exactly when no spell is eligible; otherwise it
      finds the first eligible spell at the least eligible distance. So ties
      keep the earlier spell, and an ineligible spell never hides another. */
  lemma {:induction false} ArgMinIsFirstNearest(names: seq<string>, dist: string -> nat, eligible: (string, nat) -> bool)
    ensures ArgMin(names, dist, eligible).None? <==>
      forall k :: 0 <= k < |names| ==> !eligible(names[k], dist(names[k]))
    ensures ArgMin(names, dist, eligible).Some? ==>
      exists k :: IsFirstNearest(names, dist, eligible, k) &&
        ArgMin(names, dist, eligible).value == Nearest(names[k], dist(names[k]))
  {
    if |names| > 0 {
      var n := |names| - 1;
      var p := names[..n];
      var last := names[n];
      ArgMinIsFirstNearest(p, dist, eligible);
      var acc := ArgMin(p, dist, eligible);
      if eligible(last, dist(last)) && (acc.None? || dist(last) < acc.value.distance) {
        if acc.Some? {
          var k :| IsFirstNearest(p, dist, eligible, k) && acc.value == Nearest(p[k], dist(p[k]));
          CloserLastIsNearest(names, dist, eligible, k);
        } else {
          assert forall j :: 0 <= j < n ==> names[j] == p[j];
          OnlyLastIsNearest(names, dist, eligible);
        }
      } else if acc.Some? {
        var k :| IsFirstNearest(p, dist, eligible, k) && acc.value == Nearest(p[k], dist(p[k]));
        KeepNearest(names, dist, eligible, k);
      } else {
        forall k | 0 <= k < |names| ensures !eligible(names[k], dist(names[k])) {
          if k < n { assert names[k] == p[k]; }
        }
      }
    }
  }

  /** A last spell strictly closer than the prefix's nearest becomes the
      nearest. */
  lemma CloserLastIsNearest(names: seq<string>, dist: string -> nat, eligible: (string, nat) -> bool, k: int)
    requires |names| > 0 && IsFirstNearest(names[..|names| - 1], dist, eligible, k)
    requires eligible(names[|names| - 1], dist(names[|names| - 1]))
    requires dist(names[|names| - 1]) < dist(names[k])
    ensures IsFirstNearest(names, dist, eligible, |names| - 1)
  {
    var p := names[..|names| - 1];
    assert forall j :: 0 <= j < |p| ==> names[j] == p[j];
  }

  /** A first eligible spell, coming last, is the nearest. */
  lemma OnlyLastIsNearest(names: seq<string>, dist: string -> nat, eligible: (string, nat) -> bool)
    requires |names| > 0 && eligible(names[|names| - 1], dist(names[|names| - 1]))
    requires forall j :: 0 <= j < |names| - 1 ==> !eligible(names[j], dist(names[j]))
    ensures IsFirstNearest(names, dist, eligible, |names| - 1)
  {
  }

  /** A last spell that is ineligible or no closer leaves the nearest as it
      was. */
  lemma KeepNearest(names: seq<string>, dist: string -> nat, eligible: (string, nat) -> bool, k: int)
    requires |names| > 0 && IsFirstNearest(names[..|names| - 1], dist, eligible, k)
    requires !eligible(names[|names| - 1], dist(names[|names| - 1])) || dist(names[k]) <= dist(names[|names| - 1])
    ensures IsFirstNearest(names, dist, eligible, k)
  {
    var p := names[..|names| - 1];
    assert forall j :: 0 <= j < |p| ==> names[j] == p[j];
  }

  /** The scan itself: `best_match` and `min_diff`, with `None` standing for
      an infinite `min_diff`. */
  method FindNearest(names: seq<string>, dist: string -> nat, eligible: (string, nat) -> bool)
    returns (best: Option<Nearest>)
    ensures best == ArgMin(names, dist, eligible)
  {
    best := None;
    var i := 0;
    while i < |names|
      invariant 0 <= i <= |names|
      invariant best == ArgMin(names[..i], dist, eligible)
    {
      assert names[..i + 1][..i] == names[..i];
      var d := dist(names[i]);
      if eligible(names[i], d) && (best.None? || d < best.value.distance) {
        best := Some(Nearest(names[i], d));
      }
      i := i + 1;
    }
    assert names[..i] == names;
  }

  /** Graphical front end: the nearest spell is reported when its name is
      non-empty and its distance is below 12 for a problem spell, below the
      user threshold otherwise. */
  function GuiHashVerdict(nearest: Option<Nearest>, threshold: int): Verdict {
    match nearest
    case None => NoMatch
    case Some(b) =>
      var bound := if b.name != "" && IsProblemSpell(b.name) then ProblemHashBound as int else threshold;
      if b.name != "" && b.distance < bound then Match(b.name, Hash(b.distance)) else NoMatch
  }

  /** Console front end: one flat threshold of 15. */
  function ConsoleHashVerdict(nearest: Option<Nearest>): Verdict {
    match nearest
    case None => NoMatch
    case Some(b) => if b.name != "" && b.distance < ConsoleHashBound then Match(b.name, Hash(b.distance)) else NoMatch
  }

  // ---------------------------------------------------------------------
  // The classifiers

  /** Graphical front end: `problems` are the problem spells and `hashed` the
      spells whose icon was hashed, both in configuration order. */
  function Classify(problems: seq<string>, hashed: seq<string>, frame: Frame, threshold: int): Verdict {
    match TemplateWinner(problems, frame)
    case Some(c) => Match(c.name, Template(c.score))
    case None => GuiHashVerdict(ArgMin(hashed, frame.distance, GuiEligible), threshold)
  }

  /** A found template pre-empts the hash pass: the verdict is the template
      winner whatever the hash distances and the threshold. */
  lemma TemplatePreempts(problems: seq<string>, hashed: seq<string>, frame: Frame, threshold: int, c: Candidate)
    requires TemplateWinner(problems, frame) == Some(c)
    ensures forall h, d, t :: Classify(problems, h, Frame(d, frame.template), t) == Match(c.name, Template(c.score))
  {
    forall h, d, t ensures Classify(problems, h, Frame(d, frame.template), t) == Match(c.name, Template(c.score)) {
      assert TemplateWinner(problems, Frame(d, frame.template)) == TemplateWinner(problems, frame) by {
        TemplateWinnerDependsOnTemplatesOnly(problems, frame, Frame(d, frame.template));
      }
    }
  }

  lemma {:induction false} TemplateWinnerDependsOnTemplatesOnly(problems: seq<string>, f1: Frame, f2: Frame)
    requires f1.template == f2.template
    ensures TemplateWinner(problems, f1) == TemplateWinner(problems, f2)
  {
    if |problems| > 0 {
      TemplateWinnerDependsOnTemplatesOnly(problems[1..], f1, f2);
    }
  }

  /** Raising the threshold never loses a match and never changes which spell
      matches: the choice of the nearest spell does not involve it. */
  lemma ThresholdMonotone(problems: seq<string>, hashed: seq<string>, frame: Frame, t1: int, t2: int)
    requires t1 <= t2
    requires Classify(problems, hashed, frame, t1).Match?
    ensures Classify(problems, hashed, frame, t2) == Classify(problems, hashed, frame, t1)
  {
  }

  /** A frame whose hash equals a hashed spell's is matched by the hash pass
      at distance 0, for every threshold of at least 1. */
  lemma ExactHashMatches(problems: seq<string>, hashed: seq<string>, frame: Frame, threshold: int, x: int)
    requires TemplateWinner(problems, frame).None?
    requires 0 <= x < |hashed| && frame.distance(hashed[x]) == 0
    requires forall k :: 0 <= k < |hashed| ==> hashed[k] != ""
    requires threshold >= 1
    ensures Classify(problems, hashed, frame, threshold).Match?
    ensures Classify(problems, hashed, frame, threshold).via == Hash(0)
  {
    ArgMinIsFirstNearest(hashed, frame.distance, GuiEligible);
    assert GuiEligible(hashed[x], frame.distance(hashed[x]));
    var k :| IsFirstNearest(hashed, frame.distance, GuiEligible, k) &&
      ArgMin(hashed, frame.distance, GuiEligible).value == Nearest(hashed[k], frame.distance(hashed[k]));
  }

  /** A problem spell at distance 13 does not hide an ordinary spell at 14:
      with a threshold of 15 the ordinary spell is reported, in either order. */
  lemma StricterBoundDoesNotHide(problems: seq<string>, frame: Frame, a: string, b: string)
    requires TemplateWinner(problems, frame).None?
    requires IsProblemSpell(a) && !IsProblemSpell(b) && b != ""
    requires frame.distance(a) == 13 && frame.distance(b) == 14
    ensures Classify(problems, [a, b], frame, 15) == Match(b, Hash(14))
    ensures Classify(problems, [b, a], frame, 15) == Match(b, Hash(14))
  {
    assert !GuiEligible(a, 13) && GuiEligible(b, 14);
    assert [a, b][..1] == [a] && [b, a][..1] == [b];
    assert [a][..0] == [] && [b][..0] == [];
    assert ArgMin([a], frame.distance, GuiEligible) == None;
    assert ArgMin([b], frame.distance, GuiEligible) == Some(Nearest(b, 14));
    assert ArgMin([a, b], frame.distance, GuiEligible) == Some(Nearest(b, 14));
    assert ArgMin([b, a], frame.distance, GuiEligible) == Some(Nearest(b, 14));
  }

  // ---------------------------------------------------------------------
  // Console front end

  /** The console tries one scale, without checking that the template fits;
      a template larger than the frame makes `matchTemplate` raise. */
  datatype SingleReading = NoTemplate | TemplateTooLarge | Scored(value: real)

  datatype ConsoleFrame = ConsoleFrame(distance: string -> nat, template: string -> SingleReading)

  /** The console's classification; `Raised` is an exception out of the
      template pass. */
  datatype ConsoleVerdict = Raised | Classified(verdict: Verdict)

  /** The console template loop: unreadable templates are skipped, the first
      spell scoring at least 0.7 wins, and a template too large for the frame
      raises, unless an earlier spell has already won. */
  function ConsoleTemplatePass(problems: seq<string>, frame: ConsoleFrame): Result<Option<Candidate>, ()> {
    if |problems| == 0 then Ok(None)
    else
      match frame.template(problems[0])
      case NoTemplate => ConsoleTemplatePass(problems[1..], frame)
      case TemplateTooLarge => Err(())
      case Scored(v) =>
        if v >= TemplateBar then Ok(Some(Candidate(problems[0], v)))
        else ConsoleTemplatePass(problems[1..], frame)
  }

  function ConsoleClassify(problems: seq<string>, hashed: seq<string>, frame: ConsoleFrame): ConsoleVerdict {
    match ConsoleTemplatePass(problems, frame)
    case Err(_) => Raised
    case Ok(Some(c)) => Classified(Match(c.name, Template(c.score)))
    case Ok(None) => Classified(ConsoleHashVerdict(ArgMin(hashed, frame.distance, AnyDistance)))
  }

  /** The console template loop written as the source has it. */
  method ConsoleTemplateLoop(problems: seq<string>, frame: ConsoleFrame)
    returns (raised: bool, winner: Option<Candidate>)
    ensures raised <==> ConsoleTemplatePass(problems, frame).Err?
    ensures !raised ==> winner == ConsoleTemplatePass(problems, frame).value
  {
    raised, winner := false, None;
    var i := 0;
    while i < |problems|
      invariant 0 <= i <= |problems|
      invariant ConsoleTemplatePass(problems, frame) == ConsoleTemplatePass(problems[i..], frame)
    {
      var reading := frame.template(problems[i]);
      if reading.TemplateTooLarge? {
        raised := true;
        return;
      } else if reading.Scored? && reading.value >= TemplateBar {
        winner := Some(Candidate(problems[i], reading.value));
        return;
      }
      assert problems[i..][1..] == problems[i + 1..];
      i := i + 1;
    }
  }

  /** The console hash pass is a plain arg-min: the first spell at the least
      distance, reported when below 15. */
  lemma ConsoleHashIsPlainArgMin(hashed: seq<string>, dist: string -> nat)
    ensures ArgMin(hashed, dist, AnyDistance).None? <==> |hashed| == 0
    ensures ArgMin(hashed, dist, AnyDistance).Some? ==>
      exists k :: 0 <= k < |hashed|
        && ArgMin(hashed, dist, AnyDistance).value == Nearest(hashed[k], dist(hashed[k]))
        && (forall j :: 0 <= j < |hashed| ==> dist(hashed[k]) <= dist(hashed[j]))
        && (forall j :: 0 <= j < k ==> dist(hashed[k]) < dist(hashed[j]))
  {
    ArgMinIsFirstNearest(hashed, dist, AnyDistance);
    if |hashed| > 0 {
      assert AnyDistance(hashed[0], dist(hashed[0]));
    }
  }

  /** A spell the graphical classifier reports is a problem spell or a hashed
      spell, so its configuration entry can be looked up. */
  lemma MatchedSpellIsListed(problems: seq<string>, hashed: seq<string>, frame: Frame, threshold: int)
    ensures Classify(problems, hashed, frame, threshold).Match? ==>
      Classify(problems, hashed, frame, threshold).spell in problems ||
      Classify(problems, hashed, frame, threshold).spell in hashed
  {
    TemplateWinnerIsFirst(problems, frame);
    ArgMinIsFirstNearest(hashed, frame.distance, GuiEligible);
  }

  /** The same for the console classifier. */
  lemma ConsoleMatchedSpellIsListed(problems: seq<string>, hashed: seq<string>, frame: ConsoleFrame)
    ensures ConsoleClassify(problems, hashed, frame).Classified? &&
            ConsoleClassify(problems, hashed, frame).verdict.Match? ==>
      ConsoleClassify(problems, hashed, frame).verdict.spell in problems ||
      ConsoleClassify(problems, hashed, frame).verdict.spell in hashed
  {
    ConsoleTemplatePassListed(problems, frame);
    ArgMinIsFirstNearest(hashed, frame.distance, AnyDistance);
  }

  lemma {:induction false} ConsoleTemplatePassListed(problems: seq<string>, frame: ConsoleFrame)
    ensures ConsoleTemplatePass(problems, frame).Ok? && ConsoleTemplatePass(problems, frame).value.Some? ==>
      ConsoleTemplatePass(problems, frame).value.value.name in problems
  {
    if |problems| > 0 {
      ConsoleTemplatePassListed(problems[1..], frame);
    }
  }
}

=== FILE: seqs.dfy ===
/** Facts about slices that the loops over prefixes rely on. */
module Seqs {

  /** The prefix one longer adds the next element. */
  lemma TakeOneMore<T>(s: seq<T>, i: nat)
    requires i < |s|
    ensures s[..i + 1] == s[..i] + [s[i]]
  {
  }

  /** `s` is what lies before index `i`, the element at `i`, and what lies
      after it. */
  lemma Around<T>(s: seq<T>, i: nat)
    requires i < |s|
    ensures s[..i] + [s[i]] + s[i + 1..] == s
  {
    assert s[..i] + [s[i]] == s[..i + 1];
  }

  /** A prefix of a suffix is a slice. */
  lemma PrefixOfSuffix<T>(s: seq<T>, i: nat, n: nat)
    requires i + n <= |s|
    ensures s[i..][..n] == s[i..i + n]
  {
  }
}

=== FILE: simc.dfy ===
/** The console's reading of the SimulationCraft priority files in the notes
    directory: class/spec names from file names, spell names from action
    lines, and the grouping of class/spec names into the class and
    specialization menus. The directory listing, `isfile` and the file
    contents are parameters. */
module SimC {
  import opened Wrappers
  import opened Seqs
  import opened Text
  import opened Sorting
  import opened Dicts

  // -----------------------------------------------------------------------
  // Class/spec names from file names

  /** The class/spec named by a file of either naming scheme: `90_<name>` is
      `<name>` with every `90_` and `.simc` removed; `TWW1_<class>_<spec>...`
      is `<class>_<spec>`, with Hunter Beast spelled `Hunter_BeastMastery`;
      anything else, an empty name, or a `TWW1_` name with fewer than two
      fields names nothing. */
  function BaseName(f: string): (r: Option<string>)
    ensures r.Some? ==> r.value != ""
  {
    if StartsWith(f, "90_") then
      var b := ReplaceAll(ReplaceAll(f, "90_", ""), ".simc", "");
      if b != "" then Some(b) else None
    else if StartsWith(f, "TWW1_") then
      var parts := Split(ReplaceAll(ReplaceAll(f, "TWW1_", ""), ".simc", ""), '_');
      if |parts| >= 2 then
        if parts[0] == "Hunter" && parts[1] == "Beast" then Some("Hunter_BeastMastery")
        else Some(parts[0] + "_" + parts[1])
      else None
    else None
  }

  /** Only `.simc` files name a class/spec. */
  function ClassSpecOf(f: string): (r: Option<string>)
    ensures r.Some? ==> EndsWith(f, ".simc") && r.value != ""
  {
    if EndsWith(f, ".simc") then BaseName(f) else None
  }

  /** `s.replace(pat, rep)` leaves a string without `pat` as it is. */
  lemma {:induction false} ReplaceAllAbsent(s: string, pat: string, rep: string)
    requires |pat| > 0 && pat[0] !in s
    ensures ReplaceAll(s, pat, rep) == s
    decreases |s|
  {
    if |s| > 0 {
      ReplaceAllAbsent(s[1..], pat, rep);
      assert s == [s[0]] + s[1..];
    }
  }

  /** A pattern whose first character is not in `s` is found only at the
      end of `s + pat`. */
  lemma {:induction false} ReplaceAllSuffix(s: string, pat: string, rep: string)
    requires |pat| > 0 && pat[0] !in s
    ensures ReplaceAll(s + pat, pat, rep) == s + rep
    decreases |s|
  {
    if |s| == 0 {
      assert s + pat == pat;
      assert pat[|pat|..] == "";
    } else {
      assert (s + pat)[0] == s[0] != pat[0];
      assert (s + pat)[1..] == s[1..] + pat;
      ReplaceAllSuffix(s[1..], pat, rep);
      assert s == [s[0]] + s[1..];
    }
  }

  /** A leading pattern is replaced and the scan goes on after it. */
  lemma ReplaceAllPrefix(pat: string, t: string, rep: string)
    requires |pat| > 0
    ensures ReplaceAll(pat + t, pat, rep) == rep + ReplaceAll(t, pat, rep)
  {
    assert (pat + t)[..|pat|] == pat;
    assert (pat + t)[|pat|..] == t;
  }

  /** Removing a leading pattern and then a trailing one, neither of
      which occurs anywhere else, leaves what lay between them. */
  lemma StripAround(prefix: string, name: string, suffix: string)
    requires |prefix| > 0 && |suffix| > 0
    requires prefix[0] !in name && prefix[0] !in suffix && suffix[0] !in name
    ensures ReplaceAll(ReplaceAll(prefix + name + suffix, prefix, ""), suffix, "") == name
  {
    var body := name + suffix;
    assert prefix + name + suffix == prefix + body;
    ReplaceAllPrefix(prefix, body, "");
    assert "" + ReplaceAll(body, prefix, "") == ReplaceAll(body, prefix, "");
    assert prefix[0] !in body;
    ReplaceAllAbsent(body, prefix, "");
    ReplaceAllSuffix(name, suffix, "");
    assert name + "" == name;
  }

  /** `90_<name>.simc` names `<name>`, for a non-empty name without `9` or
      `.`. */
  lemma NinetyFile(name: string)
    requires name != "" && '9' !in name && '.' !in name
    ensures ClassSpecOf("90_" + name + ".simc") == Some(name)
  {
    var f := "90_" + name + ".simc";
    assert StartsWith(f, "90_");
    assert f[|f| - 5..] == ".simc";
    StripAround("90_", name, ".simc");
  }

  /** `TWW1_<class>_<spec><variant>.simc`, where the variant is empty or
      starts with `_`, names `<class>_<spec>`; so every build variant of a
      spec names the same class/spec, and Hunter Beast becomes
      `Hunter_BeastMastery`. */
  lemma TwwFile(cls: string, spec: string, variant: string)
    requires '_' !in cls && '_' !in spec
    requires variant == "" || variant[0] == '_'
    requires 'T' !in cls + "_" + spec + variant && '.' !in cls + "_" + spec + variant
    ensures ClassSpecOf("TWW1_" + cls + "_" + spec + variant + ".simc") ==
      Some(if cls == "Hunter" && spec == "Beast" then "Hunter_BeastMastery" else cls + "_" + spec)
  {
    var name := cls + "_" + spec + variant;
    var f := "TWW1_" + name + ".simc";
    assert f == "TWW1_" + cls + "_" + spec + variant + ".simc";
    assert f[|f| - 5..] == ".simc";
    assert !StartsWith(f, "90_") by { assert f[0] == 'T'; }
    assert StartsWith(f, "TWW1_");
    StripAround("TWW1_", name, ".simc");
    TwwFields(cls, spec, variant);
  }

  /** The first two `_` fields of `<class>_<spec><variant>`. */
  lemma TwwFields(cls: string, spec: string, variant: string)
    requires '_' !in cls && '_' !in spec
    requires variant == "" || variant[0] == '_'
    ensures var parts := Split(cls + "_" + spec + variant, '_');
      |parts| >= 2 && parts[0] == cls && parts[1] == spec
  {
    var tail := spec + variant;
    Regroup(cls, "_", spec, variant);
    SplitAfterFirst(cls, '_', tail);
    if variant == "" {
      assert spec + variant == spec;
    } else {
      var more := variant[1..];
      assert variant == ['_'] + more;
      Assoc(spec, ['_'], more);
      SplitAfterFirst(spec, '_', more);
    }
  }

  /** Concatenation regroups. */
  lemma Assoc(a: string, b: string, c: string)
    ensures a + b + c == a + (b + c)
  {
  }

  /** `a + b + c + d` is `a + b` followed by `c + d`. */
  lemma Regroup(a: string, b: string, c: string, d: string)
    ensures a + b + c + d == (a + b) + (c + d)
  {
  }

  /** The class/specs of the `.simc` files in a listing. */
  ghost function ClassSpecs(files: seq<string>, isFile: string -> bool): set<string> {
    if |files| == 0 then {}
    else
      var f := files[|files| - 1];
      ClassSpecs(files[..|files| - 1], isFile) +
        if isFile(f) && ClassSpecOf(f).Some? then {ClassSpecOf(f).value} else {}
  }

  /** A class/spec is listed exactly when some regular file names it. */
  lemma {:induction false} ClassSpecsMembers(files: seq<string>, isFile: string -> bool)
    ensures forall x :: x in ClassSpecs(files, isFile) <==>
      exists i :: 0 <= i < |files| && isFile(files[i]) && ClassSpecOf(files[i]) == Some(x)
  {
    if |files| > 0 {
      var p := files[..|files| - 1];
      ClassSpecsMembers(p, isFile);
      assert forall i :: 0 <= i < |p| ==> files[i] == p[i];
    }
  }

  /** Lists the elements of a set, each once, in an unspecified order
      (`list(class_specs)`). */
  method ListOf(s: set<string>) returns (r: seq<string>)
    ensures Distinct(r)
    ensures forall x :: x in r <==> x in s
  {
    r := [];
    var rest := s;
    while rest != {}
      invariant rest <= s
      invariant Distinct(r)
      invariant forall x :: x in r <==> x in s && x !in rest
      decreases rest
    {
      var x :| x in rest;
      r := r + [x];
      rest := rest - {x};
    }
  }

  /** The loop over the listing that gathers the class/specs. */
  method GatherClassSpecs(files: seq<string>, isFile: string -> bool) returns (specs: set<string>)
    ensures specs == ClassSpecs(files, isFile)
  {
    specs := {};
    var i := 0;
    while i < |files|
      invariant 0 <= i <= |files|
      invariant specs == ClassSpecs(files[..i], isFile)
    {
      TakeOneMore(files, i);
      assert files[..i + 1][..i] == files[..i];
      var f := files[i];
      if isFile(f) && EndsWith(f, ".simc") {
        var base := BaseName(f);
        if base.Some? {
          specs := specs + {base.value};
        }
      }
      i := i + 1;
    }
    assert files[..i] == files;
  }

  /** `get_all_classes_specs`: the class/specs of the `.simc` files, sorted
      and each listed once. */
  method GetAllClassesSpecs(files: seq<string>, isFile: string -> bool) returns (result: seq<string>)
    ensures Sorted(result) && Distinct(result)
    ensures forall x :: x in result <==>
      exists i :: 0 <= i < |files| && isFile(files[i]) && ClassSpecOf(files[i]) == Some(x)
  {
    var specs := GatherClassSpecs(files, isFile);
    ClassSpecsMembers(files, isFile);
    var list := ListOf(specs);
    result := Sort(list);
  }

  // -----------------------------------------------------------------------
  // Spell names from action lines

  /** SimulationCraft directives that are not spells. */
  const Directives: seq<string> := [
    "call_action_list", "run_action_list", "use_item", "use_items",
    "variable", "pool_resource", "wait", "potion", "cancel_buff",
    "snapshot_stats", "invoke_external_buff"
  ]

  /** `[a-z_]`. */
  predicate IsSpellChar(c: char) {
    'a' <= c <= 'z' || c == '_'
  }

  /** The pattern `actions[^=]*=/` matches at `i`: `actions` there, and the
      first `=` after it is followed by `/`. */
  predicate ActionsSlashAt(line: string, i: nat) {
    && OccursAt("actions", line, i)
    && var rest := line[i + 7..];
       '=' in rest && IndexOf(rest, '=') + 1 < |rest| && rest[IndexOf(rest, '=') + 1] == '/'
  }

  /** `re.search(r'actions[^=]*=/[a-z_]*', line)` finds a match. */
  predicate HasActionsSlash(line: string) {
    exists i: nat :: i <= |line| && ActionsSlashAt(line, i)
  }

  /** A `=/` occurs wherever the pattern matches. */
  lemma SlashAfterActions(line: string)
    requires HasActionsSlash(line)
    ensures IsSubstring("=/", line)
  {
    var i: nat :| i <= |line| && ActionsSlashAt(line, i);
    var rest := line[i + 7..];
    var j := IndexOf(rest, '=');
    assert rest[j] == '=' && rest[j + 1] == '/';
    var k := i + 7 + j;
    assert line[k] == '=' && line[k + 1] == '/';
    assert line[k..k + 2] == "=/";
    assert OccursAt("=/", line, k);
  }

  /** The candidate spell of one line, before the filters: in the `=/`
      scheme the `[a-z_]` run after the first `=/` of the line, otherwise
      the stripped text after the first `=` up to the next `,`. Lines
      without `actions` or without `=` give nothing. */
  function ExtractSpell(line: string): Option<string> {
    if !IsSubstring("actions", line) || '=' !in line then None
    else if HasActionsSlash(line) then Some(SlashSpell(line))
    else Some(PlainSpell(line))
  }

  /** The `[a-z_]` run after the first `=/` of the line. */
  function SlashSpell(line: string): string
    requires HasActionsSlash(line)
  {
    SlashAfterActions(line);
    TakeWhile(line[Find(line, "=/").value + 2..], IsSpellChar)
  }

  /** The stripped text after the first `=` up to the next `,`. */
  function PlainSpell(line: string): string
    requires '=' in line
  {
    Strip(Split(Split(line, '=')[1], ',')[0])
  }

  /** A line gives a candidate exactly when it holds `actions` and `=`; in
      the `=/` scheme the candidate is made of `[a-z_]` only. */
  lemma ExtractSpellShape(line: string)
    ensures ExtractSpell(line).None? <==> !IsSubstring("actions", line) || '=' !in line
    ensures ExtractSpell(line).Some? && HasActionsSlash(line) ==>
      forall k :: 0 <= k < |ExtractSpell(line).value| ==> IsSpellChar(ExtractSpell(line).value[k])
  {
  }

  /** `TakeWhile` stops exactly at the end of a run. */
  lemma {:induction false} TakeWhileRun(run: string, rest: string, p: char -> bool)
    requires forall k :: 0 <= k < |run| ==> p(run[k])
    requires rest == "" || !p(rest[0])
    ensures TakeWhile(run + rest, p) == run
    decreases |run|
  {
    if |run| > 0 {
      assert (run + rest)[1..] == run[1..] + rest;
      TakeWhileRun(run[1..], rest, p);
      assert run == [run[0]] + run[1..];
    } else {
      assert run + rest == rest;
    }
  }

  /** In the `=/` scheme the spell is the `[a-z_]` run after the `=/`:
      `actions.cooldowns+=/berserking,if=...` gives `berserking`. */
  lemma SlashActionSpell(before: string, spell: string, after: string)
    requires IsSubstring("actions", before) && '=' !in before
    requires forall k :: 0 <= k < |spell| ==> IsSpellChar(spell[k])
    requires after == "" || !IsSpellChar(after[0])
    ensures ExtractSpell(before + "=/" + spell + after) == Some(spell)
  {
    var line := before + "=/" + spell + after;
    assert line == before + "=/" + (spell + after);
    SlashMatches(line, before, spell + after);
    FirstSlash(line, before, spell + after);
    assert line[|before| + 2..] == spell + after;
    TakeWhileRun(spell, after, IsSpellChar);
    assert SlashSpell(line) == spell;
  }

  /** The pattern matches `before=/rest` when `before` holds `actions` and
      no `=`. */
  lemma SlashMatches(line: string, before: string, rest: string)
    requires IsSubstring("actions", before) && '=' !in before
    requires line == before + "=/" + rest
    ensures IsSubstring("actions", line) && '=' in line && HasActionsSlash(line)
  {
    var i: nat :| i <= |before| && OccursAt("actions", before, i);
    assert line[i..i + 7] == before[i..i + 7];
    assert OccursAt("actions", line, i);
    var tail := line[i + 7..];
    var j := |before| - i - 7;
    assert tail[j] == '=' && tail[j + 1] == '/';
    assert tail[..j] == before[i + 7..];
    assert IndexOf(tail, '=') == j;
    assert ActionsSlashAt(line, i);
    assert line[|before|] == '=';
  }

  /** The first `=/` of `before=/rest` is the one after `before`. */
  lemma FirstSlash(line: string, before: string, rest: string)
    requires '=' !in before
    requires line == before + "=/" + rest
    ensures Find(line, "=/") == Some(|before|)
  {
    assert line[|before|..|before| + 2] == "=/";
    assert OccursAt("=/", line, |before|);
    forall k: nat | k < |before| ensures !OccursAt("=/", line, k) {
      assert line[k] == before[k];
    }
    var v := Find(line, "=/");
    assert v.Some?;
  }

  /** A substring of a prefix is a substring of the whole. */
  lemma SubstringOfPrefix(sub: string, a: string, b: string)
    requires IsSubstring(sub, a)
    ensures IsSubstring(sub, a + b)
  {
    var i: nat :| i <= |a| && OccursAt(sub, a, i);
    assert (a + b)[i..i + |sub|] == a[i..i + |sub|];
    assert OccursAt(sub, a + b, i);
  }

  /** The first `,` field of the first `=` field of `text,after` is `text`. */
  lemma FirstFieldIsText(text: string, after: string)
    requires '=' !in text && ',' !in text
    ensures Split(Split(text + "," + after, '=')[0], ',')[0] == text
  {
    var u := text + "," + after;
    assert u[..|text|] == text && u[|text|] == ',';
    var w: string;
    if '=' in u {
      var j := IndexOf(u, '=');
      assert u[..j] == text + [','] + u[|text| + 1..j] by {
        assert forall m :: 0 <= m < |text| ==> u[m] == text[m] != '=';
      }
      w := u[|text| + 1..j];
      SplitHead(u, '=');
      assert u[..j] == text + [','] + w;
    } else {
      w := after;
      assert u == text + [','] + after;
    }
    SplitAfterFirst(text, ',', w);
  }

  /** In the plain scheme, a line the pattern does not match, the spell is
      the stripped text between the first `=` and the next `,`:
      `actions+=/` aside, `actions.st=ice_lance,if=...` gives `ice_lance`. */
  lemma PlainActionSpell(before: string, text: string, after: string)
    requires IsSubstring("actions", before) && '=' !in before
    requires '=' !in text && ',' !in text
    requires !HasActionsSlash(before + "=" + text + "," + after)
    ensures ExtractSpell(before + "=" + text + "," + after) == Some(Strip(text))
  {
    var line := before + "=" + text + "," + after;
    var u := text + "," + after;
    assert line == before + (['='] + u);
    SubstringOfPrefix("actions", before, ['='] + u);
    assert line[|before|] == '=';
    PlainFields(line, before, text, after);
    assert PlainSpell(line) == Strip(text);
  }

  /** The first `,` field of the second `=` field of `before=text,after`. */
  lemma PlainFields(line: string, before: string, text: string, after: string)
    requires '=' !in before && '=' !in text && ',' !in text
    requires line == before + "=" + text + "," + after
    ensures Split(Split(line, '=')[1], ',')[0] == text
  {
    var u := text + "," + after;
    assert line == before + ['='] + u;
    SplitAfterFirst(before, '=', u);
    var fields := Split(line, '=');
    assert fields[1] == Split(u, '=')[0];
    FirstFieldIsText(text, after);
  }

  /** A spell no filter rejects: non-empty, not `auto_attack` and not a
      directive. */
  predicate Admissible(spell: string) {
    spell != "" && spell != "auto_attack" && spell !in Directives
  }

  /** A spell the loop adds: admissible and not collected yet. */
  predicate Accepted(spell: string, spells: seq<string>) {
    Admissible(spell) && spell !in spells
  }

  /** The candidate spell of each line. */
  function Candidates(lines: seq<string>): (r: seq<Option<string>>)
    ensures |r| == |lines|
    ensures forall i :: 0 <= i < |lines| ==> r[i] == ExtractSpell(lines[i])
  {
    seq(|lines|, i requires 0 <= i < |lines| => ExtractSpell(lines[i]))
  }

  /** The spells collected so far, after one more candidate. */
  function AddCandidate(spells: seq<string>, candidate: Option<string>): seq<string> {
    match candidate
    case None => spells
    case Some(s) => if Accepted(s, spells) then spells + [s] else spells
  }

  /** The spells collected from the candidates of the lines, in order of
      first appearance. */
  function Collect(found: seq<Option<string>>): seq<string> {
    if |found| == 0 then []
    else AddCandidate(Collect(found[..|found| - 1]), found[|found| - 1])
  }

  /** One more line of the loop. */
  lemma CollectNext(found: seq<Option<string>>, i: nat)
    requires i < |found|
    ensures Collect(found[..i + 1]) == AddCandidate(Collect(found[..i]), found[i])
  {
    assert found[..i + 1][..i] == found[..i];
  }

  /** Each spell is collected once. */
  lemma {:induction false} CollectDistinct(found: seq<Option<string>>)
    ensures Distinct(Collect(found))
  {
    if |found| > 0 {
      CollectDistinct(found[..|found| - 1]);
    }
  }

  /** Every collected spell is admissible and a candidate. */
  lemma {:induction false} CollectSound(found: seq<Option<string>>)
    ensures forall x :: x in Collect(found) ==> Admissible(x) && Some(x) in found
  {
    if |found| > 0 {
      var p := found[..|found| - 1];
      CollectSound(p);
      assert found == p + [found[|found| - 1]];
    }
  }

  /** Every admissible candidate is collected. */
  lemma {:induction false} CollectComplete(found: seq<Option<string>>, i: nat, x: string)
    requires i < |found| && found[i] == Some(x) && Admissible(x)
    ensures x in Collect(found)
  {
    var n := |found| - 1;
    var p := found[..n];
    if i < n {
      assert p[i] == found[i];
      CollectComplete(p, i, x);
    }
  }

  /** The loop over the lines of the chosen file, then `spells.sort()`. */
  method SpellsFromLines(lines: seq<string>) returns (spells: seq<string>)
    ensures spells == Sort(Collect(Candidates(lines)))
  {
    ghost var found := Candidates(lines);
    spells := [];
    var i := 0;
    while i < |lines|
      invariant 0 <= i <= |lines|
      invariant spells == Collect(found[..i])
    {
      CollectNext(found, i);
      var spell := ExtractSpell(lines[i]);
      assert spell == found[i];
      if spell.Some? && Accepted(spell.value, spells) {
        spells := spells + [spell.value];
      }
      i := i + 1;
    }
    assert found[..i] == found;
    spells := Sort(spells);
  }

  /** The spells of a file are sorted and distinct; they are exactly the
      admissible candidate spells of its lines. */
  lemma SpellsOfLines(lines: seq<string>)
    ensures var r := Sort(Collect(Candidates(lines)));
      && Sorted(r) && Distinct(r)
      && (forall x :: x in r ==> Admissible(x) && exists i :: 0 <= i < |lines| && ExtractSpell(lines[i]) == Some(x))
      && (forall i :: 0 <= i < |lines| && ExtractSpell(lines[i]).Some? && Admissible(ExtractSpell(lines[i]).value) ==>
            ExtractSpell(lines[i]).value in r)
  {
    var found := Candidates(lines);
    CollectDistinct(found);
    CollectSound(found);
    forall x | Some(x) in found
      ensures exists i :: 0 <= i < |lines| && ExtractSpell(lines[i]) == Some(x)
    {
      var i :| 0 <= i < |found| && found[i] == Some(x);
    }
    forall i | 0 <= i < |lines| && ExtractSpell(lines[i]).Some? && Admissible(ExtractSpell(lines[i]).value)
      ensures ExtractSpell(lines[i]).value in Collect(found)
    {
      CollectComplete(found, i, ExtractSpell(lines[i]).value);
    }
  }

  /** A listed `.simc` file whose name starts with `prefix`. */
  function TwwCandidate(isFile: string -> bool, prefix: string): string -> bool {
    f => isFile(f) && EndsWith(f, ".simc") && StartsWith(f, prefix)
  }

  /** The listing holds a regular `.simc` file. */
  predicate AnySimcFile(files: seq<string>, isFile: string -> bool) {
    exists i :: 0 <= i < |files| && isFile(files[i]) && EndsWith(files[i], ".simc")
  }

  /** The `90_` file of a class/spec. */
  function NinetyName(classSpec: string): (f: string)
    ensures EndsWith(f, ".simc") && !StartsWith(f, "TWW1_")
  {
    var f := "90_" + classSpec + ".simc";
    assert f[|f| - 5..] == ".simc";
    assert f[0] == '9';
    f
  }

  /** The prefix of the `TWW1_` files of a class/spec: its first two `_`
      fields. */
  function TwwPrefix(classSpec: string): (p: string)
    requires |Split(classSpec, '_')| >= 2
    ensures StartsWith(p, "TWW1_")
  {
    var parts := Split(classSpec, '_');
    "TWW1_" + parts[0] + "_" + parts[1]
  }

  /** The listing holds a `TWW1_` file of the class/spec. */
  predicate HasTwwFile(classSpec: string, files: seq<string>, isFile: string -> bool) {
    |Split(classSpec, '_')| >= 2 &&
    exists i :: 0 <= i < |files| && TwwCandidate(isFile, TwwPrefix(classSpec))(files[i])
  }

  /** The `TWW1_` files the scan of the listing collects, or the failure of
      building the prefix. */
  function TwwFiles(classSpec: string, files: seq<string>, isFile: string -> bool): Option<seq<string>> {
    if |Split(classSpec, '_')| < 2 then
      if AnySimcFile(files, isFile) then None else Some([])
    else Some(Filter(files, TwwCandidate(isFile, TwwPrefix(classSpec))))
  }

  /** The file read for a class/spec: the first listed `.simc` file whose
      name starts with `TWW1_<class>_<spec>`, else `90_<class_spec>.simc`
      when it is a file, else none. Building the `TWW1_` prefix needs two
      `_` fields and fails (`Err`, an IndexError) for a class/spec with no
      `_` as soon as a `.simc` file is met. */
  function SpellFile(classSpec: string, files: seq<string>, isFile: string -> bool): Result<Option<string>, ()> {
    match TwwFiles(classSpec, files, isFile)
    case None => Err(())
    case Some(tww) =>
      if |tww| > 0 then Ok(Some(tww[0]))
      else if isFile(NinetyName(classSpec)) then Ok(Some(NinetyName(classSpec))) else Ok(None)
  }

  /** The choice of file: an error exactly when the class/spec has no `_`
      and a `.simc` file is listed; otherwise the first listed `TWW1_` file
      of the class/spec when there is one, else the `90_` file when it is a
      file, else none. Whatever is chosen is a `.simc` file. */
  lemma SpellFileChoice(classSpec: string, files: seq<string>, isFile: string -> bool)
    ensures var r := SpellFile(classSpec, files, isFile);
      && (r.Err? <==> |Split(classSpec, '_')| < 2 && AnySimcFile(files, isFile))
      && (r.Ok? && r.value.Some? ==> isFile(r.value.value) && EndsWith(r.value.value, ".simc"))
      && (r.Ok? && HasTwwFile(classSpec, files, isFile) ==>
            exists j :: 0 <= j < |files| && r == Ok(Some(files[j])) &&
              TwwCandidate(isFile, TwwPrefix(classSpec))(files[j]) &&
              forall k :: 0 <= k < j ==> !TwwCandidate(isFile, TwwPrefix(classSpec))(files[k]))
      && (r.Ok? && !HasTwwFile(classSpec, files, isFile) ==>
            r == if isFile(NinetyName(classSpec)) then Ok(Some(NinetyName(classSpec))) else Ok(None))
  {
    if |Split(classSpec, '_')| >= 2 {
      var tww := Filter(files, TwwCandidate(isFile, TwwPrefix(classSpec)));
      if |tww| > 0 {
        FilterFirst(files, TwwCandidate(isFile, TwwPrefix(classSpec)));
        assert tww[0] in tww;
      }
    }
  }

  /** The spells of a class/spec: those of the file `SpellFile` picks,
      sorted, or none when there is no file. */
  function SpellsOf(classSpec: string, files: seq<string>, isFile: string -> bool, read: string -> seq<string>): Result<seq<string>, ()> {
    match SpellFile(classSpec, files, isFile)
    case Err(_) => Err(())
    case Ok(None) => Ok([])
    case Ok(Some(f)) => Ok(Sort(Collect(Candidates(read(f)))))
  }

  /** The scan of the listing for `TWW1_` files; `None` when building the
      prefix fails. */
  method ScanListing(classSpec: string, files: seq<string>, isFile: string -> bool) returns (tww: Option<seq<string>>)
    ensures tww == TwwFiles(classSpec, files, isFile)
  {
    var parts := Split(classSpec, '_');
    ghost var wanted := if |parts| >= 2 then TwwCandidate(isFile, TwwPrefix(classSpec)) else f => false;
    var found: seq<string> := [];
    var i := 0;
    while i < |files|
      invariant 0 <= i <= |files|
      invariant |parts| < 2 ==> forall k :: 0 <= k < i ==> !(isFile(files[k]) && EndsWith(files[k], ".simc"))
      invariant found == Filter(files[..i], wanted)
      invariant |parts| < 2 ==> found == []
    {
      TakeOneMore(files, i);
      var f := files[i];
      FilterAppend(files[..i], f, wanted);
      if isFile(f) && EndsWith(f, ".simc") {
        if |parts| < 2 {
          assert AnySimcFile(files, isFile);
          return None;
        }
        if StartsWith(f, TwwPrefix(classSpec)) {
          assert wanted(f);
          found := found + [f];
        } else {
          assert !wanted(f);
        }
      } else {
        assert !wanted(f);
      }
      i := i + 1;
    }
    assert files[..i] == files;
    assert |parts| < 2 ==> !AnySimcFile(files, isFile);
    return Some(found);
  }

  /** The scan of the listing and the fallback to the `90_` file. */
  method FindSpellFile(classSpec: string, files: seq<string>, isFile: string -> bool)
    returns (r: Result<Option<string>, ()>)
    ensures r == SpellFile(classSpec, files, isFile)
  {
    var tww := ScanListing(classSpec, files, isFile);
    if tww.None? {
      return Err(());
    }
    if |tww.value| > 0 {
      return Ok(Some(tww.value[0]));
    }
    var ninety := NinetyName(classSpec);
    if !isFile(ninety) {
      return Ok(None);
    }
    return Ok(Some(ninety));
  }

  /** `get_spells_from_class_spec`: the spells of the lines of the file
      `FindSpellFile` picks (`read` gives the lines of a file). The result is
      sorted and holds each spell once, every one of them admissible. */
  method GetSpellsFromClassSpec(classSpec: string, files: seq<string>, isFile: string -> bool, read: string -> seq<string>)
    returns (r: Result<seq<string>, ()>)
    ensures r == SpellsOf(classSpec, files, isFile, read)
    ensures r.Ok? ==> Sorted(r.value) && Distinct(r.value)
    ensures r.Ok? ==> forall x :: x in r.value ==> Admissible(x)
  {
    var file := FindSpellFile(classSpec, files, isFile);
    if file.Err? {
      return Err(());
    }
    if file.value.None? {
      return Ok([]);
    }
    var spells := SpellsFromLines(read(file.value.value));
    SpellsOfLines(read(file.value.value));
    r := Ok(spells);
  }

  // -----------------------------------------------------------------------
  // The class and specialization menus

  /** The class of a class/spec: the text before the first `_`. */
  function ClassOf(classSpec: string): string {
    Split(classSpec, '_')[0]
  }

  /** The spec of a class/spec: the fields after the first, joined by `_`. */
  function SpecOf(classSpec: string): string {
    Join(Split(classSpec, '_')[1..], "_")
  }

  /** A class/spec with a `_` is its class and spec joined by `_`, and the
      class holds no `_`. */
  lemma ClassAndSpec(classSpec: string)
    requires '_' in classSpec
    ensures ClassOf(classSpec) + "_" + SpecOf(classSpec) == classSpec
    ensures '_' !in ClassOf(classSpec)
  {
    var parts := Split(classSpec, '_');
    JoinSplit(classSpec, '_');
    assert parts == [parts[0]] + parts[1..];
    JoinCons(parts[0], parts[1..], "_");
  }

  /** Specs appended to their class's list, classes in order of first
      appearance; a class/spec without `_` is skipped. */
  function AddSpec(classes: Dict<seq<string>>, classSpec: string): (r: Dict<seq<string>>)
    requires classes.Valid()
    ensures r.Valid()
  {
    if '_' !in classSpec then classes
    else
      var c, s := ClassOf(classSpec), SpecOf(classSpec);
      if c in classes.entries then Dict(classes.order, classes.entries[c := classes.entries[c] + [s]])
      else classes.Put(c, [s])
  }

  /** The grouping of class/specs by class. */
  function Grouped(available: seq<string>): (r: Dict<seq<string>>)
    ensures r.Valid()
  {
    if |available| == 0 then Empty()
    else AddSpec(Grouped(available[..|available| - 1]), available[|available| - 1])
  }

  /** Every spec listed under a class comes from a class/spec of the input,
      and every class/spec with a `_` is listed under its class. */
  lemma {:induction false} GroupedMembers(available: seq<string>)
    ensures forall c, s :: c in Grouped(available).entries && s in Grouped(available).entries[c] ==>
      c + "_" + s in available
    ensures forall cs :: cs in available && '_' in cs ==>
      ClassOf(cs) in Grouped(available).entries && SpecOf(cs) in Grouped(available).entries[ClassOf(cs)]
  {
    if |available| > 0 {
      var p := available[..|available| - 1];
      var x := available[|available| - 1];
      GroupedMembers(p);
      assert available == p + [x];
      if '_' in x {
        ClassAndSpec(x);
      }
    }
  }

  /** The loop that groups the class/specs. */
  method GroupByClass(available: seq<string>) returns (classes: Dict<seq<string>>)
    ensures classes == Grouped(available)
  {
    classes := Empty();
    var i := 0;
    while i < |available|
      invariant 0 <= i <= |available|
      invariant classes == Grouped(available[..i])
    {
      TakeOneMore(available, i);
      assert available[..i + 1][..i] == available[..i];
      var parts := Split(available[i], '_');
      if |parts| >= 2 {
        var c, s := parts[0], Join(parts[1..], "_");
        assert c == ClassOf(available[i]) && s == SpecOf(available[i]);
        if c in classes.entries {
          classes := Dict(classes.order, classes.entries[c := classes.entries[c] + [s]]);
        } else {
          classes := classes.Put(c, [s]);
        }
      }
      assert classes == AddSpec(Grouped(available[..i]), available[i]);
      i := i + 1;
    }
    assert available[..i] == available;
  }

  /** Index of the first answer that is a number between 1 and `n`; answers
      that are not numbers (`None`) or out of range are asked again. */
  function FirstValid(answers: seq<Option<int>>, n: nat): (r: Option<nat>)
    ensures r.Some? ==> r.value < |answers| && answers[r.value].Some? && 1 <= answers[r.value].value <= n
    ensures r.Some? ==> forall k :: 0 <= k < r.value ==> answers[k].None? || !(1 <= answers[k].value <= n)
    ensures r.None? ==> forall k :: 0 <= k < |answers| ==> answers[k].None? || !(1 <= answers[k].value <= n)
  {
    if |answers| == 0 then None
    else if answers[0].Some? && 1 <= answers[0].value <= n then Some(0)
    else match FirstValid(answers[1..], n)
      case None => None
      case Some(k) => Some(k + 1)
  }

  /** One menu's input loop. */
  method AskChoice(answers: seq<Option<int>>, n: nat) returns (pos: Option<nat>)
    ensures pos == FirstValid(answers, n)
  {
    var i := 0;
    while i < |answers|
      invariant 0 <= i <= |answers|
      invariant forall k :: 0 <= k < i ==> answers[k].None? || !(1 <= answers[k].value <= n)
    {
      if answers[i].Some? && 1 <= answers[i].value <= n {
        FirstValidAt(answers, n, i);
        return Some(i);
      }
      i := i + 1;
    }
    FirstValidNone(answers, n);
    return None;
  }

  lemma {:induction false} FirstValidAt(answers: seq<Option<int>>, n: nat, i: nat)
    requires i < |answers| && answers[i].Some? && 1 <= answers[i].value <= n
    requires forall k :: 0 <= k < i ==> answers[k].None? || !(1 <= answers[k].value <= n)
    ensures FirstValid(answers, n) == Some(i)
    decreases i
  {
    if i > 0 {
      FirstValidAt(answers[1..], n, i - 1);
    }
  }

  lemma {:induction false} FirstValidNone(answers: seq<Option<int>>, n: nat)
    requires forall k :: 0 <= k < |answers| ==> answers[k].None? || !(1 <= answers[k].value <= n)
    ensures FirstValid(answers, n) == None
    decreases |answers|
  {
    if |answers| > 0 {
      FirstValidNone(answers[1..], n);
    }
  }

  /** The class/spec the menus pick: the class numbered by the first valid
      answer in the sorted class list, then the spec numbered by the next
      valid answer in that class's list; `None` when the answers run out. */
  function ChosenFrom(classes: Dict<seq<string>>, answers: seq<Option<int>>): Option<string>
    requires classes.Valid()
  {
    var classList := Sort(classes.order);
    match FirstValid(answers, |classList|)
    case None => None
    case Some(p) => ChosenSpec(classes, classList[answers[p].value - 1], answers[p + 1..])
  }

  /** The spec numbered by the first valid answer in the list of `cls`. */
  function ChosenSpec(classes: Dict<seq<string>>, cls: string, answers: seq<Option<int>>): Option<string>
    requires cls in classes.entries
  {
    var specs := classes.entries[cls];
    match FirstValid(answers, |specs|)
    case None => None
    case Some(q) => Some(cls + "_" + specs[answers[q].value - 1])
  }

  /** The class/spec picked from the grouping of the available ones. */
  function ChosenClassSpec(available: seq<string>, answers: seq<Option<int>>): Option<string> {
    ChosenFrom(Grouped(available), answers)
  }

  /** The menus only ever return one of the available class/specs. */
  lemma ChosenIsAvailable(available: seq<string>, answers: seq<Option<int>>)
    ensures ChosenClassSpec(available, answers).Some? ==> ChosenClassSpec(available, answers).value in available
  {
    GroupedMembers(available);
  }

  /** The two prompts, over a grouping. */
  method Choose(classes: Dict<seq<string>>, answers: seq<Option<int>>) returns (r: Option<string>)
    requires classes.Valid()
    ensures r == ChosenFrom(classes, answers)
  {
    var classList := Sort(classes.order);
    var p := AskChoice(answers, |classList|);
    if p.None? {
      return None;
    }
    r := ChooseSpec(classes, classList[answers[p.value].value - 1], answers[p.value + 1..]);
  }

  /** The specialization prompt for the chosen class. */
  method ChooseSpec(classes: Dict<seq<string>>, cls: string, answers: seq<Option<int>>) returns (r: Option<string>)
    requires cls in classes.entries
    ensures r == ChosenSpec(classes, cls, answers)
  {
    var specs := classes.entries[cls];
    var q := AskChoice(answers, |specs|);
    if q.None? {
      return None;
    }
    r := Some(cls + "_" + specs[answers[q.value].value - 1]);
  }

  /** `select_class_and_spec`, given the class/specs found and the answers
      typed at the two prompts. */
  method SelectClassAndSpec(available: seq<string>, answers: seq<Option<int>>) returns (r: Option<string>)
    ensures r == ChosenClassSpec(available, answers)
    ensures r.Some? ==> r.value in available
  {
    var classes := GroupByClass(available);
    r := Choose(classes, answers);
    ChosenIsAvailable(available, answers);
  }
}

=== FILE: sorting.dfy ===
/** Python's `list.sort()` and `sorted()` on lists of strings: strings are
    ordered lexicographically by code point. */
module Sorting {

  /** `a <= b` for Python strings. */
  predicate LessEq(a: string, b: string)
    decreases |a|
  {
    |a| == 0 || (|b| > 0 && (a[0] < b[0] || (a[0] == b[0] && LessEq(a[1..], b[1..]))))
  }

  /** Any two strings are comparable. */
  lemma {:induction false} LessEqTotal(a: string, b: string)
    ensures LessEq(a, b) || LessEq(b, a)
    decreases |a|
  {
    if |a| > 0 && |b| > 0 && a[0] == b[0] {
      LessEqTotal(a[1..], b[1..]);
    }
  }

  /** The order is antisymmetric, so a sorted list of distinct strings is
      strictly increasing. */
  lemma {:induction false} LessEqAntisymmetric(a: string, b: string)
    requires LessEq(a, b) && LessEq(b, a)
    ensures a == b
    decreases |a|
  {
    if |a| > 0 {
      LessEqAntisymmetric(a[1..], b[1..]);
      assert a == [a[0]] + a[1..] && b == [b[0]] + b[1..];
    }
  }

  predicate Sorted(s: seq<string>) {
    forall i :: 0 < i < |s| ==> LessEq(s[i - 1], s[i])
  }

  predicate Distinct(s: seq<string>) {
    forall i, j :: 0 <= i < j < |s| ==> s[i] != s[j]
  }

  /** Inserts `x` before the first element it does not exceed. */
  function Insert(x: string, s: seq<string>): (r: seq<string>)
    requires Sorted(s)
    ensures Sorted(r)
    ensures multiset(r) == multiset(s) + multiset{x}
    ensures |r| > 0 && (r[0] == x || (|s| > 0 && r[0] == s[0]))
  {
    if |s| == 0 || LessEq(x, s[0]) then [x] + s
    else
      LessEqTotal(x, s[0]);
      var tail := Insert(x, s[1..]);
      assert s == [s[0]] + s[1..];
      [s[0]] + tail
  }

  lemma SameElements(a: seq<string>, b: seq<string>)
    requires multiset(a) == multiset(b)
    ensures forall y :: y in a <==> y in b
  {
    forall y ensures y in a <==> y in b {
      assert y in a <==> y in multiset(a);
      assert y in b <==> y in multiset(b);
    }
  }

  /** Inserting a new element into distinct elements keeps them distinct. */
  lemma {:induction false} InsertKeepsDistinct(x: string, s: seq<string>)
    requires Sorted(s) && Distinct(s) && x !in s
    ensures Distinct(Insert(x, s))
  {
    if |s| > 0 && !LessEq(x, s[0]) {
      assert s == [s[0]] + s[1..];
      InsertKeepsDistinct(x, s[1..]);
      var tail := Insert(x, s[1..]);
      SameElements(tail, s[1..] + [x]);
      assert s[0] !in tail;
    }
  }

  /** `sorted(s)`: an ascending permutation of `s`, which keeps the elements
      and so keeps them distinct. */
  function Sort(s: seq<string>): (r: seq<string>)
    ensures Sorted(r)
    ensures multiset(r) == multiset(s)
    ensures forall y :: y in r <==> y in s
    ensures Distinct(s) ==> Distinct(r)
  {
    if |s| == 0 then []
    else
      assert s == [s[0]] + s[1..];
      var rest := Sort(s[1..]);
      var r := Insert(s[0], rest);
      SameElements(r, s);
      if Distinct(s) then
        assert s[0] !in rest;
        InsertKeepsDistinct(s[0], rest);
        r
      else r
  }
}

=== FILE: text.dfy ===
/** String operations of Python's `str` that the configuration code relies on:
    `lower`, `strip`, `in`, `startswith`, `endswith`, `replace`, `split` and
    `join`, each with the semantics the interpreter gives it. */
module Text {
  import opened Seqs
  import opened Wrappers

  /** Python's `str.isspace` for one character: the characters `str.strip()`
      removes when called without arguments. */
  predicate IsSpace(c: char) {
    ('\t' <= c <= '\r') || ('\U{1C}' <= c <= ' ') || c == '\U{85}' || c == '\U{A0}' ||
    c == '\U{1680}' || ('\U{2000}' <= c <= '\U{200A}') || c == '\U{2028}' || c == '\U{2029}' ||
    c == '\U{202F}' || c == '\U{205F}' || c == '\U{3000}'
  }

  predicate IsUpper(c: char) { 'A' <= c <= 'Z' }

  function LowerChar(c: char): char {
    if IsUpper(c) then (c as int + 32) as char else c
  }

  /** `s.lower()` restricted to ASCII letters. */
  function Lower(s: string): (r: string)
    ensures |r| == |s|
    ensures forall i :: 0 <= i < |s| ==> r[i] == LowerChar(s[i])
  {
    seq(|s|, i requires 0 <= i < |s| => LowerChar(s[i]))
  }

  /** A string without upper-case letters is its own lower-case form. */
  lemma LowerOfLowerCase(s: string)
    requires forall i :: 0 <= i < |s| ==> !IsUpper(s[i])
    ensures Lower(s) == s
  {
  }

  /** `s` lowercases to `skip`, spelled out character by character. */
  predicate SaysSkip(s: string) {
    |s| == 4 && LowerChar(s[0]) == 's' && LowerChar(s[1]) == 'k' && LowerChar(s[2]) == 'i' && LowerChar(s[3]) == 'p'
  }

  /** `SaysSkip` is the test `s.lower() == 'skip'`. */
  lemma SaysSkipIsLowerSkip(s: string)
    ensures SaysSkip(s) <==> Lower(s) == "skip"
  {
    if Lower(s) == "skip" {
      assert Lower(s)[0] == 's' && Lower(s)[1] == 'k' && Lower(s)[2] == 'i' && Lower(s)[3] == 'p';
    }
  }

  /** `sub` occurs in `s` starting at index `i`. */
  predicate OccursAt(sub: string, s: string, i: nat) {
    i + |sub| <= |s| && s[i..i + |sub|] == sub
  }

  /** `sub in s` for strings. */
  predicate IsSubstring(sub: string, s: string) {
    exists i: nat :: i <= |s| && OccursAt(sub, s, i)
  }

  predicate StartsWith(s: string, prefix: string) {
    |prefix| <= |s| && s[..|prefix|] == prefix
  }

  predicate EndsWith(s: string, suffix: string) {
    |suffix| <= |s| && s[|s| - |suffix|..] == suffix
  }

  /** `s.replace(pat, rep)`: every non-overlapping occurrence of `pat`,
      scanning from the left, is replaced by `rep`. */
  function ReplaceAll(s: string, pat: string, rep: string): (r: string)
    requires |pat| > 0
    decreases |s|
  {
    if |s| == 0 then ""
    else if StartsWith(s, pat) then rep + ReplaceAll(s[|pat|..], pat, rep)
    else [s[0]] + ReplaceAll(s[1..], pat, rep)
  }

  /** Index of the first occurrence of `c` in `s`. */
  function IndexOf(s: string, c: char): (r: nat)
    requires c in s
    ensures r < |s| && s[r] == c && c !in s[..r]
  {
    if s[0] == c then 0 else 1 + IndexOf(s[1..], c)
  }

  /** `s.split(c)` for a one-character separator: one more field than there are
      separators, none of the fields contains the separator. */
  function Split(s: string, c: char): (r: seq<string>)
    ensures |r| >= 1
    ensures (|r| >= 2) == (c in s)
    ensures forall i :: 0 <= i < |r| ==> c !in r[i]
    ensures c !in s ==> r == [s]
    decreases |s|
  {
    if c !in s then [s]
    else
      var i := IndexOf(s, c);
      [s[..i]] + Split(s[i + 1..], c)
  }

  /** `sep.join(parts)`. */
  function Join(parts: seq<string>, sep: string): string {
    if |parts| == 0 then ""
    else if |parts| == 1 then parts[0]
    else parts[0] + sep + Join(parts[1..], sep)
  }

  lemma JoinCons(head: string, rest: seq<string>, sep: string)
    requires |rest| >= 1
    ensures Join([head] + rest, sep) == head + sep + Join(rest, sep)
  {
    var parts := [head] + rest;
    assert parts[0] == head && parts[1..] == rest;
  }

  /** Joining the fields of a split with the separator gives back the string. */
  lemma {:induction false} JoinSplit(s: string, c: char)
    ensures Join(Split(s, c), [c]) == s
    decreases |s|
  {
    if c in s {
      var i := IndexOf(s, c);
      var head, tail := s[..i], s[i + 1..];
      JoinSplit(tail, c);
      assert Split(s, c) == [head] + Split(tail, c);
      JoinCons(head, Split(tail, c), [c]);
      Around(s, i);
    }
  }

  /** Splitting `a + c + b` on `c`, where `a` holds no `c`, gives `a` and then
      the fields of `b`. */
  lemma SplitAfterFirst(a: string, c: char, b: string)
    requires c !in a
    ensures Split(a + [c] + b, c) == [a] + Split(b, c)
  {
    var s := a + [c] + b;
    assert s[|a|] == c;
    assert s[..|a|] == a;
    var i := IndexOf(s, c);
    assert s[..i] == a;
    assert s[i + 1..] == b;
  }

  /** The first field of a split is the text before the first separator. */
  lemma SplitHead(s: string, c: char)
    requires c in s
    ensures Split(s, c)[0] == s[..IndexOf(s, c)]
  {
  }

  function TrimStart(s: string): (r: string)
    ensures |r| <= |s| && r == s[|s| - |r|..]
    ensures forall i :: 0 <= i < |s| - |r| ==> IsSpace(s[i])
    ensures |r| > 0 ==> !IsSpace(r[0])
  {
    if |s| > 0 && IsSpace(s[0]) then TrimStart(s[1..]) else s
  }

  function TrimEnd(s: string): (r: string)
    ensures |r| <= |s| && r == s[..|r|]
    ensures forall i :: |r| <= i < |s| ==> IsSpace(s[i])
    ensures |r| > 0 ==> !IsSpace(r[|r| - 1])
  {
    if |s| > 0 && IsSpace(s[|s| - 1]) then TrimEnd(s[..|s| - 1]) else s
  }

  /** `s.strip()`: white space removed from both ends. */
  function Strip(s: string): (r: string)
    ensures |r| > 0 ==> !IsSpace(r[0]) && !IsSpace(r[|r| - 1])
  {
    TrimEnd(TrimStart(s))
  }

  /** What `Strip` removes is white space only, from the two ends. */
  lemma StripIsSlice(s: string)
    ensures exists i, j ::
      && 0 <= i <= j <= |s| && Strip(s) == s[i..j]
      && (forall k :: 0 <= k < i ==> IsSpace(s[k]))
      && (forall k :: j <= k < |s| ==> IsSpace(s[k]))
  {
    var t := TrimStart(s);
    var r := TrimEnd(t);
    var i := |s| - |t|;
    var j := i + |r|;
    PrefixOfSuffix(s, i, |r|);
    forall k | j <= k < |s| ensures IsSpace(s[k]) {
      assert s[k] == t[k - i];
    }
    assert Strip(s) == s[i..j];
  }

  /** A string that neither begins nor ends with white space is unchanged. */
  lemma StripUnchanged(s: string)
    requires |s| > 0 ==> !IsSpace(s[0]) && !IsSpace(s[|s| - 1])
    ensures Strip(s) == s
  {
  }

  /** Stripping twice strips nothing more. */
  lemma StripIdempotent(s: string)
    ensures Strip(Strip(s)) == Strip(s)
  {
    var r := Strip(s);
    if |r| > 0 {
      assert TrimStart(r) == r;
      assert TrimEnd(r) == r;
    }
  }

  /** The longest prefix of `s` whose characters all satisfy `p`. */
  function TakeWhile(s: string, p: char -> bool): (r: string)
    ensures |r| <= |s| && r == s[..|r|]
    ensures forall i :: 0 <= i < |r| ==> p(r[i])
    ensures |r| < |s| ==> !p(s[|r|])
  {
    if |s| > 0 && p(s[0]) then [s[0]] + TakeWhile(s[1..], p) else ""
  }

  /** Index of the first occurrence of `sub` in `s`, if any (`s.find(sub)`). */
  function Find(s: string, sub: string): (r: Option<nat>)
    ensures r.Some? ==> OccursAt(sub, s, r.value)
    ensures r.Some? ==> forall k: nat :: k < r.value ==> !OccursAt(sub, s, k)
    ensures r.None? ==> !IsSubstring(sub, s)
    decreases |s|
  {
    if |sub| > |s| then None
    else if s[..|sub|] == sub then Some(0)
    else
      match Find(s[1..], sub)
      case None =>
        NotSubstringOfCons(sub, s);
        None
      case Some(k) =>
        OccursShift(sub, s, k);
        forall j: nat | 1 <= j <= k
          ensures !OccursAt(sub, s, j)
        {
          OccursShift(sub, s, j - 1);
        }
        Some(k + 1)
  }

  /** Occurrences in the tail are occurrences in the string, one index on. */
  lemma OccursShift(sub: string, s: string, k: nat)
    requires |s| > 0
    ensures OccursAt(sub, s[1..], k) <==> OccursAt(sub, s, k + 1)
  {
    if k + |sub| <= |s| - 1 {
      assert s[1..][k..k + |sub|] == s[k + 1..k + 1 + |sub|];
    }
  }

  lemma NotSubstringOfCons(sub: string, s: string)
    requires |sub| <= |s| && s[..|sub|] != sub && !IsSubstring(sub, s[1..])
    ensures !IsSubstring(sub, s)
  {
    if IsSubstring(sub, s) {
      var i: nat :| i <= |s| && OccursAt(sub, s, i);
      assert i != 0;
      OccursShift(sub, s, i - 1);
    }
  }
}

=== FILE: wrappers.dfy ===
/** Optional values and results with an error, in place of Python's `None`
    and its exceptions. */
module Wrappers {
  datatype Option<+T> = None | Some(value: T)

  datatype Result<+T, +E> = Ok(value: T) | Err(error: E)
}
